=== FILE: README.md ===
# WARDuino debugger core, modelled in Dafny

This project models the logic at the heart of the WARDuino debugger for VS Code. The debugger drives a WebAssembly VM that runs on a microcontroller or in an emulator. Transport, UI and process plumbing are not modelled. The modules follow the repository's files:

- `StateContext`: `src/State/context.ts`. It turns one inspection response of the VM into a sorted call stack, sorted operand-stack values, resolved globals and pending events. It also derives the function frames that the UI shows.
- `DebuggerBackend`: `src/DebugSession/DebuggerBackend.ts`. It covers:
  - the breakpoint registry, kept in step with the VM (`addBreakpoint`, `removeBreakpoint`, `setBreakPoints`);
  - the running state;
  - refreshing the context;
  - event handling.

  The VM is an oracle: it answers each request as a function of every request sent before. The properties therefore hold for every VM.
- `DebuggingTimeline`: `src/State/DebuggingTimeline.ts`. This is the list of runtime states plus the active index, with its range invariant.
- `Leb128` and `WarduinoDebugBridge`/`WarduinoBreakpoints`: `src/DebugBridges/WARDuinoDebugBridge.ts`.
  - `convertToLEB128` is signed LEB128 from section 5.2.2 ("Integers") of the WebAssembly Core Specification, rendered in upper-case hex.
  - The set-variable and breakpoint command strings are modelled together with a reader for each, so their round trips can be stated.
- `AbstractDebugBridge` and `RuntimeTypes`: `src/DebugBridges/AbstractDebugBridge.ts`. These model the program counter, the locals table of the source map, and the call stack.
- `RuntimeState`: `src/State/RuntimeState.ts`. It covers:
  - the 32-bit string hash;
  - program-counter adjustment;
  - the current function;
  - variable updates;
  - the exception branch of `fillState`;
  - `deepcopy`.
- `DebuggerConfig` and `JsValues`: `src/DebuggerConfig.ts`.
  - The validators read a JSON-like JavaScript value (`JsValue`).
  - They model `typeof`, truthiness, `hasOwnProperty`, property access on `null`/`undefined` (a `TypeError`) and `Number(x)`.
  - A thrown `InvalidDebuggerConfiguration` becomes `Err(Invalid(fault))`.
- `Numbers`, `Seqs` and `Wrappers` are shared helpers:
  - JavaScript's bitwise or with 0, `toString(radix)` and `parseInt`;
  - a stable sort and `filter`;
  - `Option`/`Result`.

JavaScript numbers are modelled as unbounded integers. Where the source truncates to 32 bits (the bitwise or with 0 in `convertToLEB128` and in `hash`), the model does so explicitly with `Numbers.ToInt32`. `>>= 7` is floor division by 128.

## Model

| member | source | states |
|---|---|---|
| StateContext.FunctionOf | src/State/context.ts:83-98 | a non-function frame has no function; a function frame's id must parse as an integer and name a known function, otherwise the specific error, never a default |
| StateContext.LocalsFromStack | src/State/context.ts:100-111 | local `k` carries the declared index, name, type and mutability and the value of stack slot `fp + index`; it fails exactly when such a slot is missing |
| StateContext.NonArgumentLocals | src/State/context.ts:106 | the locals kept are exactly the declared ones with index at or above the argument count |
| StateContext.FindLocal | src/State/context.ts:124-126 | the first local with the given index, or none exactly when no local has it |
| StateContext.ArgName | src/State/context.ts:124-126 | an argument's name is never empty: the declared name, or `arg<i>` |
| StateContext.ArgumentsOf | src/State/context.ts:123-132 | one argument per slot, with the slot's index, the argument's name, the slot's type name and its value as decimal text; an unknown value type is an error exactly when one occurs |
| StateContext.ArgumentsFromStack | src/State/context.ts:113-133 | never more arguments than the function declares (`slice` drops missing slots) |
| StateContext.ArgumentsInBounds | src/State/context.ts:113-133 | when all slots lie on the stack, argument `i` comes from slot `sp+1+i` with the declared name, and the count equals the argument count |
| StateContext.MakeFrame | src/State/context.ts:23-81 | non-function frames have no function, locals or arguments; guards have no source location; a function frame's locals and arguments are those read from the stack; function errors propagate |
| StateContext.CopyRebuilds | src/State/context.ts:38-44 | `copy` with an address equals constructing the frame again at that address, and without one keeps the frame's own address |
| StateContext.BuildDescending | src/State/context.ts:148-154 | the constructor's loop: the innermost frame is at the current address, each outer frame at the return address of the frame inside it |
| StateContext.NewCallstack | src/State/context.ts:141-158 | one stored frame per raw frame, sorted by index; an empty call stack gives no frames |
| StateContext.BuildDescendingFrames | src/State/context.ts:148-154 | the loop succeeds exactly when the frame constructor succeeds for every raw frame, and then frame `k` is the constructor's result for the `k`-th raw frame from the innermost, at the address the loop carries to it |
| StateContext.BuildDescendingError | src/State/context.ts:148-154 | a failing loop fails with the error of one of its frames; nothing is replaced by a default |
| StateContext.CallstackFramesBuilt | src/State/context.ts:141-158 | with distinct indices, stored frame `i` is the constructor's result for the `i`-th raw frame in index order, at the program counter for the innermost frame and at the return address of the next frame otherwise |
| StateContext.UnknownFunctionFailsCallstack | src/State/context.ts:141-158 | a raw frame whose function is unknown, or whose function id is not a number, makes the whole call stack fail |
| StateContext.CallstackAddresses | src/State/context.ts:144-157 | with distinct indices the stored frames are the raw frames in ascending order, the last at the program counter and each other at the return address of its successor |
| StateContext.NextFunctionAbove | src/State/context.ts:173-189 | the nearest function frame above a position, with only non-function frames in between |
| StateContext.DerivedFramesSound | src/State/context.ts:168-191 | the reference definition of `frames()` holds only function frames, each transformed from a stored function frame |
| StateContext.DerivedFramesComplete | src/State/context.ts:168-191 | every stored function frame appears, transformed, in the reference definition |
| StateContext.DerivedFramesSorted | src/State/context.ts:168-191 | the reference definition ascends strictly by index when the stored frames do |
| StateContext.FunctionFrames | src/State/context.ts:168-191 | the loop of `frames()`, on a non-empty call stack, computes the reference definition: only function frames, each of them transformed, every function frame present, ascending when the stored frames ascend |
| StateContext.DerivedAddress | src/State/context.ts:175-181 | a function frame moves to the last instruction of the location of the innermost non-function frame between it and the next function frame above it; the innermost frame, with none above it, moves to the last instruction of its own location; only a frame without such a location keeps its address; its function, locals and arguments are unchanged |
| StateContext.FrameFromIndex | src/State/context.ts:194-198 | the first stored frame with that index, none exactly when no frame has it |
| StateContext.CurrentFunctionFrame | src/State/context.ts:200-208 | the highest function frame, none exactly when there is no function frame |
| StateContext.BuildGlobals | src/State/context.ts:273-282 | each reported global resolved and given its reported value; an unknown index is an error exactly when one occurs |
| StateContext.GlobalFromName | src/State/context.ts:268-270 | the first global of that name, as `Array.prototype.find` gives it; none exactly when no global has the name |
| StateContext.BuildContext | src/State/context.ts:296-304 | absent fields become empty, the stack is a sorted permutation of the reported one, the frames are sorted, events are kept |
| StateContext.BuildContextParts | src/State/context.ts:296-304 | the context is built exactly when its call stack and its globals are; the error is the call stack's if it fails, else the globals'; the built context holds exactly those parts |
| StateContext.UnknownFunctionFails | src/State/context.ts:296-304 | a reported frame with an unknown function makes building the context fail |
| StateContext.UnknownGlobalFails | src/State/context.ts:273-282 | a reported global with an unknown index makes building the context fail |
| Seqs.SortStable | src/State/context.ts:243-245 | sorting by index keeps the order of entries with the same index (`Array.prototype.sort` is stable) |
| StateContext.EmptyResponseContext | src/State/context.ts:299-303 | an empty response gives the empty context without consulting the source map |
| StateContext.MissingPcDefaultsToZero | src/State/context.ts:299-301 | without a program counter the innermost frame is at address 0 |
| StateContext.CurrentSourceCodeLocation | src/State/context.ts:334-340 | no location without a program counter, otherwise the node at it; the source reads `sourceCFGs` without `?.`, and the model's control-flow graph is a total function, so that access never throws; one function `nodeAt` stands for both `sourceMap.sourceCFG?.nodesFromAddress` (src/State/context.ts:78) and `langAdaptors.sourceCFGs.nodesFromAddress` (src/State/context.ts:339) |
| DebuggerBackend.NewBackend | src/DebugSession/DebuggerBackend.ts:88-96 | no breakpoints; paused, empty context and not out-of-things unless the options say otherwise |
| DebuggerBackend.Run | src/DebugSession/DebuggerBackend.ts:166-172 | the state is set to running when the VM accepts and is unchanged otherwise; the answer is the VM's |
| DebuggerBackend.Pause | src/DebugSession/DebuggerBackend.ts:174-177 | paused afterwards whatever the VM answered |
| DebuggerBackend.RefreshState | src/DebugSession/DebuggerBackend.ts:257-266 | the state request is recorded as sent whatever follows; the context is rebuilt from the response, and when that fails the error is returned with the backend whose context and notifications are unchanged; on success an out-of-place VM's queue replaces the events and listeners get the new context once |
| DebuggerBackend.Step | src/DebugSession/DebuggerBackend.ts:179-183 | a step request and a state request are sent, even when rebuilding the context then fails; it succeeds exactly when the context can be built; breakpoints untouched |
| DebuggerBackend.OnBreakpointReached | src/DebugSession/DebuggerBackend.ts:201-205 | the context is the reported state's; listeners get it with its current location |
| DebuggerBackend.OnNewEvent | src/DebugSession/DebuggerBackend.ts:208-216 | an in-place VM's event is appended to the context's; an out-of-place VM's queue is what is emitted |
| DebuggerBackend.HandleEvent | src/DebugSession/DebuggerBackend.ts:134-147 | no-op unless out-of-place with a non-empty queue; an error exactly when the VM refuses; otherwise the handled event is emitted |
| DebuggerBackend.FirstIndexOf | src/DebugSession/DebuggerBackend.ts:235-238 | the position of the first breakpoint at a line, none exactly when the line has none |
| DebuggerBackend.AddBreakpoint | src/DebugSession/DebuggerBackend.ts:218-229 | appends exactly one entry when the VM accepts; unchanged and false when it rejects |
| DebuggerBackend.RemoveBreakpoint | src/DebugSession/DebuggerBackend.ts:231-248 | an unregistered line answers true and sends nothing; otherwise exactly that entry goes when the VM agrees, and nothing changes when it refuses |
| DebuggerBackend.RemoveBreakpointFirst | src/DebugSession/DebuggerBackend.ts:235-245 | a successful removal splices out the first matching entry and keeps the rest in order |
| DebuggerBackend.RemoveEach | src/DebugSession/DebuggerBackend.ts:279-283 | when every removal succeeds the registry loses exactly the removed lines; it never gains a line, and context, running state and VM are untouched |
| DebuggerBackend.RemoveEachAnswer | src/DebugSession/DebuggerBackend.ts:279-283 | the requests only grow, and the conjoined answer is true exactly when the VM accepted every request sent during the removals |
| DebuggerBackend.RemoveEachRequests | src/DebugSession/DebuggerBackend.ts:279-282 | when every line is registered, one removal request per line is sent, in order |
| DebuggerBackend.AddEach | src/DebugSession/DebuggerBackend.ts:294-298 | when every addition succeeds the lines are appended in order; it only appends, only requested lines, and context, running state and VM are untouched |
| DebuggerBackend.AddEachAnswer | src/DebugSession/DebuggerBackend.ts:294-298 | one addition request per line is sent, in order, and the conjoined answer is true exactly when the VM accepted every one of them |
| DebuggerBackend.DeletionLeavesWanted | src/DebugSession/DebuggerBackend.ts:276-282 | after removing the unwanted breakpoints only wanted lines remain |
| DebuggerBackend.RemoveEachSendsRemovals | src/DebugSession/DebuggerBackend.ts:279-282 | the removal phase sends only removal requests |
| DebuggerBackend.FailedRemovalStops | src/DebugSession/DebuggerBackend.ts:283-286 | a failed removal makes `setBreakPoints` answer false with no addition requested |
| DebuggerBackend.SetBreakPointsAnswer | src/DebugSession/DebuggerBackend.ts:273-300 | the removal requests for the unwanted lines are sent, then the addition requests for the missing lines only when every removal succeeded; the answer is true exactly when the VM accepted every request sent |
| DebuggerBackend.SetBreakPointsExact | src/DebugSession/DebuggerBackend.ts:273-300 | after a successful call the registered lines are exactly the requested ones |
| DebuggerBackend.SetBreakPointsNoDuplicates | src/DebugSession/DebuggerBackend.ts:276-299 | with distinct requested lines no line is registered twice, whatever the VM answers |
| DebuggerBackend.SetBreakPointsIdempotent | src/DebugSession/DebuggerBackend.ts:276-292 | a registry already holding exactly the requested lines: nothing sent, nothing changed, true |
| DebuggerBackend.AcceptingVmAddsAll | src/DebugSession/DebuggerBackend.ts:294-299 | a VM that accepts everything makes every addition succeed |
| DebuggerBackend.RepeatedLineAddedTwice | src/DebugSession/DebuggerBackend.ts:290-297 | a line requested twice is registered twice, because the additions are chosen before any is made |
| DebuggingTimeline.Empty | src/State/DebuggingTimeline.ts:8-11 | a new timeline is empty with nothing active |
| DebuggingTimeline.StateFromIndex | src/State/DebuggingTimeline.ts:44-49 | defined exactly for indices in range, giving that state |
| DebuggingTimeline.IndexOfActiveState | src/State/DebuggingTimeline.ts:17-19 | undefined exactly when the index is -1 |
| DebuggingTimeline.AddRuntime | src/State/DebuggingTimeline.ts:21-23 | appends, keeps the active index and every earlier state, invariant kept |
| DebuggingTimeline.LastState | src/State/DebuggingTimeline.ts:25-30 | the newest state, none exactly when empty |
| DebuggingTimeline.StartState | src/State/DebuggingTimeline.ts:40-42 | the oldest state, none exactly when empty |
| DebuggingTimeline.PresentIsNewest | src/State/DebuggingTimeline.ts:75-77 | the active state is the present exactly when advancing yields nothing, and then it is the newest state |
| DebuggingTimeline.StartIsOldest | src/State/DebuggingTimeline.ts:79-81 | at the start the active state is the oldest one; going back yields nothing exactly at the start or with nothing active |
| DebuggingTimeline.ActivateStateFromIndex | src/State/DebuggingTimeline.ts:32-38 | true and the index moves exactly when the index is in range; otherwise nothing changes |
| DebuggingTimeline.AdvanceTimeline | src/State/DebuggingTimeline.ts:51-58 | one step forward yielding the new active state, nothing at the present; invariant kept |
| DebuggingTimeline.AdvanceToPresent | src/State/DebuggingTimeline.ts:61-63 | the active state is the present afterwards |
| DebuggingTimeline.GoBackTimeline | src/State/DebuggingTimeline.ts:65-72 | one step back only from index 1 or above, so never to -1; invariant kept |
| DebuggingTimeline.MakeCurrentStateNewPresent | src/State/DebuggingTimeline.ts:91-96 | keeps exactly the prefix up to the active state, which becomes the present; nothing with index -1 |
| DebuggingTimeline.Clear | src/State/DebuggingTimeline.ts:98-101 | back to the empty timeline |
| DebuggingTimeline.BackThenForward | src/State/DebuggingTimeline.ts:51-72 | going back then forward returns to the same state |
| DebuggingTimeline.ForwardThenBack | src/State/DebuggingTimeline.ts:51-72 | going forward then back returns to the same state, except from -1 which going back never reaches |
| DebuggingTimeline.AdvanceTimesIndex | src/State/DebuggingTimeline.ts:51-58 | advancing `k` times moves `k` steps but stops at the present |
| Leb128.EncodeSigned | src/DebugBridges/WARDuinoDebugBridge.ts:218-229 | never empty, and a single byte exactly for values in `[-64, 64)` |
| Leb128.EncodeContinuationBits | src/DebugBridges/WARDuinoDebugBridge.ts:218-229 | every byte but the last has the continuation bit, the last has it clear |
| Leb128.DecodeStopByte | src/DebugBridges/WARDuinoDebugBridge.ts:218-229 | the reader consumes up to and including the first byte without the continuation bit |
| Leb128.DecodeEncode | src/DebugBridges/WARDuinoDebugBridge.ts:215-230 | decoding the encoding gives the value back and consumes exactly its bytes, whatever follows |
| Leb128.EncodeLength | src/DebugBridges/WARDuinoDebugBridge.ts:221-224 | the encoding takes at most `k` bytes exactly when the value lies in `[-64·128^(k-1), 64·128^(k-1))` |
| Leb128.EncodeMinimal | src/DebugBridges/WARDuinoDebugBridge.ts:221-224 | no encoding of a value is shorter than the one produced: the stop test makes it minimal |
| Leb128.EncodeInt32Length | src/DebugBridges/WARDuinoDebugBridge.ts:215-229 | a 32-bit value takes one to five bytes |
| Leb128.Hex | src/DebugBridges/WARDuinoDebugBridge.ts:225-226 | two upper-case hex digits per byte |
| Leb128.ParseHexOfHex | src/DebugBridges/WARDuinoDebugBridge.ts:225-226 | the hex text reads back as the bytes |
| Numbers.ToInt32 | src/DebugBridges/WARDuinoDebugBridge.ts:216 | the bitwise or with 0 in `convertToLEB128`: the signed 32-bit value congruent to the input |
| WarduinoDebugBridge.ConvertToLeb128 | src/DebugBridges/WARDuinoDebugBridge.ts:215-230 | the text is the upper-case hex of the standard signed LEB128 encoding of the 32-bit value, of even length 2 to 10 |
| WarduinoDebugBridge.Leb128TextDecodes | src/DebugBridges/WARDuinoDebugBridge.ts:215-230 | decoding the text's bytes yields the input truncated to 32 bits and consumes them all |
| WarduinoDebugBridge.SetVariableCommand | src/DebugBridges/WARDuinoDebugBridge.ts:41-54 | rejected with "local not found" exactly when no local of the current function has the name; unreadable locals are the other rejection |
| WarduinoDebugBridge.SetVariableCommandParses | src/DebugBridges/WARDuinoDebugBridge.ts:46 | the command reads back as the two 32-bit numbers it was built from |
| WarduinoDebugBridge.SetVariableRoundTrip | src/DebugBridges/WARDuinoDebugBridge.ts:41-54 | the VM reads the index of the first local of that name and the value, both as 32-bit numbers |
| WarduinoDebugBridge.CurrentFunctionAfterDump | src/DebugBridges/WARDuinoDebugBridge.ts:175-180 | after a call stack is stored the current function is its last frame's |
| WarduinoDebugBridge.SetStartAddress | src/DebugBridges/WARDuinoDebugBridge.ts:56-58 | only the start address changes |
| WarduinoBreakpoints.PaddedAddress | src/DebugBridges/WARDuinoDebugBridge.ts:98 | the upper-case hex address, with one leading `0` when its length is odd: an even number of hex digits, 2 to 14 |
| WarduinoBreakpoints.PaddedAddressValue | src/DebugBridges/WARDuinoDebugBridge.ts:98 | the padded address reads back as the address |
| WarduinoBreakpoints.BreakpointCommand | src/DebugBridges/WARDuinoDebugBridge.ts:97-102 | corrected command: defined exactly for addresses a JavaScript number holds exactly; whole bytes |
| WarduinoBreakpoints.BreakpointRoundTrip | src/DebugBridges/WARDuinoDebugBridge.ts:97-102 | the VM reads back `startAddress + address` from the corrected command |
| WarduinoBreakpoints.AsWrittenFraming | src/DebugBridges/WARDuinoDebugBridge.ts:97-99 | the command as written starts with the interrupt `06` and ends with `" \n"`; an address with an odd number of hex digits puts a fraction point into it |
| WarduinoBreakpoints.AsWrittenAgreesOnEvenLength | src/DebugBridges/WARDuinoDebugBridge.ts:97-99 | with an even number of hex digits the command as written equals the corrected one |
| WarduinoBreakpoints.AsWrittenOddLengthUnreadable | src/DebugBridges/WARDuinoDebugBridge.ts:97-99 | with an odd number of hex digits the command as written cannot be read |
| WarduinoBreakpoints.AsWrittenCounterexample | src/DebugBridges/WARDuinoDebugBridge.ts:97-99 | address 0x1F3 gives `0601.81F3 \n`, which cannot be read |
| WarduinoBreakpoints.CorrectedOddLength | src/DebugBridges/WARDuinoDebugBridge.ts:97-99 | the corrected command pads an odd-length address with one `0` |
| RuntimeTypes.FindByName | src/State/RuntimeState.ts:96 | the position of the first variable of that name, -1 exactly when none |
| RuntimeTypes.CurrentFunctionIndex | src/DebugBridges/WARDuinoDebugBridge.ts:175-180 | -1 on an empty call stack, otherwise the last frame's index |
| AbstractDebugBridge.NewBridge | src/DebugBridges/AbstractDebugBridge.ts:20-29 | program counter 0, empty call stack, the given source map |
| AbstractDebugBridge.SetProgramCounter | src/DebugBridges/AbstractDebugBridge.ts:55-61 | getting after setting returns the value set; nothing else changes |
| AbstractDebugBridge.GetLocals | src/DebugBridges/AbstractDebugBridge.ts:63-68 | empty without a source map or outside `[0, length)`; an entry's locals otherwise, an error exactly on a hole |
| AbstractDebugBridge.SetLocals | src/DebugBridges/AbstractDebugBridge.ts:70-79 | no-op without a source map; past the end a `<anonymous>` entry is created with holes before it; an error exactly for a negative index or a hole; other entries unchanged |
| AbstractDebugBridge.SetThenGetLocals | src/DebugBridges/AbstractDebugBridge.ts:63-79 | getting after setting returns the locals set, and other entries read as before |
| AbstractDebugBridge.SetCallstack | src/DebugBridges/AbstractDebugBridge.ts:81-88 | getting after setting returns the frames; the listener is notified exactly once |
| RuntimeState.Hash | src/State/RuntimeState.ts:8-14 | a signed 32-bit value: the polynomial hash with base 31 reduced modulo 2^32 |
| RuntimeState.HashLoop | src/State/RuntimeState.ts:8-14 | the loop computes the same reduced polynomial |
| RuntimeState.FillState | src/State/RuntimeState.ts:145-177 | start address 0, fields copied from the dump; with an exception the program counter becomes `pcerror` |
| RuntimeState.NewRuntimeState | src/State/RuntimeState.ts:35-41 | `id` is the hash of the source; program counter, `pcerror` and message as the dump and its exception say |
| RuntimeState.SetRawProgramCounter | src/State/RuntimeState.ts:51-61 | getting after setting returns the value set; nothing else changes |
| RuntimeState.AdjustedProgramCounter | src/State/RuntimeState.ts:63-65 | adjusted plus start address is the raw counter |
| RuntimeState.FreshAdjustedIsRaw | src/State/RuntimeState.ts:63-65 | right after construction the adjusted counter is the raw one |
| RuntimeState.CurrentFunction | src/State/RuntimeState.ts:67-72 | -1 on an empty call stack, otherwise the last frame's index |
| RuntimeState.DeepCopy | src/State/RuntimeState.ts:74-89 | the copy equals the original in every field, id and counters included |
| RuntimeState.GetVariable | src/State/RuntimeState.ts:105-107 | the first variable of that name, as `Array.prototype.find` gives it; none exactly when absent |
| RuntimeState.UpdateVariable | src/State/RuntimeState.ts:91-103 | nothing changes exactly when the text is not an integer or the name is absent; otherwise only the first such variable changes, to the number's decimal text |
| RuntimeState.UpdateThenGet | src/State/RuntimeState.ts:91-107 | reading back finds the updated variable, whose text parses to the number set |
| RuntimeState.UpdateIdempotent | src/State/RuntimeState.ts:91-103 | a second identical update changes nothing |
| RuntimeState.UpdateLocal | src/State/RuntimeState.ts:91-103 | only the locals change |
| RuntimeState.UpdateArgument | src/State/RuntimeState.ts:109-121 | only the arguments change |
| RuntimeState.UpdateGlobal | src/State/RuntimeState.ts:127-139 | only the globals change |
| Numbers.ParseInt | src/State/RuntimeState.ts:92-94 | blank text is NaN, and a negative result needs a leading minus sign |
| Numbers.ParseIntOfDecimal | src/State/RuntimeState.ts:92-99 | `parseInt` reads back every integer's `toString()` |
| JsValues.ToNumber | src/DebuggerConfig.ts:15 | `Number` of a number is itself, of `undefined` NaN, of `null` 0 |
| JsValues.NumberOfDecimal | src/DebuggerConfig.ts:15 | `Number` reads back every integer's decimal text |
| DebuggerConfig.TargetOf | src/DebuggerConfig.ts:399-402 | `development` is DevVM and `mcu` is MCUVM, nothing else |
| DebuggerConfig.DebuggingModeOf | src/DebuggerConfig.ts:404-407 | `remote-debugging` and `edward`, nothing else |
| DebuggerConfig.ValidateLaunchArgs | src/DebuggerConfig.ts:432-520 | accepted exactly when every property meets its rule; a non-object or a missing program is rejected; the optional properties are copied only when present |
| DebuggerConfig.ExistingVMPaired | src/DebuggerConfig.ts:460-472 | `existingVM` and `toolPortExistingVM` are set together or not at all |
| DebuggerConfig.McuLaunchHasFqbn | src/DebuggerConfig.ts:497-506 | an accepted MCU launch always names a board |
| DebuggerConfig.CreateVMConfig | src/DebuggerConfig.ts:563-578 | strict module loading always off; serial port and baud rate passed only for MCU and only when defined |
| DebuggerConfig.LaunchSerialPortReachesVM | src/DebuggerConfig.ts:563-578 | the VM gets a serial port exactly when the target is `mcu` and a port string was given |
| DebuggerConfig.OnStartFromAnyObject | src/DebuggerConfig.ts:54-74 | non-objects rejected, `null` throws; defaults flash, no update, no pause, each overridden only when present |
| DebuggerConfig.EmptyOnStartDoesNotPause | src/DebuggerConfig.ts:47-74 | an empty `onStart` object differs from the default configuration, which pauses |
| DebuggerConfig.Lookup | src/DebuggerConfig.ts:19 | a key is absent exactly when no entry has it |
| DebuggerConfig.MapSet | src/DebuggerConfig.ts:21 | `Map.set`: the key maps to the new value, other keys keep theirs, keys stay distinct |
| DebuggerConfig.Mappings | src/DebuggerConfig.ts:20-22 | the loop's map has exactly the ids as keys, each mapped to `mock_ids[i]` at its last occurrence, where an object `mock_ids` is read at the property named by the decimal index; fails exactly when mocks are nullish and an id exists |
| DebuggerConfig.DeserializeMockConfig | src/DebuggerConfig.ts:14-28 | fails exactly when the object or its `func_ids` is nullish, or when there are ids and `mock_ids` is nullish; otherwise the port through `Number`, host defaulting to `localhost`, each id mapped to its mock `mock_ids[i]` (an array element, a character, or an object's property `"i"`), a later repetition winning |
| DebuggerConfig.ObjectMockIds | src/DebuggerConfig.ts:18-22 | `mock_ids` given as the object `{"0": 5}` maps the id 7 of `func_ids: [7]` to 5 |
| DebuggerConfig.NewProxyConfig | src/DebuggerConfig.ts:125-146 | port defaults to 8081 unless given; a nullish object throws |
| DebuggerConfig.DeviceNameAsWritten | src/DebuggerConfig.ts:229-242 | name choice as written: the given name; else `emulator` for an emulated device; for an embedded one the ip when it is not `''`, else the serial port when it is not `''`, which picks an undefined port, else `device unknown`; never the empty string |
| DebuggerConfig.DeviceName | src/DebuggerConfig.ts:229-242 | corrected name choice: the given name; else `emulator` for an emulated device; for an embedded one the ip when it is not `''`, else a defined serial port that is not `''`, else `device unknown`; never the empty string, and `undefined` only when the ip is |
| DebuggerConfig.ValidateBreakpointPolicy | src/DebuggerConfig.ts:286-298 | accepted exactly when a string among the known policies |
| DebuggerConfig.FlashChecks | src/DebuggerConfig.ts:207-224 | flashing passes exactly when serial port, board and numeric baud rate are given and an ip comes with credentials |
| DebuggerConfig.NewOldDeviceConfig | src/DebuggerConfig.ts:176-251 | with the corrected name choice: debug mode from the allowed set, port default 8300, ip default `''`; with flashing on every flashing check passes, credentials for an ip included; credentials present exactly when given; serial port, board and baud rate copied; the start-up options as given or the defaults; policies only when enabled and valid |
| DebuggerConfig.NewOldDeviceConfigAccepts | src/DebuggerConfig.ts:176-251 | the corrected constructor accepts exactly the objects that are not nullish, whose credentials validate when given, whose debug mode is allowed, whose proxy and start-up options read, whose flashing checks pass when flashing is on, whose policies are valid when enabled and whose mock configuration reads when given |
| DebuggerConfig.NewOldDeviceConfigAsWritten | src/DebuggerConfig.ts:176-251 | the constructor as written: accepted and rejected exactly as the corrected one, with the same error, and equal to it in every field but the name, which is the as-written choice |
| DebuggerConfig.ConstructorsAgree | src/DebuggerConfig.ts:176-251 | whenever the serial port is defined the constructor as written and the corrected one give the same result |
| DebuggerConfig.AsWrittenConstructorUndefined | src/DebuggerConfig.ts:176-242 | the constructor as written accepts the device of the finding and names it `undefined` |
| DebuggerConfig.ProxyOnlyForEmulated | src/DebuggerConfig.ts:253-259 | never both a proxy to another VM and hardware; each holds exactly for its debug mode |
| DebuggerConfig.NameChoicesAgree | src/DebuggerConfig.ts:229-242 | the corrected name choice agrees with the one as written whenever the serial port is defined |
| DebuggerConfig.AsWrittenNameUndefined | src/DebuggerConfig.ts:220-242 | an embedded device without flashing, name, ip or serial port is named `undefined` as written |
| DebuggerConfig.NoAddressNamedUnknown | src/DebuggerConfig.ts:176-242 | with the corrected choice, an embedded device without flashing, name, ip or serial port is accepted and named `device unknown` |
| DebuggerConfig.UnnamedDeviceUnknown | src/DebuggerConfig.ts:176-242 | with the corrected choice the device of the finding is accepted and named `device unknown` |
| DebuggerConfig.DefaultDeviceConfigRejected | src/DebuggerConfig.ts:300-306 | `defaultDeviceConfig` always fails: flashing is on by default and needs a serial port |

## Left out

- Transport: serial port, child processes, compiling and uploading, sockets, the emulator bridges and the bridge factory. These are I/O, not logic.
- The VS Code adapter, views and commands. They are UI glue.
- Promises and event emitters. They are sequential here, and emitted notifications are an appended log.
- `wasmito` collaborators: the source map, the control-flow graph and the VM. They are functions in `SourceModel` and the `accepts` oracle of `TargetVm`. Breakpoint equality is equality of line numbers.
- `WASM.frameTypeFromNumber`: a raw frame carries its decoded frame type; an undefined type is `None`.
- `wasmState.updateStackValue`/`updateGlobalValue` in the `update*` methods. That write-through goes to an object outside the model.
- `fillMissingValues`: board discovery on the host.
- `WiFiCredentials.validate`: it reads a file, and is a parameter of `NewOldDeviceConfig`.
- `configForProxy`, `fromObject`, `fromWorkspaceConfig`: they read VS Code workspace settings.
- `Breakpoint.policies()`: a parameter.
- Floating-point numbers: JavaScript numbers are integers here.
- JsValues.ToNumber: only blank and optionally signed decimal strings convert. Hex, exponent and `Infinity` spellings give NaN, and so do arrays and objects.
- DebuggerConfig.Elements: an object with a numeric `length` property is treated as having no elements. A `Map` key that is an object compares by structure, not identity.
- Characters outside the Basic Multilingual Plane: `charCodeAt` is taken as the character's code.
- DebuggerConfig.NewOldDeviceConfig: names the device with the corrected choice of the finding below, so an embedded device without ip or serial port is `device unknown`; the constructor as written is DebuggerConfig.NewOldDeviceConfigAsWritten.
- StateContext.BuildGlobals: the in-place write to the source map's global (`gb.value = v.value`, src/State/context.ts:278), and the sharing it causes when an index is reported twice, are not modelled; each entry gets its own value and the source map is unchanged.
- StateContext.FunctionFrames: requires a non-empty call stack, because the source reads the last frame before its loop and throws on an empty stack.

## Findings

| source | as written | input that shows it | evidently intended | confidence | as-written member | corrected member |
|---|---|---|---|---|---|---|
| src/DebugBridges/WARDuinoDebugBridge.ts:97-99 | the size field is `(hex.length / 2).toString(16)` after a literal `0`, and the address is not padded | start 0, address 0x1F3: the command is `0601.81F3 \n`, with a fractional size `1.8` | pad the address to whole bytes, and write the byte count as two hex digits | not executed | WarduinoBreakpoints.AsWrittenCounterexample | WarduinoBreakpoints.BreakpointRoundTrip |
| src/DebuggerConfig.ts:229-242 | the device name falls back to `serialPort` whenever it is not `''`, including when it is `undefined` | `{"debugMode": "embedded", "onStart": {"flash": false}}`: the name becomes `undefined` | a device with no serial port is named `device unknown` | not executed | DebuggerConfig.AsWrittenConstructorUndefined | DebuggerConfig.UnnamedDeviceUnknown |

=== FILE: AbstractDebugBridge.dfy ===
/** The state every legacy debug bridge shares
    (`src/DebugBridges/AbstractDebugBridge.ts`): the program counter, the
    call stack of the last dump, and the source map's function table, which
    `setLocals` may extend. A JavaScript array written past its end has holes;
    the table is a sequence of optional entries, `None` being a hole. */
module AbstractDebugBridge {
  import opened Wrappers
  import opened RuntimeTypes

  /** The one error these operations raise: reading `.locals` of a hole or
      of an index the array does not have. */
  datatype BridgeError = TypeError

  datatype Bridge = Bridge(
    functionInfos: Option<seq<Option<FunctionInfo>>>,
    pc: int,
    callstack: seq<Frame>,
    stateUpdates: nat)

  /** A bridge without a source map has `functionInfos == None`. */
  function NewBridge(functionInfos: Option<seq<Option<FunctionInfo>>>): (b: Bridge)
    ensures b.pc == 0 && b.callstack == [] && b.stateUpdates == 0 && b.functionInfos == functionInfos
  {
    Bridge(functionInfos, 0, [], 0)
  }

  function GetProgramCounter(b: Bridge): int {
    b.pc
  }

  function SetProgramCounter(b: Bridge, pc: int): (r: Bridge)
    ensures GetProgramCounter(r) == pc
    ensures r.functionInfos == b.functionInfos && r.callstack == b.callstack && r.stateUpdates == b.stateUpdates
  {
    b.(pc := pc)
  }

  /** `getLocals`: empty without a source map or for an index outside the
      table; the locals of the entry otherwise, and an error on a hole. */
  function GetLocals(b: Bridge, fidx: int): (r: Result<seq<VariableInfo>, BridgeError>)
    ensures b.functionInfos.None? ==> r == Ok([])
    ensures b.functionInfos.Some? && !(0 <= fidx < |b.functionInfos.value|) ==> r == Ok([])
    ensures b.functionInfos.Some? && 0 <= fidx < |b.functionInfos.value| ==>
      (r.Err? <==> b.functionInfos.value[fidx].None?)
    ensures b.functionInfos.Some? && 0 <= fidx < |b.functionInfos.value| && b.functionInfos.value[fidx].Some? ==>
      r == Ok(b.functionInfos.value[fidx].value.locals)
    ensures r.Ok? && r.value != [] ==>
      b.functionInfos.Some? && 0 <= fidx < |b.functionInfos.value| && b.functionInfos.value[fidx].Some?
      && r.value == b.functionInfos.value[fidx].value.locals
  {
    match b.functionInfos
    case None => Ok([])
    case Some(fis) =>
      if fidx >= |fis| || fidx < 0 then Ok([])
      else if fis[fidx].None? then Err(TypeError)
      else Ok(fis[fidx].value.locals)
  }

  /** `n` holes, the slots a write past the end of an array skips. */
  function Holes(n: nat): (r: seq<Option<FunctionInfo>>)
    ensures |r| == n && forall k :: 0 <= k < n ==> r[k].None?
  {
    if n == 0 then [] else [None] + Holes(n - 1)
  }

  /** `setLocals`: nothing without a source map; past the end of the table a
      new entry `{index: fidx, name: "<anonymous>"}` is created, leaving holes
      in between; a negative index or a hole is an error. */
  function SetLocals(b: Bridge, fidx: int, locals: seq<VariableInfo>): (r: Result<Bridge, BridgeError>)
    ensures b.functionInfos.None? ==> r == Ok(b)
    ensures b.functionInfos.Some? ==>
      (r.Err? <==> fidx < 0 || (fidx < |b.functionInfos.value| && b.functionInfos.value[fidx].None?))
    ensures r.Ok? ==> r.value.pc == b.pc && r.value.callstack == b.callstack && r.value.stateUpdates == b.stateUpdates
    ensures r.Ok? ==> r.value.functionInfos.Some? == b.functionInfos.Some?
    ensures r.Ok? && b.functionInfos.Some? && r.value.functionInfos.Some? ==>
      var old_ := b.functionInfos.value;
      var new_ := r.value.functionInfos.value;
      && |new_| == (if fidx < |old_| then |old_| else fidx + 1)
      && new_[fidx].Some? && new_[fidx].value.locals == locals
      && (fidx < |old_| ==> new_[fidx] == Some(old_[fidx].value.(locals := locals)))
      && (fidx >= |old_| ==> new_[fidx] == Some(FunctionInfo(fidx, "<anonymous>", locals)))
      && (forall k :: 0 <= k < |old_| && k != fidx ==> new_[k] == old_[k])
      && (forall k :: |old_| <= k < fidx ==> new_[k].None?)
  {
    match b.functionInfos
    case None => Ok(b)
    case Some(fis) =>
      if fidx < 0 then Err(TypeError)
      else if fidx >= |fis| then
        var grown := fis + Holes(fidx - |fis|) + [Some(FunctionInfo(fidx, "<anonymous>", locals))];
        Ok(b.(functionInfos := Some(grown)))
      else if fis[fidx].None? then Err(TypeError)
      else Ok(b.(functionInfos := Some(fis[fidx := Some(fis[fidx].value.(locals := locals))])))
  }

  /** What `setLocals` stores, `getLocals` returns; no other index changes. */
  lemma SetThenGetLocals(b: Bridge, fidx: int, locals: seq<VariableInfo>, other: int)
    requires b.functionInfos.Some? && SetLocals(b, fidx, locals).Ok?
    ensures GetLocals(SetLocals(b, fidx, locals).value, fidx) == Ok(locals)
    ensures other != fidx && 0 <= other < |b.functionInfos.value| ==>
      GetLocals(SetLocals(b, fidx, locals).value, other) == GetLocals(b, other)
  {
  }

  function GetCallstack(b: Bridge): seq<Frame> {
    b.callstack
  }

  /** `setCallstack`: stores the frames and notifies the listener once. */
  function SetCallstack(b: Bridge, callstack: seq<Frame>): (r: Bridge)
    ensures GetCallstack(r) == callstack
    ensures r.stateUpdates == b.stateUpdates + 1
    ensures r.pc == b.pc && r.functionInfos == b.functionInfos
  {
    b.(callstack := callstack, stateUpdates := b.stateUpdates + 1)
  }
}

=== FILE: DebuggerBackend.dfy ===
/** The backend of a debugging session (`src/DebugSession/DebuggerBackend.ts`):
    the breakpoint registry kept in step with the target VM, the running
    state, and the context rebuilt from the VM's answers. The VM itself is a
    collaborator; whether it accepts a request is a function of everything it
    was sent before, so the model covers every possible VM. */
module DebuggerBackend {
  import opened Wrappers
  import opened Seqs
  import opened StateContext

  datatype RunningState = Paused | Running

  /** What the backend asks of the VM. A breakpoint is identified by its
      line: the backend builds every breakpoint from a line number alone. */
  datatype Request =
    | AddRequest(line: int)
    | RemoveRequest(line: int)
    | RunRequest
    | PauseRequest
    | StepRequest
    | StateRequest
    | HandleEventRequest(index: int)

  /** The VM: which requests it accepts given the earlier ones, whether it is
      an out-of-place VM, its queue of events to handle and how handling one
      changes that queue. */
  datatype TargetVm = TargetVm(
    accepts: (seq<Request>, Request) -> bool,
    outOfPlace: bool,
    eventsToHandle: seq<Event>,
    afterHandling: (seq<Event>, int) -> seq<Event>)

  /** What the backend emits to its listeners. */
  datatype Notification =
    | StateUpdated(context: Context)
    | BreakpointReached(context: Context, location: Option<Node>)
    | NewEventArrived(event: Event, allEvents: seq<Event>)
    | EventHandled(event: Event, remaining: seq<Event>)

  datatype Backend = Backend(
    vm: TargetVm,
    sent: seq<Request>,
    context: Context,
    breakpoints: seq<int>,
    runningState: RunningState,
    isOutOfThings: bool,
    emitted: seq<Notification>)

  /** The optional constructor arguments. */
  datatype Options = Options(
    initialContext: Option<Context>,
    initialRunningState: Option<RunningState>,
    isOutOfThingsDebugger: Option<bool>)

  /** A new backend: no breakpoints, nothing sent, paused unless told
      otherwise, with the context of the empty response by default. */
  function NewBackend(vm: TargetVm, opts: Options): (b: Backend)
    ensures b.breakpoints == [] && b.sent == [] && b.emitted == []
    ensures opts.initialRunningState.None? ==> IsPaused(b)
    ensures opts.initialContext.None? ==> b.context == EmptyContext()
    ensures opts.initialContext.Some? ==> b.context == opts.initialContext.value
    ensures opts.isOutOfThingsDebugger.None? ==> !b.isOutOfThings
  {
    Backend(vm, [], opts.initialContext.GetOr(EmptyContext()), [],
            opts.initialRunningState.GetOr(Paused), opts.isOutOfThingsDebugger.GetOr(false), [])
  }

  predicate IsPaused(b: Backend) {
    b.runningState == Paused
  }

  /** Sends `req` to the VM and records it; the answer is the VM's. */
  function Send(b: Backend, req: Request): (bool, Backend) {
    (b.vm.accepts(b.sent, req), b.(sent := b.sent + [req]))
  }

  /** `run`: running only once the VM agrees; nothing else changes. */
  function Run(b: Backend): (r: (bool, Backend))
    ensures r.1.sent == b.sent + [RunRequest]
    ensures r.0 <==> b.vm.accepts(b.sent, RunRequest)
    ensures r.0 ==> r.1.runningState == Running
    ensures !r.0 ==> r.1.runningState == b.runningState
    ensures r.1.breakpoints == b.breakpoints && r.1.context == b.context
  {
    var (ok, b1) := Send(b, RunRequest);
    (ok, if ok then b1.(runningState := Running) else b1)
  }

  /** `pause`: paused afterwards, whatever the VM answered. */
  function Pause(b: Backend): (r: Backend)
    ensures IsPaused(r)
    ensures r.sent == b.sent + [PauseRequest]
    ensures r.breakpoints == b.breakpoints && r.context == b.context
  {
    Send(b, PauseRequest).1.(runningState := Paused)
  }

  /** `refreshState`: the context is rebuilt from the VM's response to a
      full state request (pc, stack, call stack, globals, events); for an
      out-of-place VM its events are the VM's queue. The listeners are told
      of the new context. When the response cannot be read the error is
      returned with the backend, because the request was sent. */
  function RefreshState(b: Backend, response: WasmState, sm: SourceModel): (r: (Backend, Result<(), ContextError>))
    ensures r.0.sent == b.sent + [StateRequest]
    ensures r.0.breakpoints == b.breakpoints && r.0.runningState == b.runningState && r.0.vm == b.vm
    ensures r.1.Ok? <==> BuildContext(response, sm).Ok?
    ensures r.1.Err? ==> r.1.error == BuildContext(response, sm).error
    ensures r.1.Err? ==> r.0.context == b.context && r.0.emitted == b.emitted
    ensures r.1.Ok? ==> r.0.emitted == b.emitted + [StateUpdated(r.0.context)]
    ensures r.1.Ok? && b.vm.outOfPlace ==> r.0.context.events == b.vm.eventsToHandle
    ensures r.1.Ok? && !b.vm.outOfPlace ==> r.0.context.events == response.events.GetOr([])
  {
    var b1 := Send(b, StateRequest).1;
    match BuildContext(response, sm)
    case Err(e) => (b1, Err(e))
    case Ok(ctx) =>
      var ctx1 := if b.vm.outOfPlace then ctx.(events := b.vm.eventsToHandle) else ctx;
      (b1.(context := ctx1, emitted := b1.emitted + [StateUpdated(ctx1)]), Ok(()))
  }

  /** `step`: one step on the VM, then a refresh. */
  function Step(b: Backend, response: WasmState, sm: SourceModel): (r: (Backend, Result<(), ContextError>))
    ensures r.0.sent == b.sent + [StepRequest, StateRequest]
    ensures r.0.breakpoints == b.breakpoints
    ensures r.1.Ok? <==> BuildContext(response, sm).Ok?
    ensures r.1.Ok? ==> r.0.emitted == b.emitted + [StateUpdated(r.0.context)]
  {
    RefreshState(Send(b, StepRequest).1, response, sm)
  }

  /** A breakpoint fired: the context becomes the one of the state the VM
      reported, and the listeners get it with its current location. */
  function OnBreakpointReached(b: Backend, state: WasmState, sm: SourceModel): (r: Result<Backend, ContextError>)
    ensures r.Ok? ==> r.value.context.rawPc == state.pc
    ensures r.Ok? ==>
      r.value.emitted == b.emitted + [BreakpointReached(r.value.context, CurrentSourceCodeLocation(r.value.context, sm))]
    ensures r.Ok? ==> r.value.breakpoints == b.breakpoints && r.value.sent == b.sent
  {
    var ctx :- BuildContext(state, sm);
    Ok(b.(context := ctx, emitted := b.emitted + [BreakpointReached(ctx, CurrentSourceCodeLocation(ctx, sm))]))
  }

  /** `onNewEvent`: an in-place VM's event joins the context's events; an
      out-of-place VM keeps its own queue, which is what the listeners see. */
  function OnNewEvent(b: Backend, ev: Event): (r: Backend)
    ensures !b.vm.outOfPlace ==> r.context.events == b.context.events + [ev]
    ensures b.vm.outOfPlace ==> r.context == b.context
    ensures |r.emitted| == |b.emitted| + 1 && r.emitted[..|b.emitted|] == b.emitted
    ensures r.emitted[|b.emitted|].NewEventArrived? && r.emitted[|b.emitted|].event == ev
    ensures r.emitted[|b.emitted|].allEvents == (if b.vm.outOfPlace then b.vm.eventsToHandle else r.context.events)
    ensures r.breakpoints == b.breakpoints && r.sent == b.sent
  {
    if b.vm.outOfPlace then
      b.(emitted := b.emitted + [NewEventArrived(ev, b.vm.eventsToHandle)])
    else
      var all := b.context.events + [ev];
      b.(context := b.context.(events := all), emitted := b.emitted + [NewEventArrived(ev, all)])
  }

  /** `handleEvent`: only an out-of-place VM with a non-empty queue is asked
      to handle an event; a refusal is the error "Event could not be
      handled". The backend is returned either way, because the request was
      sent. */
  function HandleEvent(b: Backend, eventIndex: int): (r: (Backend, Result<(), string>))
    ensures !b.vm.outOfPlace || b.vm.eventsToHandle == [] ==> r.0 == b && r.1.Ok?
    ensures r.1.Err? <==> b.vm.outOfPlace && b.vm.eventsToHandle != [] && !b.vm.accepts(b.sent, HandleEventRequest(eventIndex))
    ensures r.1.Err? ==> r.1.error == "Event could not be handled" && r.0.emitted == b.emitted
    ensures b.vm.outOfPlace && b.vm.eventsToHandle != [] && r.1.Ok? ==>
      r.0.emitted == b.emitted + [EventHandled(b.vm.eventsToHandle[0], r.0.vm.eventsToHandle)]
    ensures r.0.breakpoints == b.breakpoints && r.0.context == b.context
  {
    if !b.vm.outOfPlace || b.vm.eventsToHandle == [] then (b, Ok(()))
    else
      var ev := b.vm.eventsToHandle[0];
      var (ok, b1) := Send(b, HandleEventRequest(eventIndex));
      if !ok then (b1, Err("Event could not be handled"))
      else
        var queue := b.vm.afterHandling(b.vm.eventsToHandle, eventIndex);
        var b2 := b1.(vm := b1.vm.(eventsToHandle := queue));
        (b2.(emitted := b2.emitted + [EventHandled(ev, queue)]), Ok(()))
  }

  // ---------------------------------------------------------------------
  // The breakpoint registry

  /** The position of the first breakpoint at `line`. */
  function FirstIndexOf(s: seq<int>, line: int): (r: Option<nat>)
    ensures r.None? <==> line !in s
    ensures r.Some? ==> r.value < |s| && s[r.value] == line && line !in s[..r.value]
  {
    if |s| == 0 then None
    else if s[0] == line then Some(0)
    else
      match FirstIndexOf(s[1..], line)
      case None => None
      case Some(i) =>
        assert s[..i + 1] == [s[0]] + s[1..][..i];
        Some(i + 1)
  }

  /** `addBreakpoint`: registered only once the VM accepted it. */
  function AddBreakpoint(b: Backend, line: int): (r: (bool, Backend))
    ensures r.1.sent == b.sent + [AddRequest(line)]
    ensures r.0 <==> b.vm.accepts(b.sent, AddRequest(line))
    ensures r.0 ==> r.1.breakpoints == b.breakpoints + [line]
    ensures !r.0 ==> r.1.breakpoints == b.breakpoints
    ensures r.1.context == b.context && r.1.runningState == b.runningState && r.1.vm == b.vm
  {
    var (ok, b1) := Send(b, AddRequest(line));
    (ok, if ok then b1.(breakpoints := b1.breakpoints + [line]) else b1)
  }

  /** `removeBreakpoint`: a line with no breakpoint is already removed (true,
      nothing sent); otherwise the first breakpoint at that line is dropped
      once the VM accepted its removal. */
  function RemoveBreakpoint(b: Backend, line: int): (r: (bool, Backend))
    ensures line !in b.breakpoints ==> r.0 && r.1 == b
    ensures line in b.breakpoints ==> r.1.sent == b.sent + [RemoveRequest(line)]
    ensures line in b.breakpoints ==> (r.0 <==> b.vm.accepts(b.sent, RemoveRequest(line)))
    ensures r.0 ==> multiset(r.1.breakpoints) == multiset(b.breakpoints) - multiset{line}
    ensures !r.0 ==> r.1.breakpoints == b.breakpoints
    ensures r.1.context == b.context && r.1.runningState == b.runningState && r.1.vm == b.vm
  {
    match FirstIndexOf(b.breakpoints, line)
    case None => (true, b)
    case Some(i) =>
      var (ok, b1) := Send(b, RemoveRequest(line));
      if ok then
        var rest := b.breakpoints[..i] + b.breakpoints[i + 1..];
        DropAtMultiset(b.breakpoints, i);
        (true, b1.(breakpoints := rest))
      else (false, b1)
  }

  /** Dropping the element at `i` takes one copy of it away. */
  lemma DropAtMultiset(s: seq<int>, i: nat)
    requires i < |s|
    ensures multiset(s[..i] + s[i + 1..]) == multiset(s) - multiset{s[i]}
  {
    assert s == s[..i] + [s[i]] + s[i + 1..];
  }

  /** A successful removal drops the first breakpoint at the line and keeps
      the others in order. */
  lemma RemoveBreakpointFirst(b: Backend, line: int)
    requires line in b.breakpoints && RemoveBreakpoint(b, line).0
    ensures var i := FirstIndexOf(b.breakpoints, line).value;
            && b.breakpoints[i] == line && line !in b.breakpoints[..i]
            && RemoveBreakpoint(b, line).1.breakpoints == b.breakpoints[..i] + b.breakpoints[i + 1..]
  {
  }

  /** Taking away `x` and then `y` takes away `x + y`. */
  lemma SubtractInTurn(a: multiset<int>, b: multiset<int>, c: multiset<int>, x: multiset<int>, y: multiset<int>,
                       okB: bool, okC: bool)
    requires okB ==> b == a - x
    requires !okB ==> b == a
    requires okC ==> c == b - y
    requires c <= b
    ensures okB && okC ==> c == a - (x + y)
    ensures c <= a
  {
  }

  /** Each request sent after `before`, up to `after`, was accepted by the
      VM given the requests sent before it: the `&&` of the VM's replies. */
  predicate AllAccepted(vm: TargetVm, before: seq<Request>, after: seq<Request>) {
    before <= after && forall k :: |before| <= k < |after| ==> vm.accepts(after[..k], after[k])
  }

  /** Nothing sent: nothing refused. */
  lemma AcceptedNone(vm: TargetVm, h: seq<Request>)
    ensures AllAccepted(vm, h, h)
  {
  }

  /** One request sent: the VM's reply to it. */
  lemma AcceptedOne(vm: TargetVm, h: seq<Request>, x: Request)
    ensures AllAccepted(vm, h, h + [x]) <==> vm.accepts(h, x)
  {
    assert (h + [x])[..|h|] == h;
  }

  /** Replies to two stretches of requests combine with `&&`. */
  lemma AcceptedCompose(vm: TargetVm, a: seq<Request>, b: seq<Request>, c: seq<Request>)
    requires a <= b <= c
    ensures AllAccepted(vm, a, c) <==> AllAccepted(vm, a, b) && AllAccepted(vm, b, c)
  {
    forall k | |a| <= k < |b| ensures c[..k] == b[..k] && c[k] == b[k] {
      assert c[..|b|] == b;
      assert c[..k] == c[..|b|][..k];
    }
  }

  /** The requests for adding `lines`, in order. */
  function AddRequests(lines: seq<int>): seq<Request> {
    if |lines| == 0 then [] else [AddRequest(lines[0])] + AddRequests(lines[1..])
  }

  /** The requests for removing `lines`, in order. */
  function RemoveRequests(lines: seq<int>): seq<Request> {
    if |lines| == 0 then [] else [RemoveRequest(lines[0])] + RemoveRequests(lines[1..])
  }

  /** `removeBreakpoint` answers true exactly when the VM accepted what it
      was sent, which is nothing for an unregistered line. */
  lemma RemoveBreakpointAnswer(b: Backend, line: int)
    ensures var r := RemoveBreakpoint(b, line);
            r.0 <==> AllAccepted(b.vm, b.sent, r.1.sent)
  {
    if line in b.breakpoints {
      AcceptedOne(b.vm, b.sent, RemoveRequest(line));
    }
  }

  /** While the lines to remove are all registered, so is the first, and the
      rest stay registered whatever the VM answers to it. */
  lemma RemovalsStayRegistered(b: Backend, lines: seq<int>)
    requires |lines| > 0 && multiset(lines) <= multiset(b.breakpoints)
    ensures lines[0] in b.breakpoints
    ensures multiset(lines[1..]) <= multiset(RemoveBreakpoint(b, lines[0]).1.breakpoints)
  {
    assert lines == [lines[0]] + lines[1..];
    assert multiset(lines) == multiset{lines[0]} + multiset(lines[1..]);
    assert lines[0] in multiset(b.breakpoints);
  }

  /** Removes each line in turn, every removal attempted; the answer is the
      `&&` of the replies (`RemoveEachAnswer`). */
  function RemoveEach(b: Backend, lines: seq<int>): (r: (bool, Backend))
    ensures r.0 ==> multiset(r.1.breakpoints) == multiset(b.breakpoints) - multiset(lines)
    ensures multiset(r.1.breakpoints) <= multiset(b.breakpoints)
    ensures r.1.context == b.context && r.1.runningState == b.runningState && r.1.vm == b.vm
    decreases |lines|
  {
    if |lines| == 0 then (true, b)
    else
      var first := RemoveBreakpoint(b, lines[0]);
      var rest := RemoveEach(first.1, lines[1..]);
      assert multiset(lines) == multiset{lines[0]} + multiset(lines[1..]) by {
        assert lines == [lines[0]] + lines[1..];
      }
      SubtractInTurn(multiset(b.breakpoints), multiset(first.1.breakpoints), multiset(rest.1.breakpoints),
                     multiset{lines[0]}, multiset(lines[1..]), first.0, rest.0);
      (first.0 && rest.0, rest.1)
  }

  /** Adds each line in turn, every addition attempted; the answer is the
      `&&` of the replies (`AddEachAnswer`). */
  function AddEach(b: Backend, lines: seq<int>): (r: (bool, Backend))
    ensures r.0 ==> r.1.breakpoints == b.breakpoints + lines
    ensures forall x :: x in r.1.breakpoints ==> x in b.breakpoints || x in lines
    ensures b.breakpoints <= r.1.breakpoints
    ensures r.1.context == b.context && r.1.runningState == b.runningState && r.1.vm == b.vm
    decreases |lines|
  {
    if |lines| == 0 then (true, b)
    else
      var first := AddBreakpoint(b, lines[0]);
      var rest := AddEach(first.1, lines[1..]);
      assert lines == [lines[0]] + lines[1..];
      (first.0 && rest.0, rest.1)
  }

  /** The breakpoints whose line is not wanted any more. */
  function ToDelete(registry: seq<int>, wanted: seq<int>): seq<int> {
    Filter(registry, (l: int) => l !in wanted)
  }

  /** The wanted lines that have no breakpoint yet. */
  function ToAdd(registry: seq<int>, wanted: seq<int>): seq<int> {
    Filter(wanted, (l: int) => l !in registry)
  }

  /** `setBreakPoints`: removes every breakpoint whose line is not wanted;
      if any removal failed, stops with false; otherwise adds every wanted
      line that has no breakpoint and answers whether all additions
      succeeded. */
  function SetBreakPoints(b: Backend, wanted: seq<int>): (r: (bool, Backend))
    ensures r.1.context == b.context && r.1.runningState == b.runningState && r.1.vm == b.vm
  {
    var removed := RemoveEach(b, ToDelete(b.breakpoints, wanted));
    if !removed.0 then removed
    else AddEach(removed.1, ToAdd(removed.1.breakpoints, wanted))
  }

  /** `removeBreakpoints` in turn answers the `&&` of the VM's replies to
      the requests it sent. */
  lemma {:induction false} RemoveEachAnswer(b: Backend, lines: seq<int>)
    ensures var r := RemoveEach(b, lines);
            b.sent <= r.1.sent && (r.0 <==> AllAccepted(b.vm, b.sent, r.1.sent))
    decreases |lines|
  {
    if |lines| == 0 {
      AcceptedNone(b.vm, b.sent);
    } else {
      var first := RemoveBreakpoint(b, lines[0]);
      var rest := RemoveEach(first.1, lines[1..]);
      RemoveBreakpointAnswer(b, lines[0]);
      RemoveEachAnswer(first.1, lines[1..]);
      AcceptedCompose(b.vm, b.sent, first.1.sent, rest.1.sent);
    }
  }

  /** When every line to remove is registered (as many times as it is
      listed), a removal request goes out for each line, in order. */
  lemma {:induction false} RemoveEachRequests(b: Backend, lines: seq<int>)
    requires multiset(lines) <= multiset(b.breakpoints)
    ensures RemoveEach(b, lines).1.sent == b.sent + RemoveRequests(lines)
    decreases |lines|
  {
    if |lines| > 0 {
      var first := RemoveBreakpoint(b, lines[0]);
      RemovalsStayRegistered(b, lines);
      RemoveEachRequests(first.1, lines[1..]);
      assert first.1.sent == b.sent + [RemoveRequest(lines[0])];
      assert RemoveRequests(lines) == [RemoveRequest(lines[0])] + RemoveRequests(lines[1..]);
    }
  }

  /** Adding lines in turn requests each of them, in order, and answers the
      `&&` of the VM's replies. */
  lemma {:induction false} AddEachAnswer(b: Backend, lines: seq<int>)
    ensures var r := AddEach(b, lines);
            r.1.sent == b.sent + AddRequests(lines) && (r.0 <==> AllAccepted(b.vm, b.sent, r.1.sent))
    decreases |lines|
  {
    if |lines| == 0 {
      AcceptedNone(b.vm, b.sent);
    } else {
      var first := AddBreakpoint(b, lines[0]);
      var rest := AddEach(first.1, lines[1..]);
      AddEachAnswer(first.1, lines[1..]);
      AcceptedOne(b.vm, b.sent, AddRequest(lines[0]));
      assert AddRequests(lines) == [AddRequest(lines[0])] + AddRequests(lines[1..]);
      assert rest.1.sent == b.sent + AddRequests(lines);
      AcceptedCompose(b.vm, b.sent, first.1.sent, rest.1.sent);
    }
  }

  /** `setBreakPoints` requests the removal of every unwanted breakpoint,
      then, only if all were removed, the addition of every missing wanted
      line; it answers true exactly when the VM accepted every request it
      was sent. */
  lemma SetBreakPointsAnswer(b: Backend, wanted: seq<int>)
    ensures var r := SetBreakPoints(b, wanted);
            r.0 <==> AllAccepted(b.vm, b.sent, r.1.sent)
    ensures var removed := RemoveEach(b, ToDelete(b.breakpoints, wanted));
            SetBreakPoints(b, wanted).1.sent
              == b.sent + RemoveRequests(ToDelete(b.breakpoints, wanted))
                 + (if removed.0 then AddRequests(ToAdd(removed.1.breakpoints, wanted)) else [])
  {
    var del := ToDelete(b.breakpoints, wanted);
    assert multiset(del) <= multiset(b.breakpoints);
    var removed := RemoveEach(b, del);
    RemoveEachAnswer(b, del);
    RemoveEachRequests(b, del);
    if removed.0 {
      var add := ToAdd(removed.1.breakpoints, wanted);
      AddEachAnswer(removed.1, add);
      AcceptedCompose(b.vm, b.sent, removed.1.sent, AddEach(removed.1, add).1.sent);
    }
  }

  /** The lines that have a breakpoint. */
  function Lines(s: seq<int>): set<int> {
    set l | l in s
  }

  /** What survives removing the unwanted breakpoints is wanted. */
  lemma DeletionLeavesWanted(registry: seq<int>, wanted: seq<int>, rest: seq<int>)
    requires multiset(rest) == multiset(registry) - multiset(ToDelete(registry, wanted))
    ensures forall l :: l in rest ==> l in wanted
  {
    var del := ToDelete(registry, wanted);
    forall l | l in rest ensures l in wanted {
      assert multiset(rest)[l] > 0;
      assert multiset(del)[l] == if l !in wanted then multiset(registry)[l] else 0;
    }
  }

  /** `after` extends `before` with removal requests only. */
  predicate OnlyRemovalsAfter(before: seq<Request>, after: seq<Request>) {
    before <= after && forall k :: |before| <= k < |after| ==> after[k].RemoveRequest?
  }

  lemma RemovalsCompose(a: seq<Request>, b: seq<Request>, c: seq<Request>)
    requires OnlyRemovalsAfter(a, b) && OnlyRemovalsAfter(b, c)
    ensures OnlyRemovalsAfter(a, c)
  {
    forall k | |a| <= k < |c| ensures c[k].RemoveRequest? {
      if k < |b| {
        assert c[k] == b[k];
      }
    }
  }

  /** Removing one line sends at most its removal. */
  lemma RemoveBreakpointSends(b: Backend, line: int)
    ensures OnlyRemovalsAfter(b.sent, RemoveBreakpoint(b, line).1.sent)
  {
    var sent := RemoveBreakpoint(b, line).1.sent;
    assert sent == b.sent || sent == b.sent + [RemoveRequest(line)];
  }

  /** Removing breakpoints only ever asks the VM for removals. */
  lemma {:induction false} RemoveEachSendsRemovals(b: Backend, lines: seq<int>)
    ensures OnlyRemovalsAfter(b.sent, RemoveEach(b, lines).1.sent)
    decreases |lines|
  {
    if |lines| > 0 {
      var first := RemoveBreakpoint(b, lines[0]).1;
      RemoveBreakpointSends(b, lines[0]);
      RemoveEachSendsRemovals(first, lines[1..]);
      RemovalsCompose(b.sent, first.sent, RemoveEach(first, lines[1..]).1.sent);
    }
  }

  /** When a removal fails, `setBreakPoints` answers false and asks the VM
      for no additions. */
  lemma FailedRemovalStops(b: Backend, wanted: seq<int>)
    requires !RemoveEach(b, ToDelete(b.breakpoints, wanted)).0
    ensures !SetBreakPoints(b, wanted).0
    ensures OnlyRemovalsAfter(b.sent, SetBreakPoints(b, wanted).1.sent)
  {
    RemoveEachSendsRemovals(b, ToDelete(b.breakpoints, wanted));
  }

  /** After a successful `setBreakPoints` the registry holds exactly the
      wanted lines, whatever it held before. */
  lemma SetBreakPointsExact(b: Backend, wanted: seq<int>)
    requires SetBreakPoints(b, wanted).0
    ensures Lines(SetBreakPoints(b, wanted).1.breakpoints) == Lines(wanted)
  {
    var r1 := RemoveEach(b, ToDelete(b.breakpoints, wanted));
    var b1 := r1.1;
    DeletionLeavesWanted(b.breakpoints, wanted, b1.breakpoints);
    var add := ToAdd(b1.breakpoints, wanted);
    var fin := AddEach(b1, add).1.breakpoints;
    assert fin == b1.breakpoints + add;
    forall l | l in wanted ensures l in fin {
      assert l in b1.breakpoints || l in add;
    }
    forall l | l in fin ensures l in wanted {
      assert l in b1.breakpoints || l in add;
    }
    assert Lines(fin) == Lines(wanted);
  }

  predicate NoDuplicates(s: seq<int>) {
    forall i, j :: 0 <= i < j < |s| ==> s[i] != s[j]
  }

  lemma NoDuplicatesMultiset(s: seq<int>)
    ensures NoDuplicates(s) <==> forall x :: multiset(s)[x] <= 1
  {
    if NoDuplicates(s) {
      forall x ensures multiset(s)[x] <= 1 {
        NoDuplicatesCount(s, x);
      }
    } else {
      var i, j :| 0 <= i < j < |s| && s[i] == s[j];
      assert s == s[..j] + [s[j]] + s[j + 1..];
      assert s[i] in s[..j];
      assert multiset(s)[s[i]] >= 2;
    }
  }

  lemma {:induction false} NoDuplicatesCount(s: seq<int>, x: int)
    requires NoDuplicates(s)
    ensures multiset(s)[x] <= 1
  {
    if |s| > 0 {
      assert s == [s[0]] + s[1..];
      NoDuplicatesCount(s[1..], x);
      if s[0] == x {
        assert x !in s[1..];
      }
    }
  }

  /** Dropping elements keeps a sequence free of duplicates. */
  lemma SubMultisetNoDuplicates(a: seq<int>, b: seq<int>)
    requires multiset(a) <= multiset(b) && NoDuplicates(b)
    ensures NoDuplicates(a)
  {
    NoDuplicatesMultiset(b);
    assert forall x :: multiset(a)[x] <= multiset(b)[x];
    NoDuplicatesMultiset(a);
  }

  /** Without duplicate wanted lines, `setBreakPoints` never registers a
      line twice, whatever the VM answers. */
  lemma SetBreakPointsNoDuplicates(b: Backend, wanted: seq<int>)
    requires NoDuplicates(b.breakpoints) && NoDuplicates(wanted)
    ensures NoDuplicates(SetBreakPoints(b, wanted).1.breakpoints)
  {
    var r1 := RemoveEach(b, ToDelete(b.breakpoints, wanted));
    var b1 := r1.1;
    SubMultisetNoDuplicates(b1.breakpoints, b.breakpoints);
    if r1.0 {
      var add := ToAdd(b1.breakpoints, wanted);
      SubMultisetNoDuplicates(add, wanted);
      AddEachNoDuplicates(b1, add);
    }
  }

  /** Adding distinct lines that are not registered keeps the registry free
      of duplicates. */
  lemma {:induction false} AddEachNoDuplicates(b: Backend, lines: seq<int>)
    requires NoDuplicates(b.breakpoints) && NoDuplicates(lines)
    requires forall x :: x in lines ==> x !in b.breakpoints
    ensures NoDuplicates(AddEach(b, lines).1.breakpoints)
    decreases |lines|
  {
    if |lines| > 0 {
      var (ok1, b1) := AddBreakpoint(b, lines[0]);
      assert NoDuplicates(b1.breakpoints) by {
        if ok1 {
          forall i, j | 0 <= i < j < |b1.breakpoints| ensures b1.breakpoints[i] != b1.breakpoints[j] {
            if j == |b.breakpoints| {
              assert b1.breakpoints[i] in b.breakpoints;
            }
          }
        }
      }
      forall x | x in lines[1..] ensures x !in b1.breakpoints {
        assert x != lines[0];
      }
      AddEachNoDuplicates(b1, lines[1..]);
    }
  }

  /** When the registry already holds exactly the wanted lines,
      `setBreakPoints` sends nothing, changes nothing and succeeds. */
  lemma SetBreakPointsIdempotent(b: Backend, wanted: seq<int>)
    requires Lines(b.breakpoints) == Lines(wanted)
    ensures SetBreakPoints(b, wanted).0
    ensures SetBreakPoints(b, wanted).1 == b
  {
    var del := ToDelete(b.breakpoints, wanted);
    forall x ensures multiset(del)[x] == 0 {
      assert x in b.breakpoints ==> x in Lines(b.breakpoints);
    }
    assert del == [];
    var add := ToAdd(b.breakpoints, wanted);
    forall x ensures multiset(add)[x] == 0 {
      assert x in wanted ==> x in Lines(wanted);
    }
    assert add == [];
  }

  /** A VM that accepts every request takes every addition. */
  lemma {:induction false} AcceptingVmAddsAll(b: Backend, lines: seq<int>)
    requires forall h, q :: b.vm.accepts(h, q)
    ensures AddEach(b, lines).0
    decreases |lines|
  {
    if |lines| > 0 {
      AcceptingVmAddsAll(AddBreakpoint(b, lines[0]).1, lines[1..]);
    }
  }

  /** A wanted line listed twice is registered twice when the VM accepts
      everything: the lines to add are chosen before any is added. */
  lemma RepeatedLineAddedTwice(b: Backend)
    requires b.breakpoints == []
    requires forall h, q :: b.vm.accepts(h, q)
    ensures SetBreakPoints(b, [5, 5]).1.breakpoints == [5, 5]
  {
    assert ToDelete([], [5, 5]) == [];
    assert ToAdd([], [5, 5]) == [5, 5];
    AcceptingVmAddsAll(b, [5, 5]);
  }
}

=== FILE: DebuggerConfig.dfy ===
/** The validators of the debugger's configuration (`src/DebuggerConfig.ts`):
    the launch arguments of a debugging session, the start-up options, the
    mock configuration, and the legacy device configuration. Each reads a
    JavaScript value and either builds the configuration or throws; the
    wifi credentials file and the list of breakpoint policies are inputs. */
module DebuggerConfig {
  import opened Wrappers
  import opened JsValues

  /** The conditions an `InvalidDebuggerConfiguration` reports. */
  datatype Fault =
    | LaunchArgsNotObject
    | ProgramMissing
    | TargetMissing
    | UnsupportedTarget
    | DebuggingModeMissing
    | UnsupportedDebuggingMode
    | ExistingVMNotBoolean
    | ToolPortNotNumber
    | ToolPortMissing
    | ExistingVMMissing
    | ProxyCallPortNotNumber
    | SerialPortNotString
    | FqbnNotString
    | FqbnMissingForMcu
    | BaudrateNotNumber
    | OnStartNotObject
    | NoDebugMode
    | SerialPortMissing
    | FqbnMissing
    | BaudrateMissing
    | WifiCredentialsNeeded
    | PolicyNotString
    | PolicyInvalid
    | CredentialsUnreadable

  /** What a validator throws: an `InvalidDebuggerConfiguration`, or the
      `TypeError` of reading a property of `null` or `undefined`. */
  datatype ConfigError = Invalid(fault: Fault) | TypeError

  /** `v[key]`, throwing on a nullish value. */
  function Prop(v: JsValue, key: string): (r: Result<JsValue, ConfigError>)
    ensures r == if IsNullish(v) then Err(TypeError) else Ok(Field(v, key))
  {
    if IsNullish(v) then Err(TypeError) else Ok(Field(v, key))
  }

  // ---------------------------------------------------------------------
  // Launch arguments

  datatype DeploymentMode = DevVM | MCUVM

  datatype DebuggingMode = RemoteDebugging | Edward

  /** `legacyTargetDeviceMapping`. */
  function TargetOf(name: string): (r: Option<DeploymentMode>)
    ensures r == Some(DevVM) <==> name == "development"
    ensures r == Some(MCUVM) <==> name == "mcu"
  {
    if name == "development" then Some(DevVM)
    else if name == "mcu" then Some(MCUVM)
    else None
  }

  /** `debuggingModesMapping`. */
  function DebuggingModeOf(name: string): (r: Option<DebuggingMode>)
    ensures r == Some(RemoteDebugging) <==> name == "remote-debugging"
    ensures r == Some(Edward) <==> name == "edward"
  {
    if name == "remote-debugging" then Some(RemoteDebugging)
    else if name == "edward" then Some(Edward)
    else None
  }

  datatype UserConfig = UserConfig(
    program: string,
    debuggingMode: DebuggingMode,
    target: DeploymentMode,
    serialPort: Option<string>,
    baudrate: Option<int>,
    fqbn: Option<string>,
    existingVM: Option<bool>,
    toolPortExistingVM: Option<int>,
    serverPortForProxyCall: Option<int>)

  /** The launch arguments `validateVSCodeLaunchArgs` accepts, stated
      property by property. */
  predicate AcceptableLaunchArgs(args: JsValue) {
    && args.Obj?
    && Field(args, "program").Str?
    && Field(args, "target") in {Str("development"), Str("mcu")}
    && Field(args, "debuggingMode") in {Str("remote-debugging"), Str("edward")}
    && (Field(args, "existingVM").Undefined? || Field(args, "existingVM").Bool?)
    && (Field(args, "toolPortExistingVM").Undefined? || Field(args, "toolPortExistingVM").Num?)
    && (Field(args, "existingVM").Undefined? <==> Field(args, "toolPortExistingVM").Undefined?)
    && (Field(args, "serverPortForProxyCall").Undefined? || Field(args, "serverPortForProxyCall").Num?)
    && (Field(args, "serialPort").Undefined? || Field(args, "serialPort").Str?)
    && (Field(args, "fqbn").Str? || (Field(args, "fqbn").Undefined? && Field(args, "target") == Str("development")))
    && (Field(args, "baudRate").Undefined? || Field(args, "baudRate").Num?)
  }

  function OptionalBool(v: JsValue): Option<bool> {
    if v.Bool? then Some(v.b) else None
  }

  function OptionalNum(v: JsValue): Option<int> {
    if v.Num? then Some(v.n) else None
  }

  function OptionalStr(v: JsValue): Option<string> {
    if v.Str? then Some(v.s) else None
  }

  /** `validateVSCodeLaunchArgs`: the checks in the source's order; the
      optional properties are copied only when defined. */
  function ValidateLaunchArgs(args: JsValue): (r: Result<UserConfig, ConfigError>)
    ensures r.Ok? <==> AcceptableLaunchArgs(args)
    ensures TypeOf(args) != "object" ==> r == Err(Invalid(LaunchArgsNotObject))
    ensures args.Null? ==> r == Err(TypeError)
    ensures args.Obj? && !Field(args, "program").Str? ==> r == Err(Invalid(ProgramMissing))
    ensures r.Ok? ==>
      && r.value.program == Field(args, "program").s
      && r.value.target == TargetOf(Field(args, "target").s).value
      && r.value.debuggingMode == DebuggingModeOf(Field(args, "debuggingMode").s).value
      && r.value.existingVM == OptionalBool(Field(args, "existingVM"))
      && r.value.toolPortExistingVM == OptionalNum(Field(args, "toolPortExistingVM"))
      && r.value.serverPortForProxyCall == OptionalNum(Field(args, "serverPortForProxyCall"))
      && r.value.serialPort == OptionalStr(Field(args, "serialPort"))
      && r.value.fqbn == OptionalStr(Field(args, "fqbn"))
      && r.value.baudrate == OptionalNum(Field(args, "baudRate"))
  {
    if TypeOf(args) != "object" then Err(Invalid(LaunchArgsNotObject))
    else
      var program :- Prop(args, "program");
      if !program.Str? then Err(Invalid(ProgramMissing))
      else
        var selectedTarget := Field(args, "target");
        if !selectedTarget.Str? then Err(Invalid(TargetMissing))
        else if TargetOf(selectedTarget.s).None? then Err(Invalid(UnsupportedTarget))
        else
          var target := TargetOf(selectedTarget.s).value;
          var selectedMode := Field(args, "debuggingMode");
          if !selectedMode.Str? then Err(Invalid(DebuggingModeMissing))
          else if DebuggingModeOf(selectedMode.s).None? then Err(Invalid(UnsupportedDebuggingMode))
          else
            var mode := DebuggingModeOf(selectedMode.s).value;
            ValidateOptionalArgs(args, program.s, target, mode)
  }

  /** The second half of `validateVSCodeLaunchArgs`, from `existingVM` on. */
  function ValidateOptionalArgs(args: JsValue, program: string, target: DeploymentMode, mode: DebuggingMode): (r: Result<UserConfig, ConfigError>)
  {
    var existingVM := Field(args, "existingVM");
    var toolPort := Field(args, "toolPortExistingVM");
    var proxyPort := Field(args, "serverPortForProxyCall");
    if !existingVM.Undefined? && !existingVM.Bool? then Err(Invalid(ExistingVMNotBoolean))
    else if !toolPort.Undefined? && !toolPort.Num? then Err(Invalid(ToolPortNotNumber))
    else if !existingVM.Undefined? && toolPort.Undefined? then Err(Invalid(ToolPortMissing))
    else if existingVM.Undefined? && !toolPort.Undefined? then Err(Invalid(ExistingVMMissing))
    else if !proxyPort.Undefined? && !proxyPort.Num? then Err(Invalid(ProxyCallPortNotNumber))
    else
      var serialPort := Field(args, "serialPort");
      var fqbn := Field(args, "fqbn");
      var baudrate := Field(args, "baudRate");
      if !serialPort.Undefined? && !serialPort.Str? then Err(Invalid(SerialPortNotString))
      else if !fqbn.Undefined? && !fqbn.Str? then Err(Invalid(FqbnNotString))
      else if fqbn.Undefined? && target == MCUVM then Err(Invalid(FqbnMissingForMcu))
      else if !baudrate.Undefined? && !baudrate.Num? then Err(Invalid(BaudrateNotNumber))
      else Ok(UserConfig(program, mode, target,
                         OptionalStr(serialPort), OptionalNum(baudrate), OptionalStr(fqbn),
                         OptionalBool(existingVM), OptionalNum(toolPort), OptionalNum(proxyPort)))
  }

  /** `existingVM` and `toolPortExistingVM` come together or not at all. */
  lemma ExistingVMPaired(args: JsValue)
    requires ValidateLaunchArgs(args).Ok?
    ensures ValidateLaunchArgs(args).value.existingVM.Some? <==> ValidateLaunchArgs(args).value.toolPortExistingVM.Some?
  {
  }

  /** A launch for the MCU target always names a board. */
  lemma McuLaunchHasFqbn(args: JsValue)
    requires ValidateLaunchArgs(args).Ok? && ValidateLaunchArgs(args).value.target == MCUVM
    ensures ValidateLaunchArgs(args).value.fqbn.Some?
  {
  }

  // ---------------------------------------------------------------------
  // VM configuration

  datatype VMConfigArgs = VMConfigArgs(
    program: string,
    disableStrictModuleLoad: bool,
    serialPort: Option<string>,
    baudrate: Option<int>)

  /** `createVMConfig`: strict module loading is always off; serial port
      and baud rate are passed on for the MCU target only. */
  function CreateVMConfig(uc: UserConfig): (r: VMConfigArgs)
    ensures r.program == uc.program && r.disableStrictModuleLoad
    ensures uc.target == MCUVM ==> r.serialPort == uc.serialPort && r.baudrate == uc.baudrate
    ensures uc.target == DevVM ==> r.serialPort.None? && r.baudrate.None?
  {
    var base := VMConfigArgs(uc.program, true, None, None);
    if uc.target == MCUVM then
      var withPort := if uc.serialPort.Some? then base.(serialPort := uc.serialPort) else base;
      if uc.baudrate.Some? then withPort.(baudrate := uc.baudrate) else withPort
    else base
  }

  /** From launch arguments to the VM: the serial port reaches the VM
      exactly when the target is `mcu` and a port string was given. */
  lemma LaunchSerialPortReachesVM(args: JsValue)
    requires ValidateLaunchArgs(args).Ok?
    ensures CreateVMConfig(ValidateLaunchArgs(args).value).serialPort ==
      if Field(args, "target") == Str("mcu") && Field(args, "serialPort").Str?
      then Some(Field(args, "serialPort").s) else None
  {
  }

  // ---------------------------------------------------------------------
  // Start-up options

  /** `OnStartConfig`: the properties are copied without a type check, so
      each may be any value; `flash` is read for its truthiness. */
  datatype OnStartConfig = OnStartConfig(flash: JsValue, updateSource: JsValue, pause: JsValue)

  /** `defaultConfig`: flash, do not update the source, pause. */
  function DefaultOnStart(): OnStartConfig {
    OnStartConfig(Bool(true), Bool(false), Bool(true))
  }

  /** `fromAnyObject`: rejects a value that is not an object; each option
      keeps its default (flash, no source update, no pause) unless the
      object has it. */
  function OnStartFromAnyObject(obj: JsValue): (r: Result<OnStartConfig, ConfigError>)
    ensures TypeOf(obj) != "object" ==> r == Err(Invalid(OnStartNotObject))
    ensures obj.Null? ==> r == Err(TypeError)
    ensures r.Ok? <==> obj.Obj? || obj.Arr?
    ensures r.Ok? ==>
      && r.value.flash == (if HasField(obj, "flash") then Field(obj, "flash") else Bool(true))
      && r.value.updateSource == (if HasField(obj, "updateSource") then Field(obj, "updateSource") else Bool(false))
      && r.value.pause == (if HasField(obj, "pause") then Field(obj, "pause") else Bool(false))
  {
    if TypeOf(obj) != "object" then Err(Invalid(OnStartNotObject))
    else if obj.Null? then Err(TypeError)
    else
      var c := OnStartConfig(Bool(true), Bool(false), Bool(false));
      var c1 := if HasField(obj, "flash") then c.(flash := Field(obj, "flash")) else c;
      var c2 := if HasField(obj, "updateSource") then c1.(updateSource := Field(obj, "updateSource")) else c1;
      var c3 := if HasField(obj, "pause") then c2.(pause := Field(obj, "pause")) else c2;
      Ok(c3)
  }

  /** An empty `onStart` object is not the default configuration: the
      default pauses, the empty object does not. */
  lemma EmptyOnStartDoesNotPause()
    ensures OnStartFromAnyObject(Obj(map[])) == Ok(OnStartConfig(Bool(true), Bool(false), Bool(false)))
    ensures OnStartFromAnyObject(Obj(map[])).value != DefaultOnStart()
  {
  }

  // ---------------------------------------------------------------------
  // Mock configuration

  /** A JavaScript `Map` as its entries in insertion order. */
  type Entries = seq<(JsValue, JsValue)>

  predicate DistinctEntryKeys(m: Entries) {
    forall i, j :: 0 <= i < j < |m| ==> m[i].0 != m[j].0
  }

  function Lookup(m: Entries, k: JsValue): (r: Option<JsValue>)
    ensures r.None? <==> forall i :: 0 <= i < |m| ==> m[i].0 != k
  {
    if |m| == 0 then None
    else if m[0].0 == k then Some(m[0].1)
    else
      assert forall i :: 1 <= i < |m| ==> m[i] == m[1..][i - 1];
      Lookup(m[1..], k)
  }

  /** `Map.prototype.set`: a present key keeps its place and takes the new
      value; a new key goes last. */
  function MapSet(m: Entries, k: JsValue, v: JsValue): (r: Entries)
    requires DistinctEntryKeys(m)
    ensures DistinctEntryKeys(r)
    ensures Lookup(r, k) == Some(v)
    ensures forall x :: x != k ==> Lookup(r, x) == Lookup(m, x)
    ensures forall x :: Lookup(r, x).Some? <==> Lookup(m, x).Some? || x == k
  {
    if |m| == 0 then [(k, v)]
    else if m[0].0 == k then
      assert forall x :: x != k ==> Lookup(m[1..], x) == Lookup(m, x);
      [(k, v)] + m[1..]
    else
      var rest := MapSet(m[1..], k, v);
      assert Lookup(m[1..], m[0].0).None?;
      assert Lookup(rest, m[0].0).None?;
      var r := [m[0]] + rest;
      assert forall i :: 1 <= i < |r| ==> r[i] == rest[i - 1];
      assert forall x :: x != m[0].0 ==> Lookup(r, x) == Lookup(rest, x);
      r
  }

  /** The elements `for (i = 0; i < v.length; i++) v[i]` visits: those of
      an array, the characters of a string, none for a value without a
      length; reading `length` of a nullish value throws. */
  function Elements(v: JsValue): Result<seq<JsValue>, ConfigError> {
    match v
    case Undefined => Err(TypeError)
    case Null => Err(TypeError)
    case Arr(items) => Ok(items)
    case Str(s) => Ok(seq(|s|, i requires 0 <= i < |s| => Str([s[i]])))
    case _ => Ok([])
  }

  /** `v[i]`: `undefined` past the end, the property named by the decimal
      text of `i` on an object, a throw on a nullish value. */
  function ElementAt(v: JsValue, i: nat): Result<JsValue, ConfigError> {
    match v
    case Undefined => Err(TypeError)
    case Null => Err(TypeError)
    case Arr(items) => Ok(if i < |items| then items[i] else Undefined)
    case Str(s) => Ok(if i < |s| then Str([s[i]]) else Undefined)
    case Obj(_) => Ok(Field(v, Numbers.IntToDecimal(i)))
    case _ => Ok(Undefined)
  }

  /** The keys `m` maps are exactly the elements of `keys`. */
  ghost predicate KeysAre(m: Entries, keys: seq<JsValue>) {
    forall x :: Lookup(m, x).Some? <==> x in keys
  }

  /** Among the first `n` ids, each one's last occurrence decides its mock:
      `m` maps `funcs[i]` to `mocks[i]` when no later id repeats it. */
  ghost predicate LastOccurrenceWins(m: Entries, funcs: seq<JsValue>, mocks: JsValue, n: nat)
    requires n <= |funcs|
  {
    forall i :: 0 <= i < n && (forall j :: i < j < n ==> funcs[j] != funcs[i]) ==>
      ElementAt(mocks, i).Ok? && Lookup(m, funcs[i]) == Some(ElementAt(mocks, i).value)
  }

  /** The loop of `DeserializeMockConfig` over its first `n` iterations:
      `mappings.set(funcs[i], mocks[i])`. */
  function Mappings(funcs: seq<JsValue>, mocks: JsValue, n: nat): (r: Result<Entries, ConfigError>)
    requires n <= |funcs|
    ensures r.Ok? ==> DistinctEntryKeys(r.value)
    ensures r.Err? <==> n > 0 && IsNullish(mocks)
    ensures r.Ok? ==> KeysAre(r.value, funcs[..n])
    ensures r.Ok? ==> LastOccurrenceWins(r.value, funcs, mocks, n)
    decreases n
  {
    if n == 0 then Ok([])
    else
      var before :- Mappings(funcs, mocks, n - 1);
      var mock :- ElementAt(mocks, n - 1);
      MappingsStep(funcs, mocks, n, before, mock);
      Ok(MapSet(before, funcs[n - 1], mock))
  }

  /** One iteration of the loop keeps the key set and the last-occurrence
      mapping. */
  lemma MappingsStep(funcs: seq<JsValue>, mocks: JsValue, n: nat, before: Entries, mock: JsValue)
    requires 0 < n <= |funcs|
    requires ElementAt(mocks, n - 1) == Ok(mock)
    requires DistinctEntryKeys(before)
    requires KeysAre(before, funcs[..n - 1])
    requires LastOccurrenceWins(before, funcs, mocks, n - 1)
    ensures KeysAre(MapSet(before, funcs[n - 1], mock), funcs[..n])
    ensures LastOccurrenceWins(MapSet(before, funcs[n - 1], mock), funcs, mocks, n)
  {
    assert funcs[..n] == funcs[..n - 1] + [funcs[n - 1]];
    var after := MapSet(before, funcs[n - 1], mock);
    forall i | 0 <= i < n && (forall j :: i < j < n ==> funcs[j] != funcs[i])
      ensures ElementAt(mocks, i).Ok? && Lookup(after, funcs[i]) == Some(ElementAt(mocks, i).value)
    {
      if i < n - 1 {
        assert funcs[n - 1] != funcs[i];
      }
    }
  }

  datatype MockConfig = MockConfig(port: Option<int>, host: JsValue, functions: Entries)

  /** `DeserializeMockConfig`: the port through `Number`, the host
      defaulting to `localhost`, and `func_ids[i]` mapped to `mock_ids[i]`,
      a later repetition of an id overriding an earlier one. */
  function DeserializeMockConfig(obj: JsValue): (r: Result<MockConfig, ConfigError>)
    ensures IsNullish(obj) ==> r == Err(TypeError)
    ensures r.Err? <==> IsNullish(obj) || IsNullish(Field(obj, "func_ids"))
                        || (|Elements(Field(obj, "func_ids")).value| > 0 && IsNullish(Field(obj, "mock_ids")))
    ensures r.Ok? ==> r.value.port == ToNumber(Field(obj, "port"))
    ensures r.Ok? ==> r.value.host == if HasField(obj, "host") then Field(obj, "host") else Str("localhost")
    ensures r.Ok? ==> Elements(Field(obj, "func_ids")).Ok?
    ensures r.Ok? ==> KeysAre(r.value.functions, Elements(Field(obj, "func_ids")).value)
    ensures r.Ok? ==> LastOccurrenceWins(r.value.functions, Elements(Field(obj, "func_ids")).value,
                                         Field(obj, "mock_ids"), |Elements(Field(obj, "func_ids")).value|)
  {
    if IsNullish(obj) then Err(TypeError)
    else
      var host := if HasField(obj, "host") then Field(obj, "host") else Str("localhost");
      var funcs :- Elements(Field(obj, "func_ids"));
      var mappings :- Mappings(funcs, Field(obj, "mock_ids"), |funcs|);
      assert funcs[..|funcs|] == funcs;
      Ok(MockConfig(ToNumber(Field(obj, "port")), host, mappings))
  }

  /** `mock_ids` given as an object: `mock_ids[0]` reads its property `"0"`. */
  lemma ObjectMockIds()
    ensures var r := DeserializeMockConfig(Obj2("func_ids", Arr([Num(7)]), "mock_ids", Obj(map["0" := Num(5)])));
      r.Ok? && Lookup(r.value.functions, Num(7)) == Some(Num(5))
  {
    var obj := Obj2("func_ids", Arr([Num(7)]), "mock_ids", Obj(map["0" := Num(5)]));
    assert Numbers.IntToDecimal(0) == "0";
    assert Field(obj, "func_ids") == Arr([Num(7)]);
    assert ElementAt(Field(obj, "mock_ids"), 0) == Ok(Num(5));
  }

  // ---------------------------------------------------------------------
  // The legacy device configuration

  const EMULATED: string := "emulated"
  const EMBEDDED: string := "embedded"
  const DEFAULT_DEBUG_PORT: int := 8300
  const DEFAULT_PROXY_PORT: int := 8081

  datatype DebugMode = Emulated | Embedded

  datatype WiFiCredentials = WiFiCredentials(ssid: JsValue, pswd: JsValue)

  datatype ProxyConfig = ProxyConfig(port: JsValue, ip: JsValue, serialPort: JsValue, baudrate: JsValue)

  /** The `ProxyConfig` constructor: each property defaults unless given. */
  function NewProxyConfig(obj: JsValue): (r: Result<ProxyConfig, ConfigError>)
    ensures r.Err? <==> IsNullish(obj)
    ensures r.Ok? ==> r.value.port == if HasField(obj, "port") then Field(obj, "port") else Num(DEFAULT_PROXY_PORT)
  {
    if IsNullish(obj) then Err(TypeError)
    else
      Ok(ProxyConfig(
        if HasField(obj, "port") then Field(obj, "port") else Num(DEFAULT_PROXY_PORT),
        if HasField(obj, "ip") then Field(obj, "ip") else Str(""),
        if HasField(obj, "serialPort") then Field(obj, "serialPort") else Str(""),
        if HasField(obj, "baudrate") then Field(obj, "baudrate") else Num(-1)))
  }

  /** What the constructor consults beyond the object: the reading of the
      credentials file `WiFiCredentials.validate` performs, and the
      breakpoint policies `Breakpoint.policies()` lists. */
  datatype Environment = Environment(
    validateCredentials: JsValue -> Result<WiFiCredentials, ConfigError>,
    policies: seq<string>,
    defaultPolicy: string)

  datatype OldDeviceConfig = OldDeviceConfig(
    wifiCredentials: Option<WiFiCredentials>,
    name: JsValue,
    port: JsValue,
    ip: JsValue,
    debugMode: DebugMode,
    proxyConfig: Option<ProxyConfig>,
    onStartConfig: OnStartConfig,
    serialPort: JsValue,
    baudrate: JsValue,
    fqbn: JsValue,
    breakPoliciesActive: bool,
    breakpointPolicy: string,
    mock: Option<MockConfig>)

  function DebugModeOf(v: JsValue): Option<DebugMode> {
    if v == Str(EMULATED) then Some(Emulated)
    else if v == Str(EMBEDDED) then Some(Embedded)
    else None
  }

  /** The device name as written: the given name; for an embedded device
      the ip, else the serial port, else `device unknown`; `emulator`
      otherwise. The serial port is compared with `''` only, so an absent
      one (`undefined`) is chosen as the name. */
  function DeviceNameAsWritten(obj: JsValue, mode: DebugMode, ip: JsValue, serialPort: JsValue): (r: JsValue)
    ensures HasField(obj, "name") ==> r == Field(obj, "name")
    ensures !HasField(obj, "name") && mode == Emulated ==> r == Str("emulator")
    ensures !HasField(obj, "name") && mode == Embedded ==> r in {ip, serialPort, Str("device unknown")} && r != Str("")
    ensures !HasField(obj, "name") && mode == Embedded && ip != Str("") ==> r == ip
    ensures !HasField(obj, "name") && mode == Embedded && ip == Str("") && serialPort != Str("") ==> r == serialPort
    ensures !HasField(obj, "name") && mode == Embedded && ip == Str("") && serialPort.Undefined? ==> r.Undefined?
  {
    if HasField(obj, "name") then Field(obj, "name")
    else if mode == Embedded then
      if ip != Str("") then ip
      else if serialPort != Str("") then serialPort
      else Str("device unknown")
    else Str("emulator")
  }

  /** The device name with an absent serial port treated as no serial
      port, so that such a device is `device unknown`. */
  function DeviceName(obj: JsValue, mode: DebugMode, ip: JsValue, serialPort: JsValue): (r: JsValue)
    ensures HasField(obj, "name") ==> r == Field(obj, "name")
    ensures !HasField(obj, "name") && mode == Emulated ==> r == Str("emulator")
    ensures !HasField(obj, "name") && mode == Embedded ==>
      r in {ip, serialPort, Str("device unknown")} && r != Str("") && (r.Undefined? ==> ip.Undefined?)
    ensures !HasField(obj, "name") && mode == Embedded && ip != Str("") ==> r == ip
    ensures !HasField(obj, "name") && mode == Embedded && ip == Str("") && serialPort != Str("") && !serialPort.Undefined? ==> r == serialPort
    ensures !HasField(obj, "name") && mode == Embedded && ip == Str("") && serialPort.Undefined? ==> r == Str("device unknown")
  {
    if HasField(obj, "name") then Field(obj, "name")
    else if mode == Embedded then
      if ip != Str("") then ip
      else if serialPort != Str("") && !serialPort.Undefined? then serialPort
      else Str("device unknown")
    else Str("emulator")
  }

  /** `validateBreakpointPolicy`: a string among the known policies. */
  function ValidateBreakpointPolicy(policy: JsValue, env: Environment): (r: Result<string, ConfigError>)
    ensures r.Ok? <==> policy.Str? && policy.s in env.policies
    ensures r.Ok? ==> r.value == policy.s
    ensures !policy.Str? ==> r == Err(Invalid(PolicyNotString))
  {
    if !policy.Str? then Err(Invalid(PolicyNotString))
    else if policy.s !in env.policies then Err(Invalid(PolicyInvalid))
    else Ok(policy.s)
  }

  /** The checks flashing needs: serial port, board and a numeric baud
      rate, and credentials when the device is reached over an ip. */
  function FlashChecks(obj: JsValue, ip: JsValue, credentials: Option<WiFiCredentials>): (r: Result<(), ConfigError>)
    ensures r.Ok? <==>
      && HasField(obj, "serialPort") && HasField(obj, "fqbn") && HasField(obj, "baudrate")
      && Field(obj, "baudrate").Num?
      && !(Truthy(ip) && ip != Str("") && credentials.None?)
  {
    if !HasField(obj, "serialPort") then Err(Invalid(SerialPortMissing))
    else if !HasField(obj, "fqbn") then Err(Invalid(FqbnMissing))
    else if !HasField(obj, "baudrate") then Err(Invalid(BaudrateMissing))
    else if !Field(obj, "baudrate").Num? then Err(Invalid(BaudrateNotNumber))
    else if Truthy(ip) && ip != Str("") && credentials.None? then Err(Invalid(WifiCredentialsNeeded))
    else Ok(())
  }

  /** The `OldDeviceConfig` constructor, with the device name chosen by
      `DeviceName`. */
  function NewOldDeviceConfig(obj: JsValue, env: Environment): (r: Result<OldDeviceConfig, ConfigError>)
    ensures IsNullish(obj) ==> r == Err(TypeError)
    ensures r.Ok? ==> DebugModeOf(Field(obj, "debugMode")) == Some(r.value.debugMode)
    ensures r.Ok? ==> r.value.port == if HasField(obj, "port") then Field(obj, "port") else Num(DEFAULT_DEBUG_PORT)
    ensures r.Ok? ==> r.value.ip == if HasField(obj, "ip") then Field(obj, "ip") else Str("")
    ensures r.Ok? ==> r.value.name == DeviceName(obj, r.value.debugMode, r.value.ip, Field(obj, "serialPort"))
    ensures r.Ok? && Truthy(r.value.onStartConfig.flash) ==>
      HasField(obj, "serialPort") && HasField(obj, "fqbn") && Field(obj, "baudrate").Num?
    ensures r.Ok? && Truthy(r.value.onStartConfig.flash) ==> FlashChecks(obj, r.value.ip, r.value.wifiCredentials).Ok?
    ensures r.Ok? ==> (r.value.wifiCredentials.Some? <==> HasField(obj, "wifiCredentials"))
    ensures r.Ok? ==> r.value.baudrate == Field(obj, "baudrate")
    ensures r.Ok? && !HasField(obj, "onStart") ==> r.value.onStartConfig == DefaultOnStart()
    ensures r.Ok? && HasField(obj, "onStart") ==> OnStartFromAnyObject(Field(obj, "onStart")) == Ok(r.value.onStartConfig)
    ensures r.Ok? ==> r.value.serialPort == Field(obj, "serialPort") && r.value.fqbn == Field(obj, "fqbn")
    ensures r.Ok? ==> (r.value.breakPoliciesActive <==> HasField(obj, "breakpointPoliciesEnabled") && Truthy(Field(obj, "breakpointPoliciesEnabled")))
    ensures r.Ok? && r.value.breakPoliciesActive ==> r.value.breakpointPolicy in env.policies
  {
    if IsNullish(obj) then Err(TypeError)
    else
      var credentials :- if HasField(obj, "wifiCredentials") then
          (match env.validateCredentials(Field(obj, "wifiCredentials"))
           case Ok(c) => Ok(Some(c))
           case Err(e) => Err(e))
        else Ok(None);
      var mode :- match DebugModeOf(Field(obj, "debugMode"))
        case Some(m) => Ok(m)
        case None => Err(Invalid(NoDebugMode));
      var proxy :- if HasField(obj, "proxy") then
          (match NewProxyConfig(Field(obj, "proxy"))
           case Ok(p) => Ok(Some(p))
           case Err(e) => Err(e))
        else Ok(None);
      var onStart :- if HasField(obj, "onStart") then OnStartFromAnyObject(Field(obj, "onStart")) else Ok(DefaultOnStart());
      var _ :- if Truthy(onStart.flash) then FlashChecks(obj, IpOf(obj), credentials) else Ok(());
      DeviceFields(obj, env, credentials, mode, proxy, onStart)
  }

  /** The start-up options the constructor uses: those given, or the
      defaults. */
  function OnStartOf(obj: JsValue): Result<OnStartConfig, ConfigError> {
    if HasField(obj, "onStart") then OnStartFromAnyObject(Field(obj, "onStart")) else Ok(DefaultOnStart())
  }

  /** The objects the `OldDeviceConfig` constructor accepts, stated check by
      check: credentials that validate when given, a known debug mode, a
      valid proxy and start-up options when given, the flashing checks when
      flashing is on, a known breakpoint policy when policies are enabled,
      and a valid mock when given. */
  predicate AcceptableDeviceObject(obj: JsValue, env: Environment) {
    && !IsNullish(obj)
    && (HasField(obj, "wifiCredentials") ==> env.validateCredentials(Field(obj, "wifiCredentials")).Ok?)
    && DebugModeOf(Field(obj, "debugMode")).Some?
    && (HasField(obj, "proxy") ==> NewProxyConfig(Field(obj, "proxy")).Ok?)
    && OnStartOf(obj).Ok?
    && (Truthy(OnStartOf(obj).value.flash) ==>
          FlashChecks(obj, IpOf(obj), if HasField(obj, "wifiCredentials")
                                      then Some(env.validateCredentials(Field(obj, "wifiCredentials")).value)
                                      else None).Ok?)
    && (HasField(obj, "breakpointPoliciesEnabled") && Truthy(Field(obj, "breakpointPoliciesEnabled")) ==>
          ValidateBreakpointPolicy(Field(obj, "breakpointPolicy"), env).Ok?)
    && (HasField(obj, "mock") ==> DeserializeMockConfig(Field(obj, "mock")).Ok?)
  }

  /** The constructor accepts exactly the acceptable objects. */
  lemma NewOldDeviceConfigAccepts(obj: JsValue, env: Environment)
    ensures NewOldDeviceConfig(obj, env).Ok? <==> AcceptableDeviceObject(obj, env)
  {
    if AcceptableDeviceObject(obj, env) {
      AcceptableAccepted(obj, env);
    } else {
      UnacceptableRejected(obj, env);
    }
  }

  lemma AcceptableAccepted(obj: JsValue, env: Environment)
    requires AcceptableDeviceObject(obj, env)
    ensures NewOldDeviceConfig(obj, env).Ok?
  {
    var credentials := if HasField(obj, "wifiCredentials")
                       then Some(env.validateCredentials(Field(obj, "wifiCredentials")).value) else None;
    var proxy := if HasField(obj, "proxy") then Some(NewProxyConfig(Field(obj, "proxy")).value) else None;
    DeviceFieldsAccepts(obj, env, credentials, DebugModeOf(Field(obj, "debugMode")).value, proxy, OnStartOf(obj).value);
  }

  lemma UnacceptableRejected(obj: JsValue, env: Environment)
    requires !AcceptableDeviceObject(obj, env)
    ensures NewOldDeviceConfig(obj, env).Err?
  {
    if && !IsNullish(obj) && DebugModeOf(Field(obj, "debugMode")).Some?
       && (HasField(obj, "wifiCredentials") ==> env.validateCredentials(Field(obj, "wifiCredentials")).Ok?)
       && (HasField(obj, "proxy") ==> NewProxyConfig(Field(obj, "proxy")).Ok?)
       && OnStartOf(obj).Ok?
    {
      var credentials := if HasField(obj, "wifiCredentials")
                         then Some(env.validateCredentials(Field(obj, "wifiCredentials")).value) else None;
      var proxy := if HasField(obj, "proxy") then Some(NewProxyConfig(Field(obj, "proxy")).value) else None;
      DeviceFieldsAccepts(obj, env, credentials, DebugModeOf(Field(obj, "debugMode")).value, proxy, OnStartOf(obj).value);
    }
  }

  /** The last stage fails only on the breakpoint policy or the mock. */
  lemma DeviceFieldsAccepts(obj: JsValue, env: Environment, credentials: Option<WiFiCredentials>, mode: DebugMode,
                            proxy: Option<ProxyConfig>, onStart: OnStartConfig)
    ensures DeviceFields(obj, env, credentials, mode, proxy, onStart).Ok? <==>
      && (HasField(obj, "breakpointPoliciesEnabled") && Truthy(Field(obj, "breakpointPoliciesEnabled")) ==>
            ValidateBreakpointPolicy(Field(obj, "breakpointPolicy"), env).Ok?)
      && (HasField(obj, "mock") ==> DeserializeMockConfig(Field(obj, "mock")).Ok?)
  {
  }

  /** The ip, `''` unless given. */
  function IpOf(obj: JsValue): JsValue {
    if HasField(obj, "ip") then Field(obj, "ip") else Str("")
  }

  /** The rest of the constructor, once the mode and the start-up options
      are known: the name, the breakpoint policy and the mock. */
  function DeviceFields(obj: JsValue, env: Environment, credentials: Option<WiFiCredentials>, mode: DebugMode,
                        proxy: Option<ProxyConfig>, onStart: OnStartConfig): (r: Result<OldDeviceConfig, ConfigError>)
    ensures r.Ok? ==> r.value.(breakpointPolicy := env.defaultPolicy, mock := None) == OldDeviceConfig(
      credentials, DeviceName(obj, mode, IpOf(obj), Field(obj, "serialPort")),
      if HasField(obj, "port") then Field(obj, "port") else Num(DEFAULT_DEBUG_PORT),
      IpOf(obj), mode, proxy, onStart, Field(obj, "serialPort"), Field(obj, "baudrate"), Field(obj, "fqbn"),
      HasField(obj, "breakpointPoliciesEnabled") && Truthy(Field(obj, "breakpointPoliciesEnabled")),
      env.defaultPolicy, None)
    ensures r.Ok? && r.value.breakPoliciesActive ==> r.value.breakpointPolicy in env.policies
  {
    var ip := IpOf(obj);
    var port := if HasField(obj, "port") then Field(obj, "port") else Num(DEFAULT_DEBUG_PORT);
    var serialPort := Field(obj, "serialPort");
    var name := DeviceName(obj, mode, ip, serialPort);
    var policiesOn := HasField(obj, "breakpointPoliciesEnabled") && Truthy(Field(obj, "breakpointPoliciesEnabled"));
    var policy :- if policiesOn then ValidateBreakpointPolicy(Field(obj, "breakpointPolicy"), env) else Ok(env.defaultPolicy);
    var mock :- if HasField(obj, "mock") then
        (match DeserializeMockConfig(Field(obj, "mock"))
         case Ok(m) => Ok(Some(m))
         case Err(e) => Err(e))
      else Ok(None);
    Ok(OldDeviceConfig(credentials, name, port, ip, mode, proxy, onStart, serialPort,
                       Field(obj, "baudrate"), Field(obj, "fqbn"), policiesOn, policy, mock))
  }

  /** `needsProxyToAnotherVM`: a proxy is configured and the device is
      emulated. */
  predicate NeedsProxyToAnotherVM(c: OldDeviceConfig) {
    c.proxyConfig.Some? && c.debugMode == Emulated
  }

  /** `isForHardware`. */
  predicate IsForHardware(c: OldDeviceConfig) {
    c.debugMode == Embedded
  }

  /** A configuration never both needs a proxy to another VM and runs on
      hardware; without a proxy it needs none. */
  lemma ProxyOnlyForEmulated(obj: JsValue, env: Environment)
    requires NewOldDeviceConfig(obj, env).Ok?
    ensures var c := NewOldDeviceConfig(obj, env).value;
      && !(NeedsProxyToAnotherVM(c) && IsForHardware(c))
      && (IsForHardware(c) <==> Field(obj, "debugMode") == Str(EMBEDDED))
      && (NeedsProxyToAnotherVM(c) <==> HasField(obj, "proxy") && Field(obj, "debugMode") == Str(EMULATED))
  {
  }

  /** An embedded device configured without flashing, name, ip or serial
      port, the way a JSON launch file can express it. */
  function UnnamedEmbeddedDevice(): JsValue {
    Obj2("debugMode", Str(EMBEDDED), "onStart", Obj(map["flash" := Bool(false)]))
  }

  /** As written, that device is named `undefined`. */
  lemma AsWrittenNameUndefined()
    ensures DeviceNameAsWritten(UnnamedEmbeddedDevice(), Embedded, Str(""), Field(UnnamedEmbeddedDevice(), "serialPort")) == Undefined
  {
  }

  /** With the corrected choice, an embedded device that starts without
      flashing and has neither name, ip nor serial port is called
      `device unknown`. */
  lemma NoAddressNamedUnknown(obj: JsValue, env: Environment)
    requires obj.Obj? && Field(obj, "debugMode") == Str(EMBEDDED)
    requires Field(obj, "onStart") == Obj(map["flash" := Bool(false)])
    requires !HasField(obj, "wifiCredentials") && !HasField(obj, "proxy") && !HasField(obj, "mock")
    requires !HasField(obj, "breakpointPoliciesEnabled") && !HasField(obj, "name") && !HasField(obj, "ip")
    requires !HasField(obj, "serialPort")
    ensures NewOldDeviceConfig(obj, env).Ok?
    ensures NewOldDeviceConfig(obj, env).value.name == Str("device unknown")
  {
    var onStart := OnStartConfig(Bool(false), Bool(false), Bool(false));
    assert OnStartFromAnyObject(Field(obj, "onStart")) == Ok(onStart);
    assert DeviceFields(obj, env, None, Embedded, None, onStart).Ok?;
  }

  /** The device above is such a device. */
  lemma UnnamedDeviceUnknown(env: Environment)
    ensures NewOldDeviceConfig(UnnamedEmbeddedDevice(), env).Ok?
    ensures NewOldDeviceConfig(UnnamedEmbeddedDevice(), env).value.name == Str("device unknown")
  {
    var obj := UnnamedEmbeddedDevice();
    assert !HasField(obj, "wifiCredentials") && !HasField(obj, "proxy") && !HasField(obj, "mock");
    assert !HasField(obj, "breakpointPoliciesEnabled") && !HasField(obj, "name") && !HasField(obj, "ip");
    assert !HasField(obj, "serialPort");
    NoAddressNamedUnknown(obj, env);
  }

  /** The two choices differ only when the serial port is absent. */
  lemma NameChoicesAgree(obj: JsValue, mode: DebugMode, ip: JsValue, serialPort: JsValue)
    requires !serialPort.Undefined?
    ensures DeviceName(obj, mode, ip, serialPort) == DeviceNameAsWritten(obj, mode, ip, serialPort)
  {
  }

  /** The constructor as written: the configuration `NewOldDeviceConfig`
      builds, named by `DeviceNameAsWritten`. The name is chosen after every
      check, so it changes no answer and no other field. */
  function NewOldDeviceConfigAsWritten(obj: JsValue, env: Environment): (r: Result<OldDeviceConfig, ConfigError>)
    ensures r.Ok? <==> NewOldDeviceConfig(obj, env).Ok?
    ensures r.Err? ==> r == NewOldDeviceConfig(obj, env)
    ensures r.Ok? ==> r.value.name == DeviceNameAsWritten(obj, r.value.debugMode, r.value.ip, Field(obj, "serialPort"))
    ensures r.Ok? ==> r.value.(name := Undefined) == NewOldDeviceConfig(obj, env).value.(name := Undefined)
  {
    var c :- NewOldDeviceConfig(obj, env);
    Ok(c.(name := DeviceNameAsWritten(obj, c.debugMode, c.ip, Field(obj, "serialPort"))))
  }

  /** With a serial port defined, the constructor as written and the
      corrected one build the same configuration. */
  lemma ConstructorsAgree(obj: JsValue, env: Environment)
    requires !Field(obj, "serialPort").Undefined?
    ensures NewOldDeviceConfigAsWritten(obj, env) == NewOldDeviceConfig(obj, env)
  {
    var r := NewOldDeviceConfig(obj, env);
    if r.Ok? {
      NameChoicesAgree(obj, r.value.debugMode, r.value.ip, Field(obj, "serialPort"));
    }
  }

  /** As written, the constructor accepts the device of the finding and
      names it `undefined`. */
  lemma AsWrittenConstructorUndefined(env: Environment)
    ensures NewOldDeviceConfigAsWritten(UnnamedEmbeddedDevice(), env).Ok?
    ensures NewOldDeviceConfigAsWritten(UnnamedEmbeddedDevice(), env).value.name == Undefined
  {
    var obj := UnnamedEmbeddedDevice();
    UnnamedDeviceUnknown(env);
    assert !HasField(obj, "name") && !HasField(obj, "ip") && !HasField(obj, "serialPort");
    assert NewOldDeviceConfig(obj, env).value.debugMode == Embedded;
  }

  /** `defaultDeviceConfig`: a named emulated device on the default port. */
  function DefaultDeviceObject(name: string): JsValue {
    Obj(map["name" := Str(name), "port" := Num(DEFAULT_DEBUG_PORT), "debugMode" := Str(EMULATED)])
  }

  /** `defaultDeviceConfig` never succeeds: without `onStart` flashing is
      on, and flashing needs a serial port the default object lacks. */
  lemma DefaultDeviceConfigRejected(name: string, env: Environment)
    ensures NewOldDeviceConfig(DefaultDeviceObject(name), env) == Err(Invalid(SerialPortMissing))
  {
    var obj := DefaultDeviceObject(name);
    assert !HasField(obj, "wifiCredentials") && !HasField(obj, "proxy") && !HasField(obj, "onStart");
    assert !HasField(obj, "serialPort");
    assert Field(obj, "debugMode") == Str(EMULATED);
  }
}

=== FILE: DebuggingTimeline.dfy ===
/** The debugging timeline (`src/State/DebuggingTimeline.ts`): the runtime
    states seen so far, oldest first, and the index of the one being shown,
    -1 when none is. Generic in the state type. */
module DebuggingTimeline {
  import opened Wrappers

  datatype Timeline<T> = Timeline(runtimes: seq<T>, activeStateIdx: int)

  /** The range invariant every operation keeps. */
  predicate Valid<T>(t: Timeline<T>) {
    -1 <= t.activeStateIdx < |t.runtimes|
  }

  function Empty<T>(): (t: Timeline<T>)
    ensures Valid(t) && Size(t) == 0 && IndexOfActiveState(t).None?
  {
    Timeline([], -1)
  }

  function Size<T>(t: Timeline<T>): nat {
    |t.runtimes|
  }

  /** `getStateFromIndex`: defined exactly for the indices in range. */
  function StateFromIndex<T>(t: Timeline<T>, idx: int): (r: Option<T>)
    ensures r.Some? <==> 0 <= idx < |t.runtimes|
    ensures r.Some? ==> r.value == t.runtimes[idx]
  {
    if idx < 0 || idx >= |t.runtimes| || |t.runtimes| == 0 then None else Some(t.runtimes[idx])
  }

  function ActiveState<T>(t: Timeline<T>): Option<T> {
    StateFromIndex(t, t.activeStateIdx)
  }

  /** `getIndexOfActiveState`: undefined exactly when nothing is active. */
  function IndexOfActiveState<T>(t: Timeline<T>): (r: Option<nat>)
    requires Valid(t)
    ensures r.None? <==> t.activeStateIdx == -1
    ensures r.Some? ==> r.value == t.activeStateIdx && r.value < Size(t)
  {
    if t.activeStateIdx == -1 then None else Some(t.activeStateIdx)
  }

  /** `addRuntime`: appends without moving the active index. */
  function AddRuntime<T>(t: Timeline<T>, s: T): (r: Timeline<T>)
    requires Valid(t)
    ensures Valid(r)
    ensures r.activeStateIdx == t.activeStateIdx && Size(r) == Size(t) + 1
    ensures LastState(r) == Some(s)
    ensures forall i :: 0 <= i < Size(t) ==> StateFromIndex(r, i) == StateFromIndex(t, i)
  {
    t.(runtimes := t.runtimes + [s])
  }

  /** `getLastState`: the newest state, if any. */
  function LastState<T>(t: Timeline<T>): (r: Option<T>)
    ensures r.None? <==> Size(t) == 0
    ensures r.Some? ==> r.value == t.runtimes[|t.runtimes| - 1]
  {
    if |t.runtimes| > 0 then Some(t.runtimes[|t.runtimes| - 1]) else None
  }

  function StartState<T>(t: Timeline<T>): (r: Option<T>)
    ensures r.None? <==> Size(t) == 0
    ensures r.Some? ==> r.value == t.runtimes[0]
  {
    StateFromIndex(t, 0)
  }

  /** `activateStateFromIndex`: succeeds, and moves the index, exactly for
      an index in range; otherwise nothing changes. */
  function ActivateStateFromIndex<T>(t: Timeline<T>, idx: int): (r: (bool, Timeline<T>))
    requires Valid(t)
    ensures Valid(r.1)
    ensures r.0 <==> 0 <= idx < Size(t)
    ensures r.0 ==> r.1 == t.(activeStateIdx := idx) && ActiveState(r.1) == StateFromIndex(t, idx)
    ensures !r.0 ==> r.1 == t
  {
    if idx < 0 || idx >= |t.runtimes| || |t.runtimes| == 0 then (false, t)
    else (true, t.(activeStateIdx := idx))
  }

  /** `advanceTimeline`: one step towards the present, yielding the newly
      active state; at the present, nothing changes and nothing is yielded. */
  function AdvanceTimeline<T>(t: Timeline<T>): (r: (Timeline<T>, Option<T>))
    requires Valid(t)
    ensures Valid(r.0) && r.0.runtimes == t.runtimes
    ensures IsActiveStatePresent(t) ==> r == (t, None)
    ensures !IsActiveStatePresent(t) ==>
      r.0.activeStateIdx == t.activeStateIdx + 1 && r.1.Some? && r.1 == ActiveState(r.0)
  {
    if t.activeStateIdx + 1 < |t.runtimes| then
      var t1 := t.(activeStateIdx := t.activeStateIdx + 1);
      (t1, StateFromIndex(t1, t1.activeStateIdx))
    else (t, None)
  }

  /** `advanceToPresent`. */
  function AdvanceToPresent<T>(t: Timeline<T>): (r: Timeline<T>)
    ensures Valid(r) && IsActiveStatePresent(r) && r.runtimes == t.runtimes
  {
    t.(activeStateIdx := |t.runtimes| - 1)
  }

  /** `goBackTimeline`: one step into the past, never reaching -1. */
  function GoBackTimeline<T>(t: Timeline<T>): (r: (Timeline<T>, Option<T>))
    requires Valid(t)
    ensures Valid(r.0) && r.0.runtimes == t.runtimes
    ensures t.activeStateIdx >= 1 ==> r.0.activeStateIdx == t.activeStateIdx - 1 && r.1 == ActiveState(r.0) && r.1.Some?
    ensures t.activeStateIdx < 1 ==> r == (t, None)
    ensures r.0.activeStateIdx == -1 ==> t.activeStateIdx == -1
  {
    if t.activeStateIdx >= 1 then
      var t1 := t.(activeStateIdx := t.activeStateIdx - 1);
      (t1, Some(t1.runtimes[t1.activeStateIdx]))
    else (t, None)
  }

  predicate IsActiveStatePresent<T>(t: Timeline<T>) {
    t.activeStateIdx == |t.runtimes| - 1
  }

  predicate IsActiveStateTheStart<T>(t: Timeline<T>) {
    t.activeStateIdx == 0
  }

  /** At the present exactly when advancing yields nothing; the present
      of a non-empty timeline is its newest state. */
  lemma PresentIsNewest<T>(t: Timeline<T>)
    requires Valid(t)
    ensures IsActiveStatePresent(t) <==> AdvanceTimeline(t).1.None?
    ensures IsActiveStatePresent(t) && Size(t) > 0 ==> ActiveState(t) == LastState(t)
  {
  }

  /** The start is the oldest state, and going back yields nothing exactly
      from the start or with nothing active. */
  lemma StartIsOldest<T>(t: Timeline<T>)
    requires Valid(t)
    ensures IsActiveStateTheStart(t) ==> ActiveState(t) == StartState(t) && StartState(t).Some?
    ensures GoBackTimeline(t).1.None? <==> IsActiveStateTheStart(t) || t.activeStateIdx == -1
  {
  }

  /** `makeCurrentStateNewPresent`: forgets every state after the active
      one, which then is the present; with nothing active, does nothing. */
  function MakeCurrentStateNewPresent<T>(t: Timeline<T>): (r: Timeline<T>)
    requires Valid(t)
    ensures Valid(r)
    ensures t.activeStateIdx == -1 ==> r == t
    ensures t.activeStateIdx != -1 ==> IsActiveStatePresent(r)
    ensures r.activeStateIdx == t.activeStateIdx && r.runtimes <= t.runtimes
    ensures t.activeStateIdx != -1 ==> Size(r) == t.activeStateIdx + 1
  {
    if t.activeStateIdx == -1 then t
    else t.(runtimes := t.runtimes[..t.activeStateIdx + 1])
  }

  /** `clear`. */
  function Clear<T>(t: Timeline<T>): (r: Timeline<T>)
    ensures r == Empty()
  {
    Timeline([], -1)
  }

  /** Going back and then forward returns to the same point of the timeline. */
  lemma BackThenForward<T>(t: Timeline<T>)
    requires Valid(t) && t.activeStateIdx >= 1
    ensures AdvanceTimeline(GoBackTimeline(t).0) == (t, ActiveState(t))
  {
  }

  /** Going forward and then back returns to the same point, unless the
      start was -1, which going back never reaches. */
  lemma ForwardThenBack<T>(t: Timeline<T>)
    requires Valid(t) && !IsActiveStatePresent(t)
    ensures t.activeStateIdx >= 0 ==> GoBackTimeline(AdvanceTimeline(t).0) == (t, ActiveState(t))
    ensures t.activeStateIdx == -1 ==> GoBackTimeline(AdvanceTimeline(t).0).0.activeStateIdx == 0
  {
  }

  /** `advanceTimeline` applied `k` times. */
  function AdvanceTimes<T>(t: Timeline<T>, k: nat): (r: Timeline<T>)
    requires Valid(t)
    ensures Valid(r) && r.runtimes == t.runtimes
    decreases k
  {
    if k == 0 then t else AdvanceTimes(AdvanceTimeline(t).0, k - 1)
  }

  /** Advancing steps one state at a time and stops at the present. */
  lemma {:induction false} AdvanceTimesIndex<T>(t: Timeline<T>, k: nat)
    requires Valid(t)
    ensures AdvanceTimes(t, k).activeStateIdx ==
      if t.activeStateIdx + k < Size(t) then t.activeStateIdx + k else Size(t) - 1
    decreases k
  {
    if k > 0 {
      AdvanceTimesIndex(AdvanceTimeline(t).0, k - 1);
    }
  }
}

=== FILE: JsValues.dfy ===
/** The JavaScript values a debugger configuration is read from, and the
    few operations the validators apply to them: `typeof`, truthiness,
    property access, `hasOwnProperty`, and `Number(x)`. Numbers are
    integers; an object is a map from property names to values. */
module JsValues {
  import opened Wrappers
  import Numbers

  datatype JsValue =
    | Undefined
    | Null
    | Bool(b: bool)
    | Num(n: int)
    | Str(s: string)
    | Arr(items: seq<JsValue>)
    | Obj(fields: map<string, JsValue>)

  /** The `typeof` operator; `null` and arrays are objects. */
  function TypeOf(v: JsValue): string {
    match v
    case Undefined => "undefined"
    case Null => "object"
    case Bool(_) => "boolean"
    case Num(_) => "number"
    case Str(_) => "string"
    case Arr(_) => "object"
    case Obj(_) => "object"
  }

  /** The value in a boolean context (`if (v)`, `!!v`). */
  predicate Truthy(v: JsValue) {
    match v
    case Undefined => false
    case Null => false
    case Bool(b) => b
    case Num(n) => n != 0
    case Str(s) => s != ""
    case Arr(_) => true
    case Obj(_) => true
  }

  /** Values whose properties cannot be read: reading one throws. */
  predicate IsNullish(v: JsValue) {
    v.Undefined? || v.Null?
  }

  /** `v.hasOwnProperty(key)` for a value that is not nullish. */
  predicate HasField(v: JsValue, key: string) {
    v.Obj? && key in v.fields
  }

  /** `v[key]` for a value that is not nullish: `undefined` when absent. */
  function Field(v: JsValue, key: string): (r: JsValue)
    ensures !HasField(v, key) ==> r == Undefined
  {
    if v.Obj? && key in v.fields then v.fields[key] else Undefined
  }

  /** An object literal with two properties. */
  function Obj2(k1: string, v1: JsValue, k2: string, v2: JsValue): JsValue {
    Obj(map[k1 := v1, k2 := v2])
  }

  // ---------------------------------------------------------------------
  // Number(x)

  function TrimEnd(s: string): (t: string)
    ensures |t| <= |s| && t == s[..|t|]
    ensures |t| > 0 ==> !Numbers.IsJsWhitespace(t[|t| - 1])
  {
    if |s| > 0 && Numbers.IsJsWhitespace(s[|s| - 1]) then TrimEnd(s[..|s| - 1]) else s
  }

  /** Surrounding whitespace removed, as `Number` does before reading. */
  function Trim(s: string): string {
    Numbers.TrimStart(TrimEnd(s))
  }

  /** An optionally signed run of decimal digits, or `None`. */
  function SignedDecimal(t: string): Option<int>
    requires |t| > 0
  {
    var u := if t[0] == '-' || t[0] == '+' then t[1..] else t;
    if |u| > 0 && Numbers.AllRadixDigits(u, 10) then
      var m := Numbers.DigitsValue(u, 10);
      Some(if t[0] == '-' then 0 - m else m)
    else None
  }

  /** `Number(s)` for a string: blank text is 0, an optionally signed run
      of decimal digits is its value, anything else is `NaN` (`None`). */
  function StringToNumber(s: string): (r: Option<int>)
    ensures Trim(s) == "" ==> r == Some(0)
  {
    var t := Trim(s);
    if t == "" then Some(0) else SignedDecimal(t)
  }

  /** `Number(v)`: `None` is `NaN`. */
  function ToNumber(v: JsValue): (r: Option<int>)
    ensures v.Num? ==> r == Some(v.n)
    ensures v.Undefined? ==> r.None?
    ensures v.Null? ==> r == Some(0)
  {
    match v
    case Undefined => None
    case Null => Some(0)
    case Bool(b) => Some(if b then 1 else 0)
    case Num(n) => Some(n)
    case Str(s) => StringToNumber(s)
    case Arr(_) => None
    case Obj(_) => None
  }

  lemma DigitsUntrimmed(d: string)
    requires |d| > 0 && Numbers.AllRadixDigits(d, 10)
    ensures !Numbers.IsJsWhitespace(d[0]) && !Numbers.IsJsWhitespace(d[|d| - 1])
  {
    assert Numbers.IsRadixDigit(d[0], 10) && Numbers.IsRadixDigit(d[|d| - 1], 10);
  }

  lemma AlreadyTrimmed(s: string)
    requires |s| > 0 && !Numbers.IsJsWhitespace(s[0]) && !Numbers.IsJsWhitespace(s[|s| - 1])
    ensures Trim(s) == s
  {
    assert TrimEnd(s) == s;
  }

  lemma UnsignedOfDigits(d: string)
    requires |d| > 0 && Numbers.AllRadixDigits(d, 10)
    ensures StringToNumber(d) == Some(Numbers.DigitsValue(d, 10))
  {
    DigitsUntrimmed(d);
    AlreadyTrimmed(d);
    UnsignedDecimal(d);
  }

  /** Unsigned digits read as themselves. */
  lemma UnsignedDecimal(d: string)
    requires |d| > 0 && Numbers.AllRadixDigits(d, 10)
    ensures SignedDecimal(d) == Some(Numbers.DigitsValue(d, 10))
  {
    assert Numbers.IsRadixDigit(d[0], 10);
    assert d[0] != '-' && d[0] != '+';
  }

  lemma NegativeSigned(d: string)
    requires |d| > 0 && Numbers.AllRadixDigits(d, 10)
    ensures SignedDecimal("-" + d) == Some(0 - Numbers.DigitsValue(d, 10))
  {
    var s := "-" + d;
    assert s[0] == '-' && s[1..] == d;
  }

  lemma NegativeTrimmed(d: string)
    requires |d| > 0 && Numbers.AllRadixDigits(d, 10)
    ensures Trim("-" + d) == "-" + d
  {
    DigitsUntrimmed(d);
    var s := "-" + d;
    assert s[|s| - 1] == d[|d| - 1];
    assert !Numbers.IsJsWhitespace(s[0]);
    AlreadyTrimmed(s);
  }

  lemma NegativeOfDigits(d: string)
    requires |d| > 0 && Numbers.AllRadixDigits(d, 10)
    ensures StringToNumber("-" + d) == Some(0 - Numbers.DigitsValue(d, 10))
  {
    NegativeTrimmed(d);
    NegativeSigned(d);
  }

  /** `Number` reads back the decimal text `toString` writes. */
  lemma NumberOfDecimal(n: int)
    ensures ToNumber(Str(Numbers.IntToDecimal(n))) == Some(n)
  {
    var m: nat := if n < 0 then -n else n;
    var d := Numbers.NatToRadix(m, 10, false);
    Numbers.NatToRadixValue(m, 10, false);
    if n < 0 {
      NegativeOfDigits(d);
    } else {
      UnsignedOfDigits(d);
    }
  }
}

=== FILE: Leb128.dfy ===
/** Signed LEB128, as defined in section 5.2.2 ("Integers") of the
    WebAssembly Core Specification, and the rendering of bytes as hexadecimal
    text that the debugger's wire commands use. */
module Leb128 {
  import opened Wrappers
  import Numbers

  type Byte = x: int | 0 <= x < 256

  function Pow128(k: nat): (r: nat)
    ensures r >= 1
  {
    if k == 0 then 1 else 128 * Pow128(k - 1)
  }

  /** 2^(7k - 1): `k` bytes of signed LEB128 hold exactly the values in
      `[-Half(k), Half(k))`. */
  function Half(k: nat): (h: int)
    requires k >= 1
    ensures h >= 64
  {
    64 * Pow128(k - 1)
  }

  /** The encoder of `convertToLEB128`, before the hex rendering: the low
      seven bits go out first (`& 0x7f`), the rest is shifted arithmetically
      (`>> 7`, floor division by 128), and encoding stops once the rest is
      only sign bits that bit 6 of the last byte already carries. */
  function EncodeSigned(a: int): (bs: seq<Byte>)
    ensures |bs| >= 1
    ensures |bs| == 1 <==> -64 <= a < 64
    decreases if a >= 0 then a else -a - 1
  {
    var low := a % 128;
    var rest := a / 128;
    if (rest == 0 && low < 64) || (rest == -1 && low >= 64) then [low]
    else [low + 128] + EncodeSigned(rest)
  }

  /** The decoder of section 5.2.2, read from the front of `bs`: a byte
      below 128 ends the number (bit 6 is its sign), a byte from 128 up
      contributes its low seven bits and continues. The result is the value
      and the number of bytes read; `None` when no byte ends the number. */
  function DecodeSigned(bs: seq<Byte>): (r: Option<(int, nat)>)
    ensures r.Some? ==> 1 <= r.value.1 <= |bs|
  {
    if |bs| == 0 then None
    else
      var b: int := bs[0];
      if b < 128 then Some((if b >= 64 then b - 128 else b, 1))
      else
        match DecodeSigned(bs[1..])
        case None => None
        case Some(p) => Some((b - 128 + 128 * p.0, p.1 + 1))
  }

  /** The low seven bits and the arithmetic shift by seven rebuild the value. */
  lemma SplitSeven(a: int)
    ensures 0 <= a % 128 < 128 && a == 128 * (a / 128) + a % 128
  {
  }

  /** Every byte of an encoding but the last has the continuation bit; the
      last has it clear. */
  lemma {:induction false} EncodeContinuationBits(a: int)
    ensures var bs := EncodeSigned(a);
            bs[|bs| - 1] < 128 && forall i :: 0 <= i < |bs| - 1 ==> bs[i] >= 128
    decreases if a >= 0 then a else -a - 1
  {
    var low := a % 128;
    var rest := a / 128;
    if !((rest == 0 && low < 64) || (rest == -1 && low >= 64)) {
      EncodeContinuationBits(rest);
      var bs := EncodeSigned(a);
      assert bs == [low + 128] + EncodeSigned(rest);
      forall i | 1 <= i < |bs| - 1 ensures bs[i] >= 128 {
        assert bs[i] == EncodeSigned(rest)[i - 1];
      }
    }
  }

  /** The decoder stops at the first byte without the continuation bit. */
  lemma {:induction false} DecodeStopByte(bs: seq<Byte>)
    requires DecodeSigned(bs).Some?
    ensures var n := DecodeSigned(bs).value.1;
            bs[n - 1] < 128 && forall i :: 0 <= i < n - 1 ==> bs[i] >= 128
  {
    if bs[0] >= 128 {
      DecodeStopByte(bs[1..]);
      forall i | 1 <= i < DecodeSigned(bs).value.1 - 1 ensures bs[i] >= 128 {
        assert bs[i] == bs[1..][i - 1];
      }
    }
  }

  /** A byte below 128 ends the number; bit 6 is its sign. */
  lemma DecodeLast(low: Byte, tail: seq<Byte>)
    requires low < 128
    ensures DecodeSigned([low] + tail) == Some((if low >= 64 then low - 128 else low, 1))
  {
  }

  /** A byte from 128 up contributes its low seven bits below the rest. */
  lemma DecodeMore(low: Byte, bs: seq<Byte>, v: int, n: nat)
    requires low < 128 && DecodeSigned(bs) == Some((v, n))
    ensures DecodeSigned([low + 128] + bs) == Some((low + 128 * v, n + 1))
  {
    var cs := [low + 128] + bs;
    assert cs[1..] == bs;
    DecodeUnfold(cs);
  }

  /** One step of the decoder on a byte with the continuation bit. */
  lemma DecodeUnfold(cs: seq<Byte>)
    requires |cs| > 0 && cs[0] >= 128
    ensures DecodeSigned(cs) == match DecodeSigned(cs[1..])
      case None => None
      case Some(p) => Some((cs[0] - 128 + 128 * p.0, p.1 + 1))
  {
  }

  /** Decoding reads back exactly the encoded bytes and their value,
      whatever follows them. */
  lemma {:induction false} DecodeEncode(a: int, tail: seq<Byte>)
    ensures DecodeSigned(EncodeSigned(a) + tail) == Some((a, |EncodeSigned(a)|))
    decreases if a >= 0 then a else -a - 1
  {
    var low := a % 128;
    var rest := a / 128;
    SplitSeven(a);
    if (rest == 0 && low < 64) || (rest == -1 && low >= 64) {
      assert EncodeSigned(a) + tail == [low] + tail;
      DecodeLast(low, tail);
    } else {
      DecodeEncode(rest, tail);
      assert EncodeSigned(a) + tail == [low + 128] + (EncodeSigned(rest) + tail);
      DecodeMore(low, EncodeSigned(rest) + tail, rest, |EncodeSigned(rest)|);
    }
  }

  /** The encoding of `a` fits in `k` bytes exactly when `a` lies in
      `[-2^(7k-1), 2^(7k-1))`: the encoder never emits a byte more than the
      value needs. */
  lemma {:induction false} EncodeLength(a: int, k: nat)
    requires k >= 1
    ensures |EncodeSigned(a)| <= k <==> -Half(k) <= a < Half(k)
    decreases k
  {
    var low := a % 128;
    var rest := a / 128;
    assert a == 128 * rest + low;
    var stop := (rest == 0 && low < 64) || (rest == -1 && low >= 64);
    assert stop <==> -64 <= a < 64;
    if k > 1 {
      assert Half(k) == 128 * Half(k - 1);
      if !stop {
        EncodeLength(rest, k - 1);
        assert |EncodeSigned(a)| == 1 + |EncodeSigned(rest)|;
        assert -Half(k - 1) <= rest <==> -Half(k) <= a;
        assert rest < Half(k - 1) <==> a < Half(k);
      }
    }
  }

  /** A value decoded from `n` bytes lies in `[-2^(7n-1), 2^(7n-1))`. */
  lemma {:induction false} DecodeRange(bs: seq<Byte>)
    requires DecodeSigned(bs).Some?
    ensures var (v, n) := DecodeSigned(bs).value; -Half(n) <= v < Half(n)
  {
    if bs[0] >= 128 {
      DecodeRange(bs[1..]);
      var (v, n) := DecodeSigned(bs[1..]).value;
      assert Half(n + 1) == 128 * Half(n);
    }
  }

  /** No encoding of a value is shorter than the encoder's. */
  lemma EncodeMinimal(bs: seq<Byte>)
    requires DecodeSigned(bs).Some?
    ensures |EncodeSigned(DecodeSigned(bs).value.0)| <= DecodeSigned(bs).value.1
  {
    DecodeRange(bs);
    EncodeLength(DecodeSigned(bs).value.0, DecodeSigned(bs).value.1);
  }

  /** A 32-bit value takes one to five bytes. */
  lemma EncodeInt32Length(a: int)
    requires Numbers.IsInt32(a)
    ensures 1 <= |EncodeSigned(a)| <= 5
  {
    EncodeLength(a, 5);
    assert Half(5) == 0x4_0000_0000;
  }

  // ---------------------------------------------------------------------
  // Hexadecimal text

  predicate IsUpperHexDigit(c: char) {
    '0' <= c <= '9' || 'A' <= c <= 'F'
  }

  /** A byte as exactly two upper-case hex digits. */
  function HexByte(b: Byte): (s: string)
    ensures |s| == 2 && IsUpperHexDigit(s[0]) && IsUpperHexDigit(s[1])
  {
    [Numbers.DigitChar(b / 16, true), Numbers.DigitChar(b % 16, true)]
  }

  function Hex(bs: seq<Byte>): (s: string)
    ensures |s| == 2 * |bs|
    ensures forall i :: 0 <= i < |s| ==> IsUpperHexDigit(s[i])
  {
    if |bs| == 0 then "" else HexByte(bs[0]) + Hex(bs[1..])
  }

  lemma {:induction false} HexAppend(a: seq<Byte>, b: seq<Byte>)
    ensures Hex(a + b) == Hex(a) + Hex(b)
  {
    if |a| > 0 {
      HexAppend(a[1..], b);
      assert (a + b)[0] == a[0];
      assert (a + b)[1..] == a[1..] + b;
      assert Hex(a + b) == HexByte(a[0]) + Hex(a[1..] + b);
    } else {
      assert a + b == b;
    }
  }

  /** The value of a hex digit of either case. */
  function HexValue(c: char): Option<nat> {
    match Numbers.DigitValue(c)
    case Some(d) => if d < 16 then Some(d) else None
    case None => None
  }

  /** Reads text as pairs of hex digits; `None` for an odd length or a
      character that is not a hex digit. */
  function ParseHex(s: string): (r: Option<seq<Byte>>)
    ensures r.Some? ==> 2 * |r.value| == |s|
  {
    if |s| == 0 then Some([])
    else if |s| == 1 then None
    else
      match (HexValue(s[0]), HexValue(s[1]))
      case (Some(hi), Some(lo)) =>
        (match ParseHex(s[2..])
         case Some(rest) => Some([16 * hi + lo] + rest)
         case None => None)
      case _ => None
  }

  /** Reading the hex text back gives the bytes. */
  lemma {:induction false} ParseHexOfHex(bs: seq<Byte>)
    ensures ParseHex(Hex(bs)) == Some(bs)
  {
    if |bs| > 0 {
      var b := bs[0];
      Numbers.DigitCharValue(b / 16, true);
      Numbers.DigitCharValue(b % 16, true);
      ParseHexOfHex(bs[1..]);
      var h := Hex(bs);
      assert h == HexByte(b) + Hex(bs[1..]);
      assert h[0] == Numbers.DigitChar(b / 16, true) && h[1] == Numbers.DigitChar(b % 16, true);
      assert HexValue(h[0]) == Some(b / 16) && HexValue(h[1]) == Some(b % 16);
      assert h[2..] == Hex(bs[1..]);
      assert 16 * (b / 16) + b % 16 == b;
      assert bs == [b] + bs[1..];
    }
  }
}

=== FILE: Numbers.dfy ===
/** The JavaScript number operations the debugger relies on: 32-bit
    truncation (`x | 0`, `Math.imul`), rendering with
    `Number.prototype.toString(radix)` and the global `parseInt`.
    JavaScript numbers are modelled as unbounded integers. */
module Numbers {
  import opened Wrappers

  const TWO_31: int := 0x8000_0000
  const TWO_32: int := 0x1_0000_0000

  predicate IsInt32(x: int) {
    -TWO_31 <= x < TWO_31
  }

  /** `x | 0`: the signed 32-bit integer congruent to `x` modulo 2^32. */
  function ToInt32(x: int): (r: int)
    ensures IsInt32(r)
    ensures (x - r) % TWO_32 == 0
  {
    var m := x % TWO_32;
    if m >= TWO_31 then m - TWO_32 else m
  }

  /** `ToInt32` only depends on its argument modulo 2^32. */
  lemma ToInt32Congruent(x: int, y: int)
    requires (x - y) % TWO_32 == 0
    ensures ToInt32(x) == ToInt32(y)
  {
    var k := (x - y) / TWO_32;
    assert x == y + k * TWO_32;
    assert x % TWO_32 == y % TWO_32;
  }

  /** Values already in 32-bit range are left unchanged. */
  lemma ToInt32Identity(x: int)
    requires IsInt32(x)
    ensures ToInt32(x) == x
  {
  }

  // ---------------------------------------------------------------------
  // Digits

  /** Digit `d` of a radix up to 16, in lower or upper case. */
  function DigitChar(d: nat, upper: bool): (c: char)
    requires d < 16
  {
    if d < 10 then ('0' as int + d) as char
    else if upper then ('A' as int + d - 10) as char
    else ('a' as int + d - 10) as char
  }

  /** The value of a digit character (`0-9`, `a-z`, `A-Z`), as `parseInt` reads it. */
  function DigitValue(c: char): (r: Option<nat>)
    ensures r.Some? ==> r.value < 36
  {
    if '0' <= c <= '9' then Some(c as int - '0' as int)
    else if 'a' <= c <= 'z' then Some(c as int - 'a' as int + 10)
    else if 'A' <= c <= 'Z' then Some(c as int - 'A' as int + 10)
    else None
  }

  predicate IsRadixDigit(c: char, radix: nat) {
    DigitValue(c).Some? && DigitValue(c).value < radix
  }

  predicate AllRadixDigits(s: string, radix: nat) {
    forall i :: 0 <= i < |s| ==> IsRadixDigit(s[i], radix)
  }

  lemma DigitCharValue(d: nat, upper: bool)
    requires d < 16
    ensures DigitValue(DigitChar(d, upper)) == Some(d)
  {
  }

  /** The number a non-empty run of digits denotes, most significant first. */
  function DigitsValue(s: string, radix: nat): nat
    requires AllRadixDigits(s, radix)
  {
    if |s| == 0 then 0
    else DigitsValue(s[..|s| - 1], radix) * radix + DigitValue(s[|s| - 1]).value
  }

  lemma DivModFacts(n: nat, radix: nat)
    requires 2 <= radix
    ensures 0 <= n % radix < radix
    ensures n == (n / radix) * radix + n % radix
    ensures n >= radix ==> 1 <= n / radix < n
  {
  }

  /** Appending one digit to a run of digits keeps it a run of digits. */
  lemma AppendDigit(p: string, c: char, radix: nat)
    requires AllRadixDigits(p, radix) && IsRadixDigit(c, radix)
    ensures AllRadixDigits(p + [c], radix)
  {
  }

  /** `n.toString(radix)` for a non-negative integer: no leading zeros, and
      `"0"` for zero. `upper` models a following `.toUpperCase()`. */
  function NatToRadix(n: nat, radix: nat, upper: bool): (s: string)
    requires 2 <= radix <= 16
    ensures |s| >= 1
    ensures AllRadixDigits(s, radix)
    ensures |s| > 1 ==> s[0] != '0'
    decreases n
  {
    DivModFacts(n, radix);
    var d := n % radix;
    DigitCharValue(d, upper);
    if n < radix then
      DigitCharValue(n, upper);
      [DigitChar(n, upper)]
    else
      var p := NatToRadix(n / radix, radix, upper);
      AppendDigit(p, DigitChar(d, upper), radix);
      DigitCharValue(n / radix % 16, upper);
      p + [DigitChar(d, upper)]
  }

  /** Reading the digits `toString(radix)` wrote gives the number back. */
  lemma {:induction false} NatToRadixValue(n: nat, radix: nat, upper: bool)
    requires 2 <= radix <= 16
    ensures DigitsValue(NatToRadix(n, radix, upper), radix) == n
    decreases n
  {
    DivModFacts(n, radix);
    if n < radix {
      DigitCharValue(n, upper);
      var s := NatToRadix(n, radix, upper);
      assert s[..0] == [];
    } else {
      var q := n / radix;
      var d := n % radix;
      var p := NatToRadix(q, radix, upper);
      NatToRadixValue(q, radix, upper);
      var s := NatToRadix(n, radix, upper);
      assert s == p + [DigitChar(d, upper)];
      assert s[..|s| - 1] == p;
      DigitCharValue(d, upper);
      assert DigitValue(s[|s| - 1]).value == d;
      assert DigitsValue(s, radix) == DigitsValue(p, radix) * radix + d;
    }
  }

  /** Decimal rendering of an integer, `n.toString()`. */
  function IntToDecimal(n: int): (s: string)
    ensures |s| >= 1
  {
    if n < 0 then "-" + NatToRadix(-n, 10, false) else NatToRadix(n, 10, false)
  }

  /** Lower-case hexadecimal rendering of an integer, `n.toString(16)`. */
  function IntToHex(n: int): (s: string)
    ensures |s| >= 1
  {
    if n < 0 then "-" + NatToRadix(-n, 16, false) else NatToRadix(n, 16, false)
  }

  // ---------------------------------------------------------------------
  // parseInt

  /** The WhiteSpace and LineTerminator characters `parseInt` skips. */
  predicate IsJsWhitespace(c: char) {
    c == ' ' || c == '\t' || c == '\n' || c == '\r' || c == '\U{000B}' || c == '\U{000C}'
    || c == '\U{00A0}' || c == '\U{1680}' || ('\U{2000}' <= c <= '\U{200A}')
    || c == '\U{2028}' || c == '\U{2029}' || c == '\U{202F}' || c == '\U{205F}'
    || c == '\U{3000}' || c == '\U{FEFF}'
  }

  /** `s` without its leading whitespace. */
  function TrimStart(s: string): (t: string)
    ensures |t| <= |s| && t == s[|s| - |t|..]
    ensures |t| > 0 ==> !IsJsWhitespace(t[0])
    ensures forall i :: 0 <= i < |s| - |t| ==> IsJsWhitespace(s[i])
  {
    if |s| > 0 && IsJsWhitespace(s[0]) then TrimStart(s[1..]) else s
  }

  /** The longest prefix of `s` made of digits of `radix`. */
  function DigitPrefix(s: string, radix: nat): (p: string)
    ensures |p| <= |s| && p == s[..|p|]
    ensures AllRadixDigits(p, radix)
    ensures |p| < |s| ==> !IsRadixDigit(s[|p|], radix)
  {
    if |s| > 0 && IsRadixDigit(s[0], radix) then [s[0]] + DigitPrefix(s[1..], radix) else []
  }

  /** The digits after an optional sign: a `0x`/`0X` prefix selects radix 16,
      and the longest run of digits that follows is read; `None` when there is
      no digit. */
  function ParseUnsigned(u: string): (r: Option<nat>)
  {
    var hex := |u| >= 2 && u[0] == '0' && (u[1] == 'x' || u[1] == 'X');
    var radix := if hex then 16 else 10;
    var digits := DigitPrefix(if hex then u[2..] else u, radix);
    if |digits| == 0 then None else Some(DigitsValue(digits, radix))
  }

  /** `parseInt(s)` without a radix argument; `None` is `NaN`. Leading
      whitespace and one sign are skipped before `ParseUnsigned`. */
  function ParseInt(s: string): (r: Option<int>)
    ensures TrimStart(s) == "" ==> r.None?
    ensures r.Some? && r.value < 0 ==> TrimStart(s)[0] == '-'
  {
    var t := TrimStart(s);
    var negative := |t| > 0 && t[0] == '-';
    var u := if |t| > 0 && (t[0] == '-' || t[0] == '+') then t[1..] else t;
    match ParseUnsigned(u)
    case None => None
    case Some(v) => Some(if negative then 0 - v else v)
  }

  lemma DigitPrefixOfDigits(s: string, radix: nat)
    requires AllRadixDigits(s, radix)
    ensures DigitPrefix(s, radix) == s
  {
    if |s| > 0 {
      DigitPrefixOfDigits(s[1..], radix);
    }
  }

  lemma ParseUnsignedOfDecimal(n: nat)
    ensures ParseUnsigned(NatToRadix(n, 10, false)) == Some(n)
  {
    var d := NatToRadix(n, 10, false);
    DigitPrefixOfDigits(d, 10);
    NatToRadixValue(n, 10, false);
    assert !(|d| >= 2 && d[0] == '0');
  }

  /** `parseInt` reads back what `toString` wrote: the decimal rendering of
      every integer parses to that integer. */
  lemma {:induction false} ParseIntOfDecimal(n: int)
    ensures ParseInt(IntToDecimal(n)) == Some(n)
  {
    var m: nat := if n < 0 then -n else n;
    var d := NatToRadix(m, 10, false);
    ParseUnsignedOfDecimal(m);
    assert IsRadixDigit(d[0], 10);
    if n < 0 {
      ParseIntNegative(d, m);
    } else {
      ParseIntUnsigned(d, m);
    }
  }

  /** A run starting with a digit is read unsigned. */
  lemma ParseIntUnsigned(d: string, m: nat)
    requires |d| > 0 && IsRadixDigit(d[0], 10) && ParseUnsigned(d) == Some(m)
    ensures ParseInt(d) == Some(m)
  {
    assert !IsJsWhitespace(d[0]);
    assert TrimStart(d) == d;
  }

  /** The same run after a minus sign is read negated. */
  lemma ParseIntNegative(d: string, m: nat)
    requires |d| > 0 && IsRadixDigit(d[0], 10) && ParseUnsigned(d) == Some(m)
    ensures ParseInt("-" + d) == Some(0 - m)
  {
    var s := "-" + d;
    assert s[0] == '-' && s[1..] == d;
    assert !IsJsWhitespace(s[0]);
    assert TrimStart(s) == s;
  }
}

=== FILE: RuntimeState.dfy ===
/** A runtime state of the legacy debugger (`src/State/RuntimeState.ts`):
    a snapshot built from one parsed VM dump, identified by a 32-bit hash of
    the dump's text, whose variables the user may edit. */
module RuntimeState {
  import opened Wrappers
  import opened Numbers
  import opened RuntimeTypes

  // ---------------------------------------------------------------------
  // The identifier hash

  /** The polynomial the hash computes before any wrap-around:
      the sum of `charCode(s[i]) * 31^(|s| - 1 - i)`. */
  function Poly(s: string): int {
    if |s| == 0 then 0 else 31 * Poly(s[..|s| - 1]) + s[|s| - 1] as int
  }

  /** One step of `hash`: `Math.imul(31, h) + s.charCodeAt(i) | 0`. */
  function HashStep(h: int, c: char): int {
    ToInt32(ToInt32(31 * h) + c as int)
  }

  lemma MulCongruent(a: int, b: int)
    requires (a - b) % TWO_32 == 0
    ensures (31 * a - 31 * b) % TWO_32 == 0
  {
    var k := (a - b) / TWO_32;
    assert a - b == k * TWO_32;
    assert 31 * a - 31 * b == (31 * k) * TWO_32;
  }

  lemma SumCongruent(x: int, y: int)
    requires x % TWO_32 == 0 && y % TWO_32 == 0
    ensures (x + y) % TWO_32 == 0
  {
    var k1 := x / TWO_32;
    var k2 := y / TWO_32;
    assert x + y == (k1 + k2) * TWO_32;
  }

  /** Wrapping after every step is wrapping once at the end. */
  lemma HashStepCongruent(h: int, p: int, c: char)
    requires h == ToInt32(p)
    ensures HashStep(h, c) == ToInt32(31 * p + c as int)
  {
    var m := ToInt32(31 * h);
    MulCongruent(p, h);
    SumCongruent(31 * p - 31 * h, 31 * h - m);
    ToInt32Congruent(31 * p + c as int, m + c as int);
  }

  /** `hash`: the string folded through `HashStep` from 0. It is the
      polynomial hash reduced to a signed 32-bit value. */
  function Hash(s: string): (h: int)
    ensures IsInt32(h)
    ensures h == ToInt32(Poly(s))
  {
    if |s| == 0 then 0
    else
      var p := Hash(s[..|s| - 1]);
      HashStepCongruent(p, Poly(s[..|s| - 1]), s[|s| - 1]);
      HashStep(p, s[|s| - 1])
  }

  /** The loop of `hash`, left to right over the characters. */
  method HashLoop(s: string) returns (h: int)
    ensures h == ToInt32(Poly(s))
  {
    h := 0;
    var i := 0;
    while i < |s|
      invariant 0 <= i <= |s|
      invariant h == ToInt32(Poly(s[..i]))
    {
      assert s[..i + 1][..i] == s[..i];
      HashStepCongruent(h, Poly(s[..i]), s[i]);
      h := HashStep(h, s[i]);
      i := i + 1;
    }
    assert s[..|s|] == s;
  }

  // ---------------------------------------------------------------------
  // The state

  /** A frame of the dump: `fidx` already read as a number. */
  datatype DumpFrame = DumpFrame(fidx: int, ra: int)

  datatype EventItem = EventItem(topic: string, payload: string)

  /** What `WasmState.fromLine` yields for the dump text: the fields
      `fillState` reads, and the exception, if the dump reports one, with
      its program counter and message. */
  datatype ParsedDump = ParsedDump(
    pc: int,
    callstack: seq<DumpFrame>,
    stack: seq<VariableInfo>,
    locals: seq<VariableInfo>,
    globals: seq<VariableInfo>,
    arguments: seq<VariableInfo>,
    events: seq<EventItem>,
    exception: Option<(int, string)>)

  datatype RuntimeState = RuntimeState(
    id: int,
    programCounter: int,
    startAddress: int,
    callstack: seq<Frame>,
    locals: seq<VariableInfo>,
    events: seq<EventItem>,
    stack: seq<VariableInfo>,
    globals: seq<VariableInfo>,
    arguments: seq<VariableInfo>,
    pcerror: int,
    exceptionMsg: string,
    source: string,
    dump: ParsedDump)

  /** `{index: Number(frame.fidx), returnAddress: frame.ra}` for each frame. */
  function ToFrames(fs: seq<DumpFrame>): (r: seq<Frame>)
    ensures |r| == |fs|
    ensures forall i :: 0 <= i < |fs| ==> r[i] == Frame(fs[i].fidx, fs[i].ra)
  {
    if |fs| == 0 then [] else [Frame(fs[0].fidx, fs[0].ra)] + ToFrames(fs[1..])
  }

  /** `fillState`: copies the dump into the state, resets the start
      address, and on an exception moves the program counter to where it
      happened (an exception is never an old one). */
  function FillState(rs: RuntimeState): (r: RuntimeState)
    ensures r.startAddress == 0 && r.id == rs.id && r.source == rs.source && r.dump == rs.dump
    ensures rs.dump.exception.None? ==>
      r.programCounter == rs.dump.pc && r.pcerror == rs.pcerror && r.exceptionMsg == rs.exceptionMsg
    ensures rs.dump.exception.Some? ==>
      && r.pcerror == rs.dump.exception.value.0
      && r.exceptionMsg == rs.dump.exception.value.1
      && r.programCounter == r.pcerror
    ensures |r.callstack| == |rs.dump.callstack|
    ensures forall i :: 0 <= i < |r.callstack| ==>
      r.callstack[i].index == rs.dump.callstack[i].fidx && r.callstack[i].returnAddress == rs.dump.callstack[i].ra
    ensures r.locals == rs.dump.locals && r.globals == rs.dump.globals && r.arguments == rs.dump.arguments
    ensures r.stack == rs.dump.stack && r.events == rs.dump.events
  {
    var d := rs.dump;
    var filled := rs.(
      startAddress := 0,
      programCounter := d.pc,
      callstack := ToFrames(d.callstack),
      stack := d.stack,
      locals := d.locals,
      globals := d.globals,
      arguments := d.arguments,
      events := d.events);
    var recorded := if d.exception.Some? then
        filled.(pcerror := d.exception.value.0, exceptionMsg := d.exception.value.1)
      else filled;
    if d.exception.Some? && !OldException() then recorded.(programCounter := recorded.pcerror)
    else recorded
  }

  /** `oldException`: always false. */
  predicate OldException() {
    false
  }

  /** The constructor: `id` is the hash of the dump text, the program
      counter that of the dump or of its exception, no start address. */
  function NewRuntimeState(source: string, dump: ParsedDump): (rs: RuntimeState)
    ensures rs.id == ToInt32(Poly(source))
    ensures rs.startAddress == 0 && rs.source == source
    ensures rs.programCounter == (if dump.exception.Some? then dump.exception.value.0 else dump.pc)
    ensures rs.pcerror == (if dump.exception.Some? then dump.exception.value.0 else -1)
    ensures rs.exceptionMsg == (if dump.exception.Some? then dump.exception.value.1 else "")
  {
    FillState(RuntimeState(Hash(source), 0, 0, [], [], [], [], [], [], -1, "", source, dump))
  }

  function GetRawProgramCounter(rs: RuntimeState): int {
    rs.programCounter
  }

  function SetRawProgramCounter(rs: RuntimeState, raw: int): (r: RuntimeState)
    ensures GetRawProgramCounter(r) == raw
    ensures r == rs.(programCounter := raw)
  {
    rs.(programCounter := raw)
  }

  /** `getAdjustedProgramCounter`: the raw counter relative to the start
      address. */
  function AdjustedProgramCounter(rs: RuntimeState): (r: int)
    ensures r + rs.startAddress == GetRawProgramCounter(rs)
  {
    rs.programCounter - rs.startAddress
  }

  /** After construction the start address is 0, so the adjusted counter
      is the raw one. */
  lemma FreshAdjustedIsRaw(source: string, dump: ParsedDump)
    ensures AdjustedProgramCounter(NewRuntimeState(source, dump)) == GetRawProgramCounter(NewRuntimeState(source, dump))
  {
  }

  /** `currentFunction`. */
  function CurrentFunction(rs: RuntimeState): (r: int)
    ensures |rs.callstack| == 0 ==> r == -1
    ensures |rs.callstack| > 0 ==> r == rs.callstack[|rs.callstack| - 1].index
  {
    CurrentFunctionIndex(rs.callstack)
  }

  /** `deepcopy`: a fresh state from the same text, with every field then
      overwritten by the original's; the copy equals the original. */
  function DeepCopy(rs: RuntimeState): (r: RuntimeState)
    ensures r == rs
  {
    NewRuntimeState(rs.source, rs.dump).(
      id := rs.id,
      programCounter := rs.programCounter,
      startAddress := rs.startAddress,
      callstack := rs.callstack,
      locals := rs.locals,
      arguments := rs.arguments,
      events := rs.events,
      globals := rs.globals,
      stack := rs.stack,
      dump := rs.dump,
      pcerror := rs.pcerror,
      exceptionMsg := rs.exceptionMsg)
  }

  // ---------------------------------------------------------------------
  // Editing variables

  /** `getLocal`, `getArgument`, `getGlobal`: the first variable of that name. */
  function GetVariable(vars: seq<VariableInfo>, name: string): (r: Option<VariableInfo>)
    ensures r.None? <==> forall k :: 0 <= k < |vars| ==> vars[k].name != name
    ensures r.Some? ==> r.value in vars && r.value.name == name
    ensures r.Some? ==> exists k :: 0 <= k < |vars| && vars[k] == r.value
                          && forall j :: 0 <= j < k ==> vars[j].name != name
  {
    var k := FindByName(vars, name);
    if k == -1 then None else Some(vars[k])
  }

  /** The common body of `updateLocal`, `updateArgument` and `updateGlobal`:
      nothing happens unless the text parses as an integer and a variable
      has that name; then the first such variable's value becomes the
      number's decimal text, and the updated variable is returned. */
  function UpdateVariable(vars: seq<VariableInfo>, name: string, value: string): (r: (seq<VariableInfo>, Option<VariableInfo>))
    ensures r.1.None? <==> ParseInt(value).None? || forall k :: 0 <= k < |vars| ==> vars[k].name != name
    ensures r.1.None? ==> r.0 == vars
    ensures r.1.Some? ==>
      var k := FindByName(vars, name);
      && 0 <= k < |vars|
      && r.0 == vars[k := r.1.value]
      && r.1.value == vars[k].(value := IntToDecimal(ParseInt(value).value))
  {
    match ParseInt(value)
    case None => (vars, None)
    case Some(v) =>
      var k := FindByName(vars, name);
      if k == -1 then (vars, None)
      else
        var updated := vars[k].(value := IntToDecimal(v));
        (vars[k := updated], Some(updated))
  }

  /** Reading a variable back after an update finds the updated entry, and
      its text parses to the number that was set. */
  lemma UpdateThenGet(vars: seq<VariableInfo>, name: string, value: string)
    requires UpdateVariable(vars, name, value).1.Some?
    ensures GetVariable(UpdateVariable(vars, name, value).0, name) == UpdateVariable(vars, name, value).1
    ensures ParseInt(UpdateVariable(vars, name, value).1.value.value) == ParseInt(value)
  {
    var k := FindByName(vars, name);
    var r := UpdateVariable(vars, name, value).0;
    FirstMatch(r, name, k);
    ParseIntOfDecimal(ParseInt(value).value);
  }

  /** Setting a variable to the text it already shows changes nothing. */
  lemma UpdateIdempotent(vars: seq<VariableInfo>, name: string, value: string)
    requires UpdateVariable(vars, name, value).1.Some?
    ensures var once := UpdateVariable(vars, name, value);
      UpdateVariable(once.0, name, value) == once
  {
    var once := UpdateVariable(vars, name, value);
    var k := FindByName(vars, name);
    FirstMatch(once.0, name, k);
    assert once.0[k := once.1.value] == once.0;
  }

  /** `updateLocal`: edits the locals only. */
  function UpdateLocal(rs: RuntimeState, name: string, value: string): (r: (RuntimeState, Option<VariableInfo>))
    ensures r.0 == rs.(locals := r.0.locals)
    ensures (r.0.locals, r.1) == UpdateVariable(rs.locals, name, value)
  {
    var (locals, updated) := UpdateVariable(rs.locals, name, value);
    (rs.(locals := locals), updated)
  }

  /** `updateArgument`: edits the arguments only. */
  function UpdateArgument(rs: RuntimeState, name: string, value: string): (r: (RuntimeState, Option<VariableInfo>))
    ensures r.0 == rs.(arguments := r.0.arguments)
    ensures (r.0.arguments, r.1) == UpdateVariable(rs.arguments, name, value)
  {
    var (arguments, updated) := UpdateVariable(rs.arguments, name, value);
    (rs.(arguments := arguments), updated)
  }

  /** `updateGlobal`: edits the globals only. */
  function UpdateGlobal(rs: RuntimeState, name: string, value: string): (r: (RuntimeState, Option<VariableInfo>))
    ensures r.0 == rs.(globals := r.0.globals)
    ensures (r.0.globals, r.1) == UpdateVariable(rs.globals, name, value)
  {
    var (globals, updated) := UpdateVariable(rs.globals, name, value);
    (rs.(globals := globals), updated)
  }
}

=== FILE: RuntimeTypes.dfy ===
/** The records the legacy debug bridges and runtime states exchange: a
    call-stack frame as the VM dump reports it, a variable as the source map
    describes it (with its current value as text), and a function of the
    source map. */
module RuntimeTypes {

  datatype Frame = Frame(index: int, returnAddress: int)

  datatype VariableInfo = VariableInfo(index: int, name: string, varType: string, mutable: bool, value: string)

  datatype FunctionInfo = FunctionInfo(index: int, name: string, locals: seq<VariableInfo>)

  /** The position of the first variable named `name` (`Array.prototype.find`). */
  function FindByName(vars: seq<VariableInfo>, name: string): (r: int)
    ensures -1 <= r < |vars|
    ensures r == -1 <==> forall k :: 0 <= k < |vars| ==> vars[k].name != name
    ensures r >= 0 ==> vars[r].name == name && forall k :: 0 <= k < r ==> vars[k].name != name
  {
    if |vars| == 0 then -1
    else if vars[0].name == name then 0
    else
      var r := FindByName(vars[1..], name);
      assert forall k :: 1 <= k < |vars| ==> vars[k] == vars[1..][k - 1];
      if r == -1 then -1 else r + 1
  }

  /** `FindByName` is determined by its contract: the first match. */
  lemma FirstMatch(vars: seq<VariableInfo>, name: string, k: int)
    requires 0 <= k < |vars| && vars[k].name == name
    requires forall j :: 0 <= j < k ==> vars[j].name != name
    ensures FindByName(vars, name) == k
  {
  }

  /** The function of the newest frame, the last one of the dump, and -1
      when the call stack is empty (`getCurrentFunctionIndex` of the
      WARDuino bridge, `currentFunction` of a runtime state). */
  function CurrentFunctionIndex(callstack: seq<Frame>): (r: int)
    ensures |callstack| == 0 ==> r == -1
    ensures |callstack| > 0 ==> r == callstack[|callstack| - 1].index
  {
    if |callstack| == 0 then -1 else callstack[|callstack| - 1].index
  }
}

=== FILE: Seqs.dfy ===
/** Sequence helpers: the stable sort that `Array.prototype.sort` performs
    with a comparator `(x, y) => key(x) - key(y)`, and reversal. */
module Seqs {

  predicate SortedBy<T>(s: seq<T>, key: T -> int) {
    forall i, j :: 0 <= i < j < |s| ==> key(s[i]) <= key(s[j])
  }

  predicate StrictlySortedBy<T>(s: seq<T>, key: T -> int) {
    forall i, j :: 0 <= i < j < |s| ==> key(s[i]) < key(s[j])
  }

  /** No two elements share a key. */
  predicate DistinctKeys<T>(s: seq<T>, key: T -> int) {
    forall i, j :: 0 <= i < j < |s| ==> key(s[i]) != key(s[j])
  }

  predicate HasKey<T>(s: seq<T>, key: T -> int, k: int) {
    exists i :: 0 <= i < |s| && key(s[i]) == k
  }

  /** Inserts `x` before the first element whose key is not smaller. */
  function Insert<T(==)>(x: T, s: seq<T>, key: T -> int): (r: seq<T>)
    requires SortedBy(s, key)
    ensures |r| == |s| + 1
    ensures r[0] == x || (|s| > 0 && r[0] == s[0])
    ensures SortedBy(r, key)
    ensures multiset(r) == multiset(s) + multiset{x}
  {
    if |s| == 0 || key(x) <= key(s[0]) then [x] + s
    else
      assert s == [s[0]] + s[1..];
      [s[0]] + Insert(x, s[1..], key)
  }

  /** Stable insertion sort by `key`. */
  function Sort<T(==)>(s: seq<T>, key: T -> int): (r: seq<T>)
    ensures |r| == |s|
    ensures SortedBy(r, key)
    ensures multiset(r) == multiset(s)
  {
    if |s| == 0 then []
    else
      assert s == [s[0]] + s[1..];
      Insert(s[0], Sort(s[1..], key), key)
  }

  /** The elements of `s` whose key is `k`, in their order in `s`. */
  function WithKey<T>(s: seq<T>, key: T -> int, k: int): seq<T> {
    if |s| == 0 then []
    else (if key(s[0]) == k then [s[0]] else []) + WithKey(s[1..], key, k)
  }

  lemma WithKeyCons<T>(a: T, t: seq<T>, key: T -> int, k: int)
    ensures WithKey([a] + t, key, k) == (if key(a) == k then [a] else []) + WithKey(t, key, k)
  {
    assert ([a] + t)[1..] == t;
  }

  lemma SortedTail<T>(s: seq<T>, key: T -> int)
    requires SortedBy(s, key) && |s| > 0
    ensures SortedBy(s[1..], key)
  {
    forall i, j | 0 <= i < j < |s| - 1 ensures key(s[1..][i]) <= key(s[1..][j]) {
      assert s[1..][i] == s[i + 1] && s[1..][j] == s[j + 1];
    }
  }

  /** Inserting `x` puts it before every element with the same key. */
  lemma {:induction false} InsertWithKey<T>(x: T, s: seq<T>, key: T -> int, k: int)
    requires SortedBy(s, key)
    ensures WithKey(Insert(x, s, key), key, k) == (if key(x) == k then [x] else []) + WithKey(s, key, k)
  {
    if |s| == 0 || key(x) <= key(s[0]) {
      WithKeyCons(x, s, key, k);
    } else {
      SortedTail(s, key);
      InsertWithKey(x, s[1..], key, k);
      WithKeyCons(s[0], Insert(x, s[1..], key), key, k);
      assert s == [s[0]] + s[1..];
      WithKeyCons(s[0], s[1..], key, k);
      var ex: seq<T> := if key(x) == k then [x] else [];
      var es: seq<T> := if key(s[0]) == k then [s[0]] else [];
      assert ex == [] || es == [];
      assert es + (ex + WithKey(s[1..], key, k)) == ex + (es + WithKey(s[1..], key, k));
    }
  }

  /** `Sort` is stable: elements with equal keys keep their order. */
  lemma {:induction false} SortStable<T>(s: seq<T>, key: T -> int, k: int)
    ensures WithKey(Sort(s, key), key, k) == WithKey(s, key, k)
  {
    if |s| > 0 {
      SortStable(s[1..], key, k);
      InsertWithKey(s[0], Sort(s[1..], key), key, k);
    }
  }

  /** Sorting an already sorted sequence changes nothing. */
  lemma {:induction false} SortOfSorted<T>(s: seq<T>, key: T -> int)
    requires SortedBy(s, key)
    ensures Sort(s, key) == s
  {
    if |s| > 0 {
      SortOfSorted(s[1..], key);
      assert s == [s[0]] + s[1..];
    }
  }

  /** Two arrangements of the same elements have the same keys. */
  lemma SameElementsSameKeys<T>(a: seq<T>, b: seq<T>, key: T -> int, k: int)
    requires multiset(a) == multiset(b)
    ensures HasKey(a, key, k) ==> HasKey(b, key, k)
  {
    if HasKey(a, key, k) {
      var i :| 0 <= i < |a| && key(a[i]) == k;
      assert a[i] in multiset(b);
      var j :| 0 <= j < |b| && b[j] == a[i];
    }
  }

  lemma HasKeyTail<T>(s: seq<T>, key: T -> int, k: int)
    requires |s| > 0
    ensures HasKey(s[1..], key, k) ==> HasKey(s, key, k)
  {
    if HasKey(s[1..], key, k) {
      var j :| 0 <= j < |s| - 1 && key(s[1..][j]) == k;
      assert key(s[j + 1]) == k;
    }
  }

  /** Inserting an element with a fresh key into a strictly sorted sequence
      keeps it strictly sorted. */
  lemma {:induction false} InsertStrict<T>(x: T, s: seq<T>, key: T -> int)
    requires StrictlySortedBy(s, key) && !HasKey(s, key, key(x))
    ensures StrictlySortedBy(Insert(x, s, key), key)
  {
    if |s| > 0 && key(x) > key(s[0]) {
      HasKeyTail(s, key, key(x));
      InsertStrict(x, s[1..], key);
      var t := Insert(x, s[1..], key);
      var r := [s[0]] + t;
      assert key(s[0]) < key(t[0]);
      forall i, j | 0 <= i < j < |r| ensures key(r[i]) < key(r[j]) {
        if i == 0 {
          assert r[j] == t[j - 1];
        } else {
          assert r[i] == t[i - 1] && r[j] == t[j - 1];
        }
      }
    } else if |s| > 0 {
      assert key(x) != key(s[0]);
    }
  }

  /** Sorting elements with distinct keys yields a strictly sorted sequence. */
  lemma {:induction false} SortStrict<T>(s: seq<T>, key: T -> int)
    requires DistinctKeys(s, key)
    ensures StrictlySortedBy(Sort(s, key), key)
  {
    if |s| > 0 {
      var tail := s[1..];
      assert DistinctKeys(tail, key) by {
        forall i, j | 0 <= i < j < |tail| ensures key(tail[i]) != key(tail[j]) {
          assert tail[i] == s[i + 1] && tail[j] == s[j + 1];
        }
      }
      assert !HasKey(tail, key, key(s[0])) by {
        forall j | 0 <= j < |tail| ensures key(tail[j]) != key(s[0]) {
          assert tail[j] == s[j + 1];
        }
      }
      SortStrict(tail, key);
      SameElementsSameKeys(Sort(tail, key), tail, key, key(s[0]));
      InsertStrict(s[0], Sort(tail, key), key);
    }
  }

  lemma TailMultiset<T>(s: seq<T>)
    requires |s| > 0
    ensures multiset(s[1..]) == multiset(s) - multiset{s[0]}
  {
    assert s == [s[0]] + s[1..];
  }

  /** In a strictly sorted sequence, an element whose key is at most the
      first key is the first element. */
  lemma FirstIsLeast<T>(b: seq<T>, key: T -> int, j: int)
    requires StrictlySortedBy(b, key) && 0 <= j < |b|
    requires key(b[j]) <= key(b[0])
    ensures j == 0
  {
  }

  lemma FirstKeyLeast<T>(a: seq<T>, key: T -> int, i: int)
    requires StrictlySortedBy(a, key) && 0 <= i < |a|
    ensures key(a[0]) <= key(a[i])
  {
  }

  lemma StrictTail<T>(s: seq<T>, key: T -> int)
    requires StrictlySortedBy(s, key) && |s| > 0
    ensures StrictlySortedBy(s[1..], key)
  {
    forall i, j | 0 <= i < j < |s| - 1 ensures key(s[1..][i]) < key(s[1..][j]) {
      assert s[1..][i] == s[i + 1] && s[1..][j] == s[j + 1];
    }
  }

  /** Two strictly sorted arrangements of one multiset start alike. */
  lemma SameHead<T>(a: seq<T>, b: seq<T>, key: T -> int)
    requires StrictlySortedBy(a, key) && StrictlySortedBy(b, key)
    requires multiset(a) == multiset(b) && |a| > 0 && |b| > 0
    ensures a[0] == b[0]
  {
    assert a[0] in multiset(b);
    var j :| 0 <= j < |b| && b[j] == a[0];
    assert b[0] in multiset(a);
    var i :| 0 <= i < |a| && a[i] == b[0];
    FirstKeyLeast(a, key, i);
    FirstIsLeast(b, key, j);
  }

  /** A strictly sorted arrangement of a multiset is unique. */
  lemma {:induction false} SortedUnique<T>(a: seq<T>, b: seq<T>, key: T -> int)
    requires StrictlySortedBy(a, key) && StrictlySortedBy(b, key)
    requires multiset(a) == multiset(b)
    ensures a == b
  {
    assert |a| == |b| by {
      assert |a| == |multiset(a)|;
      assert |b| == |multiset(b)|;
    }
    if |a| > 0 {
      SameHead(a, b, key);
      assert multiset(a[1..]) == multiset(b[1..]) by {
        TailMultiset(a);
        TailMultiset(b);
      }
      StrictTail(a, key);
      StrictTail(b, key);
      SortedUnique(a[1..], b[1..], key);
      HeadTailEqual(a, b);
    }
  }

  lemma HeadTailEqual<T>(a: seq<T>, b: seq<T>)
    requires |a| == |b| > 0 && a[0] == b[0] && a[1..] == b[1..]
    ensures a == b
  {
    assert a == [a[0]] + a[1..] && b == [b[0]] + b[1..];
  }

  /** `s` reversed. */
  function Reverse<T>(s: seq<T>): (r: seq<T>)
    ensures |r| == |s|
    ensures forall i :: 0 <= i < |s| ==> r[i] == s[|s| - 1 - i]
  {
    if |s| == 0 then [] else [s[|s| - 1]] + Reverse(s[..|s| - 1])
  }

  lemma {:induction false} ReverseMultiset<T>(s: seq<T>)
    ensures multiset(Reverse(s)) == multiset(s)
  {
    if |s| > 0 {
      ReverseMultiset(s[..|s| - 1]);
      assert s == s[..|s| - 1] + [s[|s| - 1]];
    }
  }

  /** `s.filter(p)`: the elements satisfying `p`, in order. */
  function Filter<T(!new)>(s: seq<T>, p: T -> bool): (r: seq<T>)
    ensures |r| <= |s|
    ensures forall x :: x in r <==> x in s && p(x)
    ensures forall x :: multiset(r)[x] == if p(x) then multiset(s)[x] else 0
  {
    if |s| == 0 then []
    else
      assert s == [s[0]] + s[1..];
      (if p(s[0]) then [s[0]] else []) + Filter(s[1..], p)
  }
}

=== FILE: StateContext.dfy ===
/** The state snapshot of `src/State/context.ts`: one inspection response of
    the remote VM turned into a sorted call stack with per-frame source
    locations, locals and arguments, a sorted operand stack, resolved globals
    and the pending events. The source map and the control-flow graph are
    collaborators; their queries are the functions of a `SourceModel`. */
module StateContext {
  import opened Wrappers
  import opened Seqs
  import Numbers

  /** The frame kinds of the VM. A raw frame whose type number the VM does
      not define carries `None`. */
  datatype FrameType = Func | Block | Loop | If | CallbackGuard | ProxyGuard

  /** A frame as the VM reports it: function id (as text), stack pointer,
      return address and frame index. */
  datatype RawFrame = RawFrame(frameType: Option<FrameType>, fidx: string, sp: int, ra: int, idx: int)

  /** One operand-stack (or global) slot as the VM reports it. */
  datatype StackValue = StackValue(idx: int, valueType: int, value: int)

  /** A local as the source map declares it; the arguments are the locals
      with an index below the function's argument count. */
  datatype LocalInfo = LocalInfo(index: int, name: string, localType: string, mutable: bool)

  datatype WasmFunction = WasmFunction(nrArgs: nat, locals: seq<LocalInfo>)

  datatype Local = Local(index: int, name: string, localType: string, mutable: bool, value: int)

  datatype Argument = Argument(index: int, name: string, argType: string, mutable: bool, value: string)

  datatype GlobalInfo = GlobalInfo(index: int, name: string, globalType: string, mutable: bool, value: int)

  /** A source-level node of the control-flow graph, opaque to the debugger. */
  datatype Node = Node(id: int)

  datatype Event = Event(topic: string, payload: string)

  /** The queries the snapshot makes of the source map and the control-flow
      graph: `nodesFromAddress` (`None` also when there is no graph),
      `sourceNodeLastInstructionStartAddress`, `getFunction`,
      `getGlobalFromIndex` and `WASM.typeToString`. */
  datatype SourceModel = SourceModel(
    nodeAt: int -> Option<Node>,
    lastInstructionStart: Node -> int,
    functionById: int -> Option<WasmFunction>,
    globalByIndex: int -> Option<GlobalInfo>,
    typeName: int -> Option<string>)

  /** The errors the snapshot throws instead of defaulting. */
  datatype ContextError =
    | NonNumericFunctionId(fidx: string)
    | UnknownFunction(id: int)
    | MissingStackSlot(position: int)
    | UnknownValueType(valueType: int)
    | UnknownGlobal(idx: int)

  datatype CallstackFrame = CallstackFrame(
    raw: RawFrame,
    wasmAddress: int,
    sourceLocation: Option<Node>,
    func: Option<WasmFunction>,
    locals: seq<Local>,
    arguments: seq<Argument>)
  {
    function Index(): int {
      raw.idx
    }

    function ReturnAddress(): int {
      raw.ra
    }

    predicate IsFunctionFrame() {
      raw.frameType == Some(Func)
    }
  }

  function StackIdx(v: StackValue): int {
    v.idx
  }

  function RawIdx(f: RawFrame): int {
    f.idx
  }

  function FrameIndex(f: CallstackFrame): int {
    f.raw.idx
  }

  predicate PointsToSourceCode(t: Option<FrameType>) {
    t != Some(CallbackGuard) && t != Some(ProxyGuard)
  }

  /** Callback and proxy guards have no source location. */
  function SourceLocationAt(sm: SourceModel, t: Option<FrameType>, address: int): Option<Node> {
    if PointsToSourceCode(t) then sm.nodeAt(address) else None
  }

  // ---------------------------------------------------------------------
  // CallstackFrame

  /** The function of a function frame, resolved through the source map;
      a frame of any other kind has none. */
  function FunctionOf(sm: SourceModel, fr: RawFrame): (r: Result<Option<WasmFunction>, ContextError>)
    ensures fr.frameType != Some(Func) ==> r == Ok(None)
    ensures r.Ok? && fr.frameType == Some(Func) ==>
      Numbers.ParseInt(fr.fidx).Some? && r.value == sm.functionById(Numbers.ParseInt(fr.fidx).value) && r.value.Some?
    ensures fr.frameType == Some(Func) && Numbers.ParseInt(fr.fidx).None? ==> r == Err(NonNumericFunctionId(fr.fidx))
    ensures fr.frameType == Some(Func) && Numbers.ParseInt(fr.fidx).Some? && sm.functionById(Numbers.ParseInt(fr.fidx).value).None?
      ==> r == Err(UnknownFunction(Numbers.ParseInt(fr.fidx).value))
  {
    if fr.frameType != Some(Func) then Ok(None)
    else
      match Numbers.ParseInt(fr.fidx)
      case None => Err(NonNumericFunctionId(fr.fidx))
      case Some(id) =>
        match sm.functionById(id)
        case None => Err(UnknownFunction(id))
        case Some(f) => Ok(Some(f))
  }

  /** The declared locals that are not arguments, in declaration order. */
  function NonArgumentLocals(ls: seq<LocalInfo>, nrArgs: int): (r: seq<LocalInfo>)
    ensures forall l :: l in r <==> l in ls && l.index >= nrArgs
  {
    if |ls| == 0 then []
    else (if ls[0].index >= nrArgs then [ls[0]] else []) + NonArgumentLocals(ls[1..], nrArgs)
  }

  /** The declared locals `decl`, each valued from the operand stack at
      `fp + index`; a slot outside the stack is an error (the source
      dereferences `undefined`). */
  function LocalsFromStack(decl: seq<LocalInfo>, fp: int, stack: seq<StackValue>): (r: Result<seq<Local>, ContextError>)
    ensures r.Ok? <==> forall k :: 0 <= k < |decl| ==> 0 <= fp + decl[k].index < |stack|
    ensures r.Ok? ==> |r.value| == |decl|
    ensures r.Ok? ==> forall k :: 0 <= k < |decl| ==>
      r.value[k] == Local(decl[k].index, decl[k].name, decl[k].localType, decl[k].mutable, stack[fp + decl[k].index].value)
  {
    if |decl| == 0 then Ok([])
    else
      var pos := fp + decl[0].index;
      if !(0 <= pos < |stack|) then Err(MissingStackSlot(pos))
      else
        var rest :- LocalsFromStack(decl[1..], fp, stack);
        Ok([Local(decl[0].index, decl[0].name, decl[0].localType, decl[0].mutable, stack[pos].value)] + rest)
  }

  /** The first declared local with index `i`, as `Array.prototype.find`. */
  function FindLocal(ls: seq<LocalInfo>, i: int): (r: Option<LocalInfo>)
    ensures r.Some? ==> exists k :: 0 <= k < |ls| && ls[k] == r.value && r.value.index == i
                          && forall j :: 0 <= j < k ==> ls[j].index != i
    ensures r.None? <==> forall k :: 0 <= k < |ls| ==> ls[k].index != i
  {
    if |ls| == 0 then None
    else if ls[0].index == i then Some(ls[0])
    else
      var r := FindLocal(ls[1..], i);
      assert r.Some? ==> (exists k :: 1 <= k < |ls| && ls[k] == r.value && forall j :: 0 <= j < k ==> ls[j].index != i) by {
        if r.Some? {
          var k :| 0 <= k < |ls| - 1 && ls[1..][k] == r.value && r.value.index == i && forall j :: 0 <= j < k ==> ls[1..][j].index != i;
          assert ls[k + 1] == r.value;
          assert forall j :: 0 <= j < k + 1 ==> ls[j].index != i by {
            forall j | 0 <= j < k + 1 ensures ls[j].index != i {
              if j > 0 { assert ls[j] == ls[1..][j - 1]; }
            }
          }
        }
      }
      assert r.None? ==> forall k :: 0 <= k < |ls| ==> ls[k].index != i by {
        if r.None? {
          forall k | 0 <= k < |ls| ensures ls[k].index != i {
            if k > 0 { assert ls[k] == ls[1..][k - 1]; }
          }
        }
      }
      r
  }

  /** The display name of argument `i`: the name of the local declared with
      index `i`, or `arg<i>` when there is none or its name is empty (the
      source's `?.name || ...`). */
  function ArgName(f: WasmFunction, i: nat): (name: string)
    ensures name != ""
  {
    var found := FindLocal(f.locals, i);
    if found.Some? && found.value.name != "" then found.value.name
    else "arg" + Numbers.IntToDecimal(i)
  }

  /** Clamps a `slice` bound as JavaScript does: negative counts from the end. */
  function ClampIndex(i: int, len: nat): (r: nat)
    ensures r <= len
    ensures 0 <= i <= len ==> r == i
  {
    if i < 0 then (if len + i < 0 then 0 else len + i)
    else if i > len then len
    else i
  }

  /** `s.slice(start, end)`. */
  function JsSlice<T>(s: seq<T>, start: int, end: int): (r: seq<T>)
    ensures 0 <= start <= end <= |s| ==> r == s[start..end]
    ensures |r| <= |s|
  {
    var a := ClampIndex(start, |s|);
    var b := ClampIndex(end, |s|);
    if b <= a then [] else s[a..b]
  }

  /** The arguments built from the slots `vals`, argument numbers counted
      from `first`. An unknown value type is an error. */
  function ArgumentsOf(f: WasmFunction, vals: seq<StackValue>, first: nat, sm: SourceModel): (r: Result<seq<Argument>, ContextError>)
    ensures r.Ok? <==> forall k :: 0 <= k < |vals| ==> sm.typeName(vals[k].valueType).Some?
    ensures r.Ok? ==> |r.value| == |vals|
    ensures r.Ok? ==> forall k :: 0 <= k < |vals| ==>
      r.value[k] == Argument(vals[k].idx, ArgName(f, first + k), sm.typeName(vals[k].valueType).value, true,
                             Numbers.IntToDecimal(vals[k].value))
  {
    if |vals| == 0 then Ok([])
    else
      match sm.typeName(vals[0].valueType)
      case None => Err(UnknownValueType(vals[0].valueType))
      case Some(t) =>
        var rest :- ArgumentsOf(f, vals[1..], first + 1, sm);
        Ok([Argument(vals[0].idx, ArgName(f, first), t, true, Numbers.IntToDecimal(vals[0].value))] + rest)
  }

  /** The arguments of a function whose frame has stack pointer `sp`:
      argument `i` is read from the operand stack at `sp + 1 + i`, and a
      slot past the end of the stack is silently dropped (`slice`). */
  function ArgumentsFromStack(f: WasmFunction, sp: int, stack: seq<StackValue>, sm: SourceModel): (r: Result<seq<Argument>, ContextError>)
    ensures r.Ok? ==> |r.value| <= f.nrArgs
  {
    if f.nrArgs == 0 then Ok([])
    else ArgumentsOf(f, JsSlice(stack, sp + 1, sp + 1 + f.nrArgs), 0, sm)
  }

  /** When all argument slots lie on the stack, argument `i` carries the
      index and value of slot `sp + 1 + i` and the declared name, and the
      arguments fail exactly when one of those slots has an unknown type. */
  lemma ArgumentsInBounds(f: WasmFunction, sp: int, stack: seq<StackValue>, sm: SourceModel)
    requires 0 <= sp + 1 && sp + 1 + f.nrArgs <= |stack|
    ensures ArgumentsFromStack(f, sp, stack, sm).Ok? <==>
              forall k :: sp + 1 <= k < sp + 1 + f.nrArgs ==> sm.typeName(stack[k].valueType).Some?
    ensures ArgumentsFromStack(f, sp, stack, sm).Ok? ==>
              var args := ArgumentsFromStack(f, sp, stack, sm).value;
              && |args| == f.nrArgs
              && forall i :: 0 <= i < f.nrArgs ==> ArgumentFromSlot(f, i, args[i], stack[sp + 1 + i])
  {
    if f.nrArgs > 0 {
      ArgumentsFromSlice(f, sp, stack, sm);
      SliceArguments(f, stack, sp, sm);
    }
  }

  /** Argument `i` of `f` read from the operand-stack slot `slot`: the
      slot's index and value, and the declared name. */
  predicate ArgumentFromSlot(f: WasmFunction, i: nat, arg: Argument, slot: StackValue) {
    && arg.index == slot.idx
    && arg.name == ArgName(f, i)
    && arg.value == Numbers.IntToDecimal(slot.value)
  }

  /** With the slots on the stack, `slice` takes exactly them. */
  lemma ArgumentsFromSlice(f: WasmFunction, sp: int, stack: seq<StackValue>, sm: SourceModel)
    requires 0 <= sp + 1 && sp + 1 + f.nrArgs <= |stack| && f.nrArgs > 0
    ensures ArgumentsFromStack(f, sp, stack, sm) == ArgumentsOf(f, stack[sp + 1..sp + 1 + f.nrArgs], 0, sm)
  {
  }

  /** The arguments read from the `f.nrArgs` slots above `sp`. */
  lemma SliceArguments(f: WasmFunction, stack: seq<StackValue>, sp: int, sm: SourceModel)
    requires 0 <= sp + 1 && sp + 1 + f.nrArgs <= |stack|
    ensures var r := ArgumentsOf(f, stack[sp + 1..sp + 1 + f.nrArgs], 0, sm);
            && (r.Ok? <==> forall k :: sp + 1 <= k < sp + 1 + f.nrArgs ==> sm.typeName(stack[k].valueType).Some?)
            && (r.Ok? ==> |r.value| == f.nrArgs)
            && (r.Ok? ==> forall i :: 0 <= i < f.nrArgs ==> ArgumentFromSlot(f, i, r.value[i], stack[sp + 1 + i]))
  {
    var vals := stack[sp + 1..sp + 1 + f.nrArgs];
    SlotsTyped(vals, stack, sp, sm);
    SlotsArguments(f, vals, stack, sp, sm);
  }

  /** Argument `i` of the slots copied from above `sp` carries slot `sp + 1 + i`. */
  lemma SlotsArguments(f: WasmFunction, vals: seq<StackValue>, stack: seq<StackValue>, sp: int, sm: SourceModel)
    requires 0 <= sp + 1 && sp + 1 + |vals| <= |stack| && vals == stack[sp + 1..sp + 1 + |vals|]
    ensures var r := ArgumentsOf(f, vals, 0, sm);
            r.Ok? ==> |r.value| == |vals| && forall i :: 0 <= i < |vals| ==> ArgumentFromSlot(f, i, r.value[i], stack[sp + 1 + i])
  {
  }

  /** Every slice element has a known type exactly when every slot does. */
  lemma SlotsTyped(vals: seq<StackValue>, stack: seq<StackValue>, sp: int, sm: SourceModel)
    requires 0 <= sp + 1 && sp + 1 + |vals| <= |stack| && vals == stack[sp + 1..sp + 1 + |vals|]
    ensures (forall k :: 0 <= k < |vals| ==> sm.typeName(vals[k].valueType).Some?)
        <==> (forall k :: sp + 1 <= k < sp + 1 + |vals| ==> sm.typeName(stack[k].valueType).Some?)
  {
    if forall k :: 0 <= k < |vals| ==> sm.typeName(vals[k].valueType).Some? {
      forall k | sp + 1 <= k < sp + 1 + |vals|
        ensures sm.typeName(stack[k].valueType).Some?
      {
        assert stack[k] == vals[k - (sp + 1)];
      }
    }
  }


  /** `new CallstackFrame(frame, sourceMap, wasmAddress, stack)`. */
  function MakeFrame(fr: RawFrame, sm: SourceModel, address: int, stack: seq<StackValue>): (r: Result<CallstackFrame, ContextError>)
    ensures fr.frameType != Some(Func) ==> r.Ok? && r.value.func.None? && r.value.locals == [] && r.value.arguments == []
    ensures r.Ok? ==> r.value.raw == fr && r.value.wasmAddress == address
    ensures r.Ok? && !PointsToSourceCode(fr.frameType) ==> r.value.sourceLocation.None?
    ensures r.Ok? && PointsToSourceCode(fr.frameType) ==> r.value.sourceLocation == sm.nodeAt(address)
    ensures FunctionOf(sm, fr).Err? ==> r == Err(FunctionOf(sm, fr).error)
    ensures r.Ok? && fr.frameType == Some(Func) ==>
      var f := FunctionOf(sm, fr).value.value;
      && r.value.func == Some(f)
      && LocalsFromStack(NonArgumentLocals(f.locals, f.nrArgs), fr.sp + 1, stack) == Ok(r.value.locals)
      && ArgumentsFromStack(f, fr.sp, stack, sm) == Ok(r.value.arguments)
  {
    var loc := SourceLocationAt(sm, fr.frameType, address);
    var func :- FunctionOf(sm, fr);
    var locals :- if func.None? then Ok([])
                  else LocalsFromStack(NonArgumentLocals(func.value.locals, func.value.nrArgs), fr.sp + 1, stack);
    var args :- if func.None? then Ok([]) else ArgumentsFromStack(func.value, fr.sp, stack, sm);
    Ok(CallstackFrame(fr, address, loc, func, locals, args))
  }

  /** `frame.copy({wasmAddress: w})`: rebuilt at address `w`, or at its own
      address when `w` is `None`. */
  function Copy(f: CallstackFrame, sm: SourceModel, w: Option<int>): CallstackFrame {
    var a := w.GetOr(f.wasmAddress);
    f.(wasmAddress := a, sourceLocation := SourceLocationAt(sm, f.raw.frameType, a))
  }

  /** Copying a frame is the same as constructing it again at the new
      address: only the address and the source location depend on it, so the
      copy cannot fail where the original succeeded. */
  lemma CopyRebuilds(fr: RawFrame, sm: SourceModel, a: int, stack: seq<StackValue>, f: CallstackFrame, w: Option<int>)
    requires MakeFrame(fr, sm, a, stack) == Ok(f)
    ensures MakeFrame(fr, sm, w.GetOr(a), stack) == Ok(Copy(f, sm, w))
  {
  }

  // ---------------------------------------------------------------------
  // Callstack

  /** The frames are stored sorted by index. */
  datatype Callstack = Callstack(frames: seq<CallstackFrame>)

  /** Builds the frames of `sorted` from the innermost (last) outwards, as
      the constructor's loop does: the innermost frame is at `address`, and
      each outer frame at the return address of the frame inside it. The
      result lists the innermost frame first. */
  function BuildDescending(sorted: seq<RawFrame>, sm: SourceModel, address: int, stack: seq<StackValue>)
    : (r: Result<seq<CallstackFrame>, ContextError>)
    ensures r.Ok? ==> |r.value| == |sorted|
    ensures r.Ok? ==> forall k :: 0 <= k < |sorted| ==> r.value[k].raw == sorted[|sorted| - 1 - k]
    ensures r.Ok? ==> forall k :: 0 <= k < |sorted| ==>
      r.value[k].wasmAddress == (if k == 0 then address else sorted[|sorted| - k].ra)
    ensures (forall k :: 0 <= k < |sorted| ==> sorted[k].frameType != Some(Func)) ==> r.Ok?
    decreases |sorted|
  {
    if |sorted| == 0 then Ok([])
    else
      var last := sorted[|sorted| - 1];
      var f :- MakeFrame(last, sm, address, stack);
      var rest :- BuildDescending(sorted[..|sorted| - 1], sm, last.ra, stack);
      BuildStep(sorted, f, rest, address);
      Ok([f] + rest)
  }

  /** The address the constructor's loop gives the frame `k` places out
      from the innermost one. */
  function LoopAddress(sorted: seq<RawFrame>, address: int, k: nat): int
    requires k < |sorted|
  {
    if k == 0 then address else sorted[|sorted| - k].ra
  }

  /** The frame the constructor's loop builds `k` places out from the
      innermost one. */
  function LoopFrame(sorted: seq<RawFrame>, sm: SourceModel, address: int, stack: seq<StackValue>, k: nat)
    : Result<CallstackFrame, ContextError>
    requires k < |sorted|
  {
    MakeFrame(sorted[|sorted| - 1 - k], sm, LoopAddress(sorted, address, k), stack)
  }

  /** `frames` are the frames the loop builds over `sorted`, one per
      position. */
  predicate BuiltFrames(sorted: seq<RawFrame>, sm: SourceModel, address: int, stack: seq<StackValue>,
                        frames: seq<CallstackFrame>) {
    && |frames| == |sorted|
    && forall k :: 0 <= k < |sorted| ==> LoopFrame(sorted, sm, address, stack, k) == Ok(frames[k])
  }

  /** Every frame of the loop is the frame constructor's result at its
      address, and the loop succeeds exactly when every frame does. */
  lemma {:induction false} BuildDescendingFrames(sorted: seq<RawFrame>, sm: SourceModel, address: int, stack: seq<StackValue>)
    ensures var r := BuildDescending(sorted, sm, address, stack);
      && (r.Ok? <==> forall k :: 0 <= k < |sorted| ==> LoopFrame(sorted, sm, address, stack, k).Ok?)
      && (r.Ok? ==> BuiltFrames(sorted, sm, address, stack, r.value))
    decreases |sorted|
  {
    if |sorted| > 0 {
      var init := sorted[..|sorted| - 1];
      var last := sorted[|sorted| - 1];
      BuildDescendingFrames(init, sm, last.ra, stack);
      LoopTail(sorted, sm, address, stack);
      BuildDescendingUnfold(sorted, sm, address, stack);
      var rest := BuildDescending(init, sm, last.ra, stack);
      if MakeFrame(last, sm, address, stack).Ok? && rest.Ok? {
        LoopAllBuilt(sorted, sm, address, stack, MakeFrame(last, sm, address, stack).value, rest.value);
      } else if MakeFrame(last, sm, address, stack).Ok? {
        var k :| 0 <= k < |init| && !LoopFrame(init, sm, last.ra, stack, k).Ok?;
        assert !LoopFrame(sorted, sm, address, stack, k + 1).Ok?;
      }
    }
  }

  /** One turn of the loop: the innermost frame, then the rest. */
  lemma BuildDescendingUnfold(sorted: seq<RawFrame>, sm: SourceModel, address: int, stack: seq<StackValue>)
    requires |sorted| > 0
    ensures var f := MakeFrame(sorted[|sorted| - 1], sm, address, stack);
      var rest := BuildDescending(sorted[..|sorted| - 1], sm, sorted[|sorted| - 1].ra, stack);
      BuildDescending(sorted, sm, address, stack) ==
        if f.Err? then Err(f.error) else if rest.Err? then Err(rest.error) else Ok([f.value] + rest.value)
  {
  }

  /** A failing loop fails with the error of one of its frames: an error is
      passed on, never replaced by a default frame. */
  lemma {:induction false} BuildDescendingError(sorted: seq<RawFrame>, sm: SourceModel, address: int, stack: seq<StackValue>)
    ensures var r := BuildDescending(sorted, sm, address, stack);
      r.Err? ==> exists k :: 0 <= k < |sorted| && LoopFrame(sorted, sm, address, stack, k) == Err(r.error)
    decreases |sorted|
  {
    var r := BuildDescending(sorted, sm, address, stack);
    if |sorted| > 0 && r.Err? {
      var init := sorted[..|sorted| - 1];
      var last := sorted[|sorted| - 1];
      LoopTail(sorted, sm, address, stack);
      if MakeFrame(last, sm, address, stack).Err? {
        assert LoopFrame(sorted, sm, address, stack, 0) == Err(r.error);
      } else {
        BuildDescendingError(init, sm, last.ra, stack);
        var k :| 0 <= k < |init| && LoopFrame(init, sm, last.ra, stack, k) == Err(r.error);
        assert LoopFrame(sorted, sm, address, stack, k + 1) == Err(r.error);
      }
    }
  }

  /** Turn `k` of the loop over `sorted` is turn `k - 1` of the loop over the rest. */
  lemma LoopShift(sorted: seq<RawFrame>, sm: SourceModel, address: int, stack: seq<StackValue>, k: nat)
    requires 1 <= k < |sorted|
    ensures LoopFrame(sorted, sm, address, stack, k)
         == LoopFrame(sorted[..|sorted| - 1], sm, sorted[|sorted| - 1].ra, stack, k - 1)
  {
    LoopArgumentsShift(sorted, address, k);
  }

  /** The raw frame and the address of the loop's `k`-th turn, seen from the
      loop over the rest. */
  lemma LoopArgumentsShift(sorted: seq<RawFrame>, address: int, k: nat)
    requires 1 <= k < |sorted|
    ensures var init := sorted[..|sorted| - 1];
            && sorted[|sorted| - 1 - k] == init[|init| - 1 - (k - 1)]
            && LoopAddress(sorted, address, k) == LoopAddress(init, sorted[|sorted| - 1].ra, k - 1)
  {
  }

  /** Past the innermost frame, the loop over `sorted` is the loop over the
      rest started at the innermost frame's return address. */
  lemma LoopTail(sorted: seq<RawFrame>, sm: SourceModel, address: int, stack: seq<StackValue>)
    requires |sorted| > 0
    ensures LoopFrame(sorted, sm, address, stack, 0) == MakeFrame(sorted[|sorted| - 1], sm, address, stack)
    ensures forall k :: 1 <= k < |sorted| ==>
      LoopFrame(sorted, sm, address, stack, k) == LoopFrame(sorted[..|sorted| - 1], sm, sorted[|sorted| - 1].ra, stack, k - 1)
  {
    var n := |sorted|;
    var init := sorted[..n - 1];
    forall k | 1 <= k < n
      ensures LoopFrame(sorted, sm, address, stack, k) == LoopFrame(init, sm, sorted[n - 1].ra, stack, k - 1)
    {
      LoopShift(sorted, sm, address, stack, k);
    }
  }

  /** The innermost frame built, followed by the frames built over the
      rest, are the frames built over `sorted`. */
  lemma LoopAllBuilt(sorted: seq<RawFrame>, sm: SourceModel, address: int, stack: seq<StackValue>,
                     f: CallstackFrame, rest: seq<CallstackFrame>)
    requires |sorted| > 0
    requires LoopFrame(sorted, sm, address, stack, 0) == Ok(f)
    requires BuiltFrames(sorted[..|sorted| - 1], sm, sorted[|sorted| - 1].ra, stack, rest)
    requires forall k :: 1 <= k < |sorted| ==>
      LoopFrame(sorted, sm, address, stack, k) == LoopFrame(sorted[..|sorted| - 1], sm, sorted[|sorted| - 1].ra, stack, k - 1)
    ensures BuiltFrames(sorted, sm, address, stack, [f] + rest)
  {
    var r := [f] + rest;
    forall k | 1 <= k < |sorted| ensures LoopFrame(sorted, sm, address, stack, k) == Ok(r[k]) {
      assert r[k] == rest[k - 1];
    }
  }

  /** The innermost frame put before the frames built from the others. */
  lemma BuildStep(sorted: seq<RawFrame>, f: CallstackFrame, rest: seq<CallstackFrame>, address: int)
    requires |sorted| > 0 && f.raw == sorted[|sorted| - 1] && f.wasmAddress == address
    requires |rest| == |sorted| - 1
    requires forall k :: 0 <= k < |rest| ==> rest[k].raw == sorted[..|sorted| - 1][|rest| - 1 - k]
    requires forall k :: 0 <= k < |rest| ==>
      rest[k].wasmAddress == (if k == 0 then sorted[|sorted| - 1].ra else sorted[..|sorted| - 1][|rest| - k].ra)
    ensures var r := [f] + rest;
            && |r| == |sorted|
            && (forall k :: 0 <= k < |sorted| ==> r[k].raw == sorted[|sorted| - 1 - k])
            && (forall k :: 0 <= k < |sorted| ==> r[k].wasmAddress == (if k == 0 then address else sorted[|sorted| - k].ra))
  {
    var r := [f] + rest;
    forall k | 1 <= k < |sorted|
      ensures r[k].raw == sorted[|sorted| - 1 - k]
      ensures r[k].wasmAddress == (if k == 0 then address else sorted[|sorted| - k].ra)
    {
      assert r[k] == rest[k - 1];
    }
  }

  /** `new Callstack(callstack, sourceMap, pc, stack)`. */
  function NewCallstack(raw: seq<RawFrame>, sm: SourceModel, pc: int, stack: seq<StackValue>)
    : (r: Result<Callstack, ContextError>)
    ensures r.Ok? ==> |r.value.frames| == |raw|
    ensures r.Ok? ==> SortedBy(r.value.frames, FrameIndex)
    ensures raw == [] ==> r == Ok(Callstack([]))
  {
    var sorted := Sort(raw, RawIdx);
    var frms :- BuildDescending(sorted, sm, pc, stack);
    Ok(Callstack(Sort(frms, FrameIndex)))
  }

  /** Frames laid out as `BuildDescending` lays them out, reversed, line up
      with the raw frames: same raw frame, and the address the constructor
      gives each position. */
  lemma ReversedBuild(sorted: seq<RawFrame>, frms: seq<CallstackFrame>, pc: int)
    requires |frms| == |sorted|
    requires forall k :: 0 <= k < |sorted| ==> frms[k].raw == sorted[|sorted| - 1 - k]
    requires forall k :: 0 <= k < |sorted| ==> frms[k].wasmAddress == (if k == 0 then pc else sorted[|sorted| - k].ra)
    ensures var rev := Reverse(frms);
            && (forall i :: 0 <= i < |rev| ==> rev[i].raw == sorted[i])
            && (forall i :: 0 <= i < |rev| ==> rev[i].wasmAddress == (if i == |rev| - 1 then pc else sorted[i + 1].ra))
  {
    var n := |frms|;
    var rev := Reverse(frms);
    forall i | 0 <= i < n
      ensures rev[i].raw == sorted[i]
      ensures rev[i].wasmAddress == (if i == n - 1 then pc else sorted[i + 1].ra)
    {
      var k := n - 1 - i;
      assert rev[i] == frms[k];
      assert frms[k].raw == sorted[n - 1 - k];
      assert frms[k].wasmAddress == (if k == 0 then pc else sorted[n - k].ra);
    }
  }

  /** Frames carrying strictly sorted raw frames in reverse order have
      distinct indices. */
  lemma DescendingDistinct(sorted: seq<RawFrame>, frms: seq<CallstackFrame>)
    requires StrictlySortedBy(sorted, RawIdx)
    requires |frms| == |sorted|
    requires forall k :: 0 <= k < |sorted| ==> frms[k].raw == sorted[|sorted| - 1 - k]
    ensures DistinctKeys(frms, FrameIndex)
  {
    var n := |frms|;
    forall i, j | 0 <= i < j < n ensures FrameIndex(frms[i]) != FrameIndex(frms[j]) {
      assert frms[i].raw == sorted[n - 1 - i];
      assert frms[j].raw == sorted[n - 1 - j];
      assert RawIdx(sorted[n - 1 - j]) < RawIdx(sorted[n - 1 - i]);
    }
  }

  /** Frames carrying strictly sorted raw frames, in the same order, are
      strictly sorted. */
  lemma AscendingStrict(sorted: seq<RawFrame>, rev: seq<CallstackFrame>)
    requires StrictlySortedBy(sorted, RawIdx)
    requires |rev| == |sorted| && forall i :: 0 <= i < |rev| ==> rev[i].raw == sorted[i]
    ensures StrictlySortedBy(rev, FrameIndex)
  {
    forall i, j | 0 <= i < j < |rev| ensures FrameIndex(rev[i]) < FrameIndex(rev[j]) {
      assert RawIdx(sorted[i]) < RawIdx(sorted[j]);
    }
  }

  /** Frames laid out over the raw frames `sorted`: strictly ascending by
      index, each carrying the raw frame at its position, the innermost (last)
      at `pc` and every other at the return address of the frame just inside
      it. */
  predicate LaidOut(fs: seq<CallstackFrame>, sorted: seq<RawFrame>, pc: int) {
    && |fs| == |sorted|
    && StrictlySortedBy(fs, FrameIndex)
    && (forall i :: 0 <= i < |fs| ==> fs[i].raw == sorted[i])
    && (forall i :: 0 <= i < |fs| ==> fs[i].wasmAddress == (if i == |fs| - 1 then pc else sorted[i + 1].ra))
  }

  /** With distinct frame indices, the stored frames are laid out over the
      raw frames in ascending index order. */
  lemma CallstackAddresses(raw: seq<RawFrame>, sm: SourceModel, pc: int, stack: seq<StackValue>)
    requires DistinctKeys(raw, RawIdx)
    requires NewCallstack(raw, sm, pc, stack).Ok?
    ensures LaidOut(NewCallstack(raw, sm, pc, stack).value.frames, Sort(raw, RawIdx), pc)
  {
    StoredFramesReversed(raw, sm, pc, stack);
    SortStrict(raw, RawIdx);
    ReversedLayout(Sort(raw, RawIdx), sm, pc, stack);
  }

  /** With distinct frame indices, stored frame `i` is what the frame
      constructor builds from the `i`-th raw frame in index order, at the
      program counter for the innermost frame and at the return address of
      the frame just inside it otherwise. */
  lemma CallstackFramesBuilt(raw: seq<RawFrame>, sm: SourceModel, pc: int, stack: seq<StackValue>)
    requires DistinctKeys(raw, RawIdx)
    requires NewCallstack(raw, sm, pc, stack).Ok?
    ensures FramesInOrder(Sort(raw, RawIdx), sm, pc, stack, NewCallstack(raw, sm, pc, stack).value.frames)
  {
    StoredFramesReversed(raw, sm, pc, stack);
    ReversedBuildDescending(Sort(raw, RawIdx), sm, pc, stack);
  }

  /** The address frame `i` is built at: the program counter for the last
      frame, the return address of the next raw frame otherwise. */
  function FrameAddress(sorted: seq<RawFrame>, pc: int, i: nat): int
    requires i < |sorted|
  {
    if i == |sorted| - 1 then pc else sorted[i + 1].ra
  }

  /** Frame `i` of `fs` is what the frame constructor builds from
      `sorted[i]` at `FrameAddress(sorted, pc, i)`. */
  predicate FramesInOrder(sorted: seq<RawFrame>, sm: SourceModel, pc: int, stack: seq<StackValue>, fs: seq<CallstackFrame>) {
    && |fs| == |sorted|
    && forall i :: 0 <= i < |fs| ==>
         Ok(fs[i]) == MakeFrame(sorted[i], sm, FrameAddress(sorted, pc, i), stack)
  }

  /** The loop output, reversed, lists the frames in index order. */
  lemma ReversedBuildDescending(sorted: seq<RawFrame>, sm: SourceModel, pc: int, stack: seq<StackValue>)
    requires BuildDescending(sorted, sm, pc, stack).Ok?
    ensures FramesInOrder(sorted, sm, pc, stack, Reverse(BuildDescending(sorted, sm, pc, stack).value))
  {
    BuildDescendingFrames(sorted, sm, pc, stack);
    ReversedBuiltFrames(sorted, sm, pc, stack, BuildDescending(sorted, sm, pc, stack).value);
  }

  /** Position `i` of the reversed loop output is the frame built from
      `sorted[i]` at the address the loop gave it. */
  lemma ReversedBuiltFrames(sorted: seq<RawFrame>, sm: SourceModel, pc: int, stack: seq<StackValue>, d: seq<CallstackFrame>)
    requires BuiltFrames(sorted, sm, pc, stack, d)
    ensures FramesInOrder(sorted, sm, pc, stack, Reverse(d))
  {
    var fs := Reverse(d);
    forall i | 0 <= i < |fs|
      ensures Ok(fs[i]) == MakeFrame(sorted[i], sm, FrameAddress(sorted, pc, i), stack)
    {
      ReversedBuiltFrame(sorted, sm, pc, stack, d, i);
    }
  }

  lemma ReversedBuiltFrame(sorted: seq<RawFrame>, sm: SourceModel, pc: int, stack: seq<StackValue>, d: seq<CallstackFrame>, i: nat)
    requires BuiltFrames(sorted, sm, pc, stack, d) && i < |d|
    ensures Ok(Reverse(d)[i]) == MakeFrame(sorted[i], sm, FrameAddress(sorted, pc, i), stack)
  {
    var k := |d| - 1 - i;
    assert Reverse(d)[i] == d[k];
    assert LoopFrame(sorted, sm, pc, stack, k) == Ok(d[k]);
    LoopFrameAt(sorted, sm, pc, stack, i);
  }

  /** The loop's `k`-th frame, counted from the innermost, is built from
      `sorted[i]` with `i = |sorted| - 1 - k`. */
  lemma LoopFrameAt(sorted: seq<RawFrame>, sm: SourceModel, pc: int, stack: seq<StackValue>, i: nat)
    requires i < |sorted|
    ensures LoopFrame(sorted, sm, pc, stack, |sorted| - 1 - i)
         == MakeFrame(sorted[i], sm, FrameAddress(sorted, pc, i), stack)
  {
    LoopAddressAt(sorted, pc, i);
  }

  lemma LoopAddressAt(sorted: seq<RawFrame>, pc: int, i: nat)
    requires i < |sorted|
    ensures LoopAddress(sorted, pc, |sorted| - 1 - i) == FrameAddress(sorted, pc, i)
  {
  }

  /** A frame whose function is unknown or whose id is not a number fails
      the whole call stack. */
  lemma UnknownFunctionFailsCallstack(raw: seq<RawFrame>, sm: SourceModel, pc: int, stack: seq<StackValue>, fr: RawFrame)
    requires fr in raw && FunctionOf(sm, fr).Err?
    ensures NewCallstack(raw, sm, pc, stack).Err?
  {
    var sorted := Sort(raw, RawIdx);
    assert fr in multiset(sorted);
    var j :| 0 <= j < |sorted| && sorted[j] == fr;
    FailingFrameFails(sorted, sm, pc, stack, j);
  }

  lemma FailingFrameFails(sorted: seq<RawFrame>, sm: SourceModel, pc: int, stack: seq<StackValue>, j: nat)
    requires j < |sorted| && FunctionOf(sm, sorted[j]).Err?
    ensures BuildDescending(sorted, sm, pc, stack).Err?
  {
    BuildDescendingFrames(sorted, sm, pc, stack);
    LoopFrameAt(sorted, sm, pc, stack, j);
    assert LoopFrame(sorted, sm, pc, stack, |sorted| - 1 - j).Err?;
  }

  /** The built frames, reversed, are laid out over the raw frames. */
  lemma ReversedLayout(sorted: seq<RawFrame>, sm: SourceModel, pc: int, stack: seq<StackValue>)
    requires StrictlySortedBy(sorted, RawIdx)
    requires BuildDescending(sorted, sm, pc, stack).Ok?
    ensures LaidOut(Reverse(BuildDescending(sorted, sm, pc, stack).value), sorted, pc)
  {
    var frms := BuildDescending(sorted, sm, pc, stack).value;
    ReversedBuild(sorted, frms, pc);
    AscendingStrict(sorted, Reverse(frms));
  }

  /** With distinct indices, sorting the built frames just reverses them. */
  lemma StoredFramesReversed(raw: seq<RawFrame>, sm: SourceModel, pc: int, stack: seq<StackValue>)
    requires DistinctKeys(raw, RawIdx)
    requires NewCallstack(raw, sm, pc, stack).Ok?
    ensures BuildDescending(Sort(raw, RawIdx), sm, pc, stack).Ok?
    ensures NewCallstack(raw, sm, pc, stack).value.frames == Reverse(BuildDescending(Sort(raw, RawIdx), sm, pc, stack).value)
  {
    SortStrict(raw, RawIdx);
    SortReversesDescending(Sort(raw, RawIdx), sm, pc, stack);
  }

  /** Frames built from strictly sorted raw frames sort into their reverse. */
  lemma SortReversesDescending(sorted: seq<RawFrame>, sm: SourceModel, pc: int, stack: seq<StackValue>)
    requires StrictlySortedBy(sorted, RawIdx)
    requires BuildDescending(sorted, sm, pc, stack).Ok?
    ensures var frms := BuildDescending(sorted, sm, pc, stack).value;
            Sort(frms, FrameIndex) == Reverse(frms)
  {
    var frms := BuildDescending(sorted, sm, pc, stack).value;
    var rev := Reverse(frms);
    AscendingStrict(sorted, rev);
    DescendingDistinct(sorted, frms);
    SortStrict(frms, FrameIndex);
    ReverseMultiset(frms);
    SortedUnique(Sort(frms, FrameIndex), rev, FrameIndex);
  }

  /** The position of the nearest function frame above `p` (higher index),
      or `|fs|` when there is none. */
  function NextFunctionAbove(fs: seq<CallstackFrame>, p: int): (q: int)
    requires -1 <= p < |fs|
    ensures p < q <= |fs|
    ensures q < |fs| ==> fs[q].IsFunctionFrame()
    ensures forall j :: p < j < q ==> !fs[j].IsFunctionFrame()
    decreases |fs| - p
  {
    if p + 1 == |fs| then |fs|
    else if fs[p + 1].IsFunctionFrame() then p + 1
    else NextFunctionAbove(fs, p + 1)
  }

  /** The source location that decides the address of a function frame at
      `p`: that of the innermost non-function frame between `p` and the next
      function frame above it; none when they are adjacent; and the frame's
      own location when it is the innermost frame of all. */
  function Pending(fs: seq<CallstackFrame>, p: int): Option<Node>
    requires -1 <= p < |fs|
  {
    var q := NextFunctionAbove(fs, p);
    if q == p + 1 then (if 0 <= p && p == |fs| - 1 then fs[p].sourceLocation else None)
    else fs[q - 1].sourceLocation
  }

  function AddressOf(sm: SourceModel, loc: Option<Node>): Option<int> {
    if loc.None? then None else Some(sm.lastInstructionStart(loc.value))
  }

  /** The function frame at `p` as `frames()` reports it. */
  function Transform(fs: seq<CallstackFrame>, sm: SourceModel, p: int): CallstackFrame
    requires 0 <= p < |fs|
  {
    Copy(fs[p], sm, AddressOf(sm, Pending(fs, p)))
  }

  /** How the walk's state moves from position `i` to `i - 1`. */
  lemma PendingStep(fs: seq<CallstackFrame>, i: int)
    requires 0 <= i < |fs|
    ensures fs[i].IsFunctionFrame() ==> NextFunctionAbove(fs, i - 1) == i && Pending(fs, i - 1) == None
    ensures !fs[i].IsFunctionFrame() ==> NextFunctionAbove(fs, i - 1) == NextFunctionAbove(fs, i) > i
    ensures !fs[i].IsFunctionFrame() && NextFunctionAbove(fs, i) == i + 1 ==> Pending(fs, i - 1) == fs[i].sourceLocation
    ensures !fs[i].IsFunctionFrame() && NextFunctionAbove(fs, i) != i + 1 ==> Pending(fs, i - 1) == Pending(fs, i)
  {
  }

  /** One step of the walk of `frames()` at position `i` keeps the loop's
      state in line with the reference definition. */
  lemma WalkStep(fs: seq<CallstackFrame>, sm: SourceModel, i: int, funcFrames: seq<CallstackFrame>,
                 save: bool, latest: Option<Node>)
    requires 0 <= i < |fs|
    requires funcFrames == DerivedFrames(fs, sm, i + 1)
    requires save == (NextFunctionAbove(fs, i) == i + 1)
    requires latest == Pending(fs, i)
    ensures fs[i].IsFunctionFrame() ==>
              && [Copy(fs[i], sm, AddressOf(sm, latest))] + funcFrames == DerivedFrames(fs, sm, i)
              && NextFunctionAbove(fs, i - 1) == i
              && Pending(fs, i - 1) == None
    ensures !fs[i].IsFunctionFrame() ==>
              && funcFrames == DerivedFrames(fs, sm, i)
              && NextFunctionAbove(fs, i - 1) != i
              && Pending(fs, i - 1) == (if save then fs[i].sourceLocation else latest)
  {
    PendingStep(fs, i);
  }

  /** Reference definition of `frames()`: the function frames at positions
      `lo` and above, transformed, in ascending position order. */
  function DerivedFrames(fs: seq<CallstackFrame>, sm: SourceModel, lo: nat): seq<CallstackFrame>
    requires lo <= |fs|
    decreases |fs| - lo
  {
    if lo == |fs| then []
    else
      var rest := DerivedFrames(fs, sm, lo + 1);
      if fs[lo].IsFunctionFrame() then [Transform(fs, sm, lo)] + rest else rest
  }

  /** Every derived frame is a function frame, transformed from one at or
      above `lo`. */
  lemma {:induction false} DerivedFramesSound(fs: seq<CallstackFrame>, sm: SourceModel, lo: nat)
    requires lo <= |fs|
    ensures forall x :: x in DerivedFrames(fs, sm, lo) ==> x.IsFunctionFrame()
    ensures forall x :: x in DerivedFrames(fs, sm, lo) ==>
      exists p :: lo <= p < |fs| && fs[p].IsFunctionFrame() && x == Transform(fs, sm, p)
    decreases |fs| - lo
  {
    if lo < |fs| {
      DerivedFramesSound(fs, sm, lo + 1);
      forall x | x in DerivedFrames(fs, sm, lo)
        ensures x.IsFunctionFrame()
        ensures exists p :: lo <= p < |fs| && fs[p].IsFunctionFrame() && x == Transform(fs, sm, p)
      {
        if x !in DerivedFrames(fs, sm, lo + 1) {
          assert x == Transform(fs, sm, lo);
        }
      }
    }
  }

  /** Every function frame at or above `lo` is derived. */
  lemma {:induction false} DerivedFramesComplete(fs: seq<CallstackFrame>, sm: SourceModel, lo: nat)
    requires lo <= |fs|
    ensures forall p :: lo <= p < |fs| && fs[p].IsFunctionFrame() ==> Transform(fs, sm, p) in DerivedFrames(fs, sm, lo)
    decreases |fs| - lo
  {
    if lo < |fs| {
      DerivedFramesComplete(fs, sm, lo + 1);
    }
  }

  /** Derived from strictly ascending frames, the function frames ascend
      strictly too. */
  lemma {:induction false} DerivedFramesSorted(fs: seq<CallstackFrame>, sm: SourceModel, lo: nat)
    requires lo <= |fs| && StrictlySortedBy(fs, FrameIndex)
    ensures StrictlySortedBy(DerivedFrames(fs, sm, lo), FrameIndex)
    decreases |fs| - lo
  {
    if lo < |fs| && fs[lo].IsFunctionFrame() {
      var rest := DerivedFrames(fs, sm, lo + 1);
      DerivedFramesSorted(fs, sm, lo + 1);
      DerivedFramesSound(fs, sm, lo + 1);
      var r := DerivedFrames(fs, sm, lo);
      assert r == [Transform(fs, sm, lo)] + rest;
      forall j | 0 < j < |r| ensures FrameIndex(r[0]) < FrameIndex(r[j]) {
        assert r[j] in rest;
        var p :| lo + 1 <= p < |fs| && fs[p].IsFunctionFrame() && r[j] == Transform(fs, sm, p);
        assert FrameIndex(fs[lo]) < FrameIndex(fs[p]);
      }
      assert forall i, j :: 0 < i < j < |r| ==> r[i] == rest[i - 1] && r[j] == rest[j - 1];
    } else if lo < |fs| {
      DerivedFramesSorted(fs, sm, lo + 1);
    }
  }

  /** `callstack.frames()`: walks the stored frames from the innermost
      outwards, remembering the location of the first non-function frame met
      after each function frame, and re-addresses every function frame at the
      last instruction of that location. The list is built in ascending order
      directly instead of pushed and reversed. The source reads the last frame
      before the walk, so the call stack must not be empty. */
  method FunctionFrames(cs: Callstack, sm: SourceModel) returns (r: seq<CallstackFrame>)
    requires |cs.frames| > 0
    ensures r == DerivedFrames(cs.frames, sm, 0)
    ensures forall x :: x in r ==> x.IsFunctionFrame()
    ensures forall p :: 0 <= p < |cs.frames| && cs.frames[p].IsFunctionFrame() ==> Transform(cs.frames, sm, p) in r
    ensures StrictlySortedBy(cs.frames, FrameIndex) ==> StrictlySortedBy(r, FrameIndex)
  {
    var fs := cs.frames;
    var funcFrames: seq<CallstackFrame> := [];
    var latest := fs[|fs| - 1].sourceLocation;
    var save := true;
    var i := |fs| - 1;
    while i >= 0
      invariant -1 <= i < |fs|
      invariant funcFrames == DerivedFrames(fs, sm, i + 1)
      invariant save == (NextFunctionAbove(fs, i) == i + 1)
      invariant latest == Pending(fs, i)
      decreases i
    {
      var frame := fs[i];
      var address := AddressOf(sm, latest);
      WalkStep(fs, sm, i, funcFrames, save, latest);
      if frame.IsFunctionFrame() {
        funcFrames := [Copy(frame, sm, address)] + funcFrames;
        save := true;
        latest := None;
      } else if save {
        latest := frame.sourceLocation;
        save := false;
      }
      i := i - 1;
    }
    r := funcFrames;
    DerivedFramesFacts(fs, sm);
  }

  /** What the reference definition of `frames()` promises over the whole
      call stack. */
  lemma DerivedFramesFacts(fs: seq<CallstackFrame>, sm: SourceModel)
    ensures forall x :: x in DerivedFrames(fs, sm, 0) ==> x.IsFunctionFrame()
    ensures forall p :: 0 <= p < |fs| && fs[p].IsFunctionFrame() ==> Transform(fs, sm, p) in DerivedFrames(fs, sm, 0)
    ensures StrictlySortedBy(fs, FrameIndex) ==> StrictlySortedBy(DerivedFrames(fs, sm, 0), FrameIndex)
  {
    DerivedFramesSound(fs, sm, 0);
    DerivedFramesComplete(fs, sm, 0);
    if StrictlySortedBy(fs, FrameIndex) {
      DerivedFramesSorted(fs, sm, 0);
    }
  }

  /** Where a function frame ends up: at the last instruction of the
      innermost non-function frame above it when that frame has a location;
      at its own address when the next frame above is a function frame; and,
      when it is the innermost frame of all, at the last instruction of its
      own location. Without a location to move to, it keeps its address. */
  lemma DerivedAddress(fs: seq<CallstackFrame>, sm: SourceModel, p: int)
    requires 0 <= p < |fs| && fs[p].IsFunctionFrame()
    ensures var q := NextFunctionAbove(fs, p);
            && (q > p + 1 && fs[q - 1].sourceLocation.Some? ==>
                  Transform(fs, sm, p).wasmAddress == sm.lastInstructionStart(fs[q - 1].sourceLocation.value))
            && (q > p + 1 && fs[q - 1].sourceLocation.None? ==> Transform(fs, sm, p).wasmAddress == fs[p].wasmAddress)
            && (q == p + 1 < |fs| ==> Transform(fs, sm, p).wasmAddress == fs[p].wasmAddress)
    ensures p == |fs| - 1 && fs[p].sourceLocation.Some? ==>
              Transform(fs, sm, p).wasmAddress == sm.lastInstructionStart(fs[p].sourceLocation.value)
    ensures p == |fs| - 1 && fs[p].sourceLocation.None? ==> Transform(fs, sm, p).wasmAddress == fs[p].wasmAddress
    ensures Transform(fs, sm, p).raw == fs[p].raw
    ensures Transform(fs, sm, p).func == fs[p].func
    ensures Transform(fs, sm, p).locals == fs[p].locals && Transform(fs, sm, p).arguments == fs[p].arguments
  {
  }

  /** `getFrameFromIndex`: the first stored frame with index `idx`. */
  function FrameFromIndex(cs: Callstack, idx: int): (r: Option<CallstackFrame>)
    ensures r.None? <==> forall k :: 0 <= k < |cs.frames| ==> cs.frames[k].Index() != idx
    ensures r.Some? ==> exists k :: 0 <= k < |cs.frames| && cs.frames[k] == r.value && r.value.Index() == idx
                          && forall j :: 0 <= j < k ==> cs.frames[j].Index() != idx
  {
    FirstWithIndex(cs.frames, idx, 0)
  }

  function FirstWithIndex(fs: seq<CallstackFrame>, idx: int, from: nat): (r: Option<CallstackFrame>)
    requires from <= |fs|
    requires forall j :: 0 <= j < from ==> fs[j].Index() != idx
    ensures r.None? <==> forall k :: 0 <= k < |fs| ==> fs[k].Index() != idx
    ensures r.Some? ==> exists k :: 0 <= k < |fs| && fs[k] == r.value && r.value.Index() == idx
                          && forall j :: 0 <= j < k ==> fs[j].Index() != idx
    decreases |fs| - from
  {
    if from == |fs| then None
    else if fs[from].Index() == idx then Some(fs[from])
    else FirstWithIndex(fs, idx, from + 1)
  }

  /** `getCurrentFunctionFrame`: the highest function frame, if any. */
  function CurrentFunctionFrame(cs: Callstack): (r: Option<CallstackFrame>)
    ensures r.None? <==> forall k :: 0 <= k < |cs.frames| ==> !cs.frames[k].IsFunctionFrame()
    ensures r.Some? ==> exists p :: 0 <= p < |cs.frames| && cs.frames[p] == r.value && r.value.IsFunctionFrame()
                          && forall q :: p < q < |cs.frames| ==> !cs.frames[q].IsFunctionFrame()
  {
    LastFunctionFrameBelow(cs.frames, |cs.frames|)
  }

  function LastFunctionFrameBelow(fs: seq<CallstackFrame>, n: nat): (r: Option<CallstackFrame>)
    requires n <= |fs|
    requires forall q :: n <= q < |fs| ==> !fs[q].IsFunctionFrame()
    ensures r.None? <==> forall k :: 0 <= k < |fs| ==> !fs[k].IsFunctionFrame()
    ensures r.Some? ==> exists p :: 0 <= p < |fs| && fs[p] == r.value && r.value.IsFunctionFrame()
                          && forall q :: p < q < |fs| ==> !fs[q].IsFunctionFrame()
  {
    if n == 0 then None
    else if fs[n - 1].IsFunctionFrame() then Some(fs[n - 1])
    else LastFunctionFrameBelow(fs, n - 1)
  }

  // ---------------------------------------------------------------------
  // Globals and the whole snapshot

  /** `new Globals(globals, sourceMap)`: every reported global resolved
      through the source map and given its reported value. */
  function BuildGlobals(sm: SourceModel, vals: seq<StackValue>): (r: Result<seq<GlobalInfo>, ContextError>)
    ensures r.Ok? <==> forall k :: 0 <= k < |vals| ==> sm.globalByIndex(vals[k].idx).Some?
    ensures r.Ok? ==> |r.value| == |vals|
    ensures r.Ok? ==> forall k :: 0 <= k < |vals| ==>
      r.value[k] == sm.globalByIndex(vals[k].idx).value.(value := vals[k].value)
  {
    if |vals| == 0 then Ok([])
    else
      match sm.globalByIndex(vals[0].idx)
      case None => Err(UnknownGlobal(vals[0].idx))
      case Some(g) =>
        var rest :- BuildGlobals(sm, vals[1..]);
        Ok([g.(value := vals[0].value)] + rest)
  }

  /** `getGlobalFromName`: the first global with that name. */
  function GlobalFromName(globals: seq<GlobalInfo>, name: string): (r: Option<GlobalInfo>)
    ensures r.None? <==> forall k :: 0 <= k < |globals| ==> globals[k].name != name
    ensures r.Some? ==> r.value in globals && r.value.name == name
    ensures r.Some? ==> exists k :: 0 <= k < |globals| && globals[k] == r.value
                          && forall j :: 0 <= j < k ==> globals[j].name != name
  {
    if |globals| == 0 then None
    else if globals[0].name == name then Some(globals[0])
    else
      var r := GlobalFromName(globals[1..], name);
      assert forall k :: 1 <= k < |globals| ==> globals[k] == globals[1..][k - 1];
      assert r.Some? ==> exists k :: 1 <= k < |globals| && globals[k] == r.value
                           && forall j :: 0 <= j < k ==> globals[j].name != name by {
        if r.Some? {
          var k :| 0 <= k < |globals| - 1 && globals[1..][k] == r.value
                   && forall j :: 0 <= j < k ==> globals[1..][j].name != name;
          assert globals[k + 1] == r.value;
        }
      }
      r
  }

  /** An inspection response: every field is optional. */
  datatype WasmState = WasmState(
    pc: Option<int>,
    stack: Option<seq<StackValue>>,
    callstack: Option<seq<RawFrame>>,
    events: Option<seq<Event>>,
    globals: Option<seq<StackValue>>)

  /** `rawPc` keeps the response's program counter, which may be absent. */
  datatype Context = Context(
    rawPc: Option<int>,
    stack: seq<StackValue>,
    callstack: Callstack,
    events: seq<Event>,
    globals: seq<GlobalInfo>)

  /** `new Context(state, langAdaptor)`. Absent fields become empty, the
      program counter used for the innermost frame defaults to 0, the stack
      is sorted by index, and an unknown function or global is an error. */
  function BuildContext(state: WasmState, sm: SourceModel): (r: Result<Context, ContextError>)
    ensures r.Ok? ==> r.value.rawPc == state.pc
    ensures r.Ok? ==> SortedBy(r.value.stack, StackIdx)
    ensures r.Ok? ==> multiset(r.value.stack) == multiset(state.stack.GetOr([]))
    ensures r.Ok? ==> SortedBy(r.value.callstack.frames, FrameIndex)
    ensures r.Ok? ==> |r.value.callstack.frames| == |state.callstack.GetOr([])|
    ensures r.Ok? ==> r.value.events == state.events.GetOr([])
    ensures r.Ok? ==> |r.value.globals| == |state.globals.GetOr([])|
    ensures state.callstack.None? && state.globals.None? ==> r.Ok?
    ensures r.Ok? && state.stack.None? ==> r.value.stack == []
    ensures r.Ok? && state.callstack.None? ==> r.value.callstack.frames == []
    ensures r.Ok? && state.globals.None? ==> r.value.globals == []
    ensures r.Ok? && state.events.None? ==> r.value.events == []
  {
    var pc := state.pc.GetOr(0);
    var stack := Sort(state.stack.GetOr([]), StackIdx);
    var callstack :- NewCallstack(state.callstack.GetOr([]), sm, pc, stack);
    var events := state.events.GetOr([]);
    var globals :- BuildGlobals(sm, state.globals.GetOr([]));
    Ok(Context(state.pc, stack, callstack, events, globals))
  }

  /** The context is made of the call stack and the globals built from the
      response: it fails exactly when one of them fails, with its error. */
  lemma BuildContextParts(state: WasmState, sm: SourceModel)
    ensures var r := BuildContext(state, sm);
      var cs := NewCallstack(state.callstack.GetOr([]), sm, state.pc.GetOr(0), Sort(state.stack.GetOr([]), StackIdx));
      var gs := BuildGlobals(sm, state.globals.GetOr([]));
      && (r.Ok? <==> cs.Ok? && gs.Ok?)
      && (r.Err? ==> r.error == if cs.Err? then cs.error else gs.error)
      && (r.Ok? ==> r.value.callstack == cs.value && r.value.globals == gs.value)
  {
  }

  /** A frame naming an unknown function, or with an id that is not a
      number, fails the whole context; it is never defaulted. */
  lemma UnknownFunctionFails(state: WasmState, sm: SourceModel, fr: RawFrame)
    requires state.callstack.Some? && fr in state.callstack.value && FunctionOf(sm, fr).Err?
    ensures BuildContext(state, sm).Err?
  {
    UnknownFunctionFailsCallstack(state.callstack.value, sm, state.pc.GetOr(0), Sort(state.stack.GetOr([]), StackIdx), fr);
    BuildContextParts(state, sm);
  }

  /** A reported global with an unknown index fails the whole context; it
      is never defaulted. */
  lemma UnknownGlobalFails(state: WasmState, sm: SourceModel, k: nat)
    requires state.globals.Some? && k < |state.globals.value|
    requires sm.globalByIndex(state.globals.value[k].idx).None?
    ensures BuildContext(state, sm).Err?
  {
    BuildContextParts(state, sm);
  }

  /** The context of the empty response, which the backend starts with. */
  function EmptyContext(): Context {
    Context(None, [], Callstack([]), [], [])
  }

  /** A response with no fields yields the empty context, whatever the source map. */
  lemma EmptyResponseContext(sm: SourceModel)
    ensures BuildContext(WasmState(None, None, None, None, None), sm) == Ok(EmptyContext())
  {
  }

  /** The innermost frame of a response without a program counter sits at address 0. */
  lemma MissingPcDefaultsToZero(state: WasmState, sm: SourceModel)
    requires state.pc.None? && state.callstack.Some?
    requires DistinctKeys(state.callstack.value, RawIdx)
    requires BuildContext(state, sm).Ok?
    requires |state.callstack.value| > 0
    ensures var fs := BuildContext(state, sm).value.callstack.frames;
            fs[|fs| - 1].wasmAddress == 0
  {
    CallstackAddresses(state.callstack.value, sm, 0, Sort(state.stack.GetOr([]), StackIdx));
  }

  /** `getCurrentSourceCodeLocation`: no location without a program counter. */
  function CurrentSourceCodeLocation(ctx: Context, sm: SourceModel): (r: Option<Node>)
    ensures ctx.rawPc.None? ==> r.None?
    ensures ctx.rawPc.Some? ==> r == sm.nodeAt(ctx.rawPc.value)
  {
    if ctx.rawPc.None? then None else sm.nodeAt(ctx.rawPc.value)
  }
}

=== FILE: WarduinoDebugBridge.dfy ===
/** The wire commands the WARDuino debug bridge writes to the serial port
    (`src/DebugBridges/WARDuinoDebugBridge.ts`): numbers travel as signed
    LEB128 rendered in upper-case hex, breakpoint addresses as a size byte
    followed by the address in hex. Every command ends in `" \n"`. */
module WarduinoDebugBridge {
  import opened Wrappers
  import opened Numbers
  import opened Leb128
  import opened RuntimeTypes
  import opened AbstractDebugBridge

  datatype WarduinoBridge = WarduinoBridge(bridge: Bridge, startAddress: int)

  function NewWarduinoBridge(functionInfos: Option<seq<Option<FunctionInfo>>>): (wb: WarduinoBridge)
    ensures wb.startAddress == 0 && wb.bridge == NewBridge(functionInfos)
  {
    WarduinoBridge(NewBridge(functionInfos), 0)
  }

  function SetStartAddress(wb: WarduinoBridge, startAddress: int): (r: WarduinoBridge)
    ensures r.startAddress == startAddress && r.bridge == wb.bridge
  {
    wb.(startAddress := startAddress)
  }

  /** After a dump the current function is that of the frame pushed last. */
  lemma CurrentFunctionAfterDump(b: Bridge, older: seq<Frame>, newest: Frame)
    ensures CurrentFunctionIndex(GetCallstack(SetCallstack(b, older + [newest]))) == newest.index
  {
  }

  // ---------------------------------------------------------------------
  // JavaScript string helpers

  function ToUpperChar(c: char): char {
    if 'a' <= c <= 'z' then (c as int - 32) as char else c
  }

  /** `String.prototype.toUpperCase` on ASCII text. */
  function ToUpper(s: string): (r: string)
    ensures |r| == |s| && forall i :: 0 <= i < |s| ==> r[i] == ToUpperChar(s[i])
  {
    seq(|s|, i requires 0 <= i < |s| => ToUpperChar(s[i]))
  }

  /** `s.padStart(n, c)` with a one-character pad. */
  function PadStart(s: string, n: nat, c: char): (r: string)
    ensures |r| == if |s| >= n then |s| else n
    ensures r[|r| - |s|..] == s
    ensures forall i :: 0 <= i < |r| - |s| ==> r[i] == c
  {
    if |s| >= n then s else seq(n - |s|, _ => c) + s
  }

  lemma UpperDigit(d: nat)
    requires d < 16
    ensures ToUpperChar(DigitChar(d, false)) == DigitChar(d, true)
  {
  }

  lemma ToUpperAppend(a: string, b: string)
    ensures ToUpper(a + b) == ToUpper(a) + ToUpper(b)
  {
  }

  // ---------------------------------------------------------------------
  // LEB128 text

  /** One byte as `convertToLEB128` writes it: `toString(16).padStart(2, "0")`. */
  function ByteText(b: Byte): string {
    PadStart(NatToRadix(b, 16, false), 2, '0')
  }

  /** A byte below 16 is one digit, padded with a `0`. */
  lemma ByteTextSmall(b: Byte)
    requires b < 16
    ensures ByteText(b) == ['0', DigitChar(b, false)]
  {
    assert NatToRadix(b, 16, false) == [DigitChar(b, false)];
  }

  /** A byte from 16 up is two digits and needs no padding. */
  lemma ByteTextLarge(b: Byte)
    requires 16 <= b
    ensures ByteText(b) == [DigitChar(b / 16, false), DigitChar(b % 16, false)]
  {
    DivModFacts(b, 16);
    assert NatToRadix(b / 16, 16, false) == [DigitChar(b / 16, false)];
    assert NatToRadix(b, 16, false) == [DigitChar(b / 16, false), DigitChar(b % 16, false)];
  }

  lemma ToUpperPair(c: char, d: char)
    ensures ToUpper([c, d]) == [ToUpperChar(c), ToUpperChar(d)]
  {
  }

  lemma ByteTextUpper(b: Byte)
    ensures ToUpper(ByteText(b)) == HexByte(b)
  {
    if b < 16 {
      ByteTextUpperSmall(b);
    } else {
      ByteTextUpperLarge(b);
    }
  }

  lemma ByteTextUpperSmall(b: Byte)
    requires b < 16
    ensures ToUpper(ByteText(b)) == HexByte(b)
  {
    assert b / 16 == 0 && b % 16 == b;
    ByteTextSmall(b);
    UpperDigit(b);
    ToUpperPair('0', DigitChar(b, false));
  }

  lemma ByteTextUpperLarge(b: Byte)
    requires 16 <= b
    ensures ToUpper(ByteText(b)) == HexByte(b)
  {
    DivModFacts(b, 16);
    ByteTextLarge(b);
    UpperDigit(b / 16);
    UpperDigit(b % 16);
    ToUpperPair(DigitChar(b / 16, false), DigitChar(b % 16, false));
  }

  /** The bytes' texts joined (`result.join("")`), before `toUpperCase`. */
  function JoinedByteTexts(bs: seq<Byte>): string {
    if |bs| == 0 then "" else ByteText(bs[0]) + JoinedByteTexts(bs[1..])
  }

  lemma {:induction false} JoinedByteTextsUpper(bs: seq<Byte>)
    ensures ToUpper(JoinedByteTexts(bs)) == Hex(bs)
  {
    if |bs| > 0 {
      JoinedByteTextsUpper(bs[1..]);
      ByteTextUpper(bs[0]);
      ToUpperAppend(ByteText(bs[0]), JoinedByteTexts(bs[1..]));
    }
  }

  /** `convertToLEB128`: `a |= 0` truncates to 32 bits, then the signed
      LEB128 bytes go out as upper-case hex. The text is that of the
      standard encoding, one to five bytes long. */
  function ConvertToLeb128(a: int): (r: string)
    ensures r == Hex(EncodeSigned(ToInt32(a)))
    ensures |r| % 2 == 0 && 2 <= |r| <= 10
  {
    Leb128Text(ToInt32(a));
    ToUpper(JoinedByteTexts(EncodeSigned(ToInt32(a))))
  }

  lemma Leb128Text(x: int)
    requires IsInt32(x)
    ensures ToUpper(JoinedByteTexts(EncodeSigned(x))) == Hex(EncodeSigned(x))
    ensures |Hex(EncodeSigned(x))| % 2 == 0 && 2 <= |Hex(EncodeSigned(x))| <= 10
  {
    JoinedByteTextsUpper(EncodeSigned(x));
    Leb128TextLength(x);
  }

  lemma Leb128TextLength(x: int)
    requires IsInt32(x)
    ensures |Hex(EncodeSigned(x))| % 2 == 0 && 2 <= |Hex(EncodeSigned(x))| <= 10
  {
    var n := |EncodeSigned(x)|;
    EncodeInt32Length(x);
    assert |Hex(EncodeSigned(x))| == 2 * n;
  }

  /** Reading the text back as hex gives the LEB128 bytes of the 32-bit
      value. */
  lemma Leb128TextParses(a: int)
    ensures ParseHex(ConvertToLeb128(a)) == Some(EncodeSigned(ToInt32(a)))
  {
    var bs := EncodeSigned(ToInt32(a));
    assert ConvertToLeb128(a) == Hex(bs);
    ParseHexOfHex(bs);
  }

  /** Decoding those bytes gives the 32-bit value and consumes exactly
      them, whatever follows. */
  lemma Leb128TextDecodes(a: int, tail: seq<Byte>)
    ensures ParseHex(ConvertToLeb128(a)).Some?
    ensures DecodeSigned(ParseHex(ConvertToLeb128(a)).value + tail) == Some((ToInt32(a), |ConvertToLeb128(a)| / 2))
  {
    var x := ToInt32(a);
    Leb128TextParses(a);
    DecodeEncode(x, tail);
    assert |ConvertToLeb128(a)| == 2 * |EncodeSigned(x)|;
  }

  // ---------------------------------------------------------------------
  // Setting a variable

  /** Why `setVariable` rejects: no local of that name, or the locals could
      not be read (a `TypeError` inside the promise). */
  datatype SetVariableError = LocalNotFound | LocalsUnreadable

  /** `setVariable`: the command `21` + LEB128(local index) + LEB128(value),
      for the first local of the current function with that name. */
  function SetVariableCommand(wb: WarduinoBridge, name: string, value: int): (r: Result<string, SetVariableError>)
    ensures var locals := GetLocals(wb.bridge, CurrentFunctionIndex(wb.bridge.callstack));
      && (r == Err(LocalsUnreadable) <==> locals.Err?)
      && (r == Err(LocalNotFound) <==>
          locals.Ok? && forall k :: 0 <= k < |locals.value| ==> locals.value[k].name != name)
  {
    match GetLocals(wb.bridge, CurrentFunctionIndex(wb.bridge.callstack))
    case Err(_) => Err(LocalsUnreadable)
    case Ok(locals) =>
      var k := FindByName(locals, name);
      if k == -1 then Err(LocalNotFound)
      else Ok("21" + ConvertToLeb128(locals[k].index) + ConvertToLeb128(value) + " \n")
  }

  /** Two signed LEB128 numbers that together fill `bytes`. */
  function DecodePair(bytes: seq<Byte>): Option<(int, int)> {
    var first :- DecodeSigned(bytes);
    var second :- DecodeSigned(bytes[first.1..]);
    if first.1 + second.1 != |bytes| then None else Some((first.0, second.0))
  }

  /** What the VM reads from a set-variable command: the local's index and
      the new value, together filling the hex text between `21` and `" \n"`. */
  function ParseSetVariableCommand(cmd: string): Option<(int, int)> {
    if |cmd| < 4 || cmd[..2] != "21" || cmd[|cmd| - 2..] != " \n" then None
    else
      var bytes :- ParseHex(cmd[2..|cmd| - 2]);
      DecodePair(bytes)
  }

  lemma DecodePairOfEncodings(index: int, value: int)
    ensures DecodePair(EncodeSigned(ToInt32(index)) + EncodeSigned(ToInt32(value)))
      == Some((ToInt32(index), ToInt32(value)))
  {
    var e1 := EncodeSigned(ToInt32(index));
    var e2 := EncodeSigned(ToInt32(value));
    DecodeEncode(ToInt32(index), e2);
    assert (e1 + e2)[|e1|..] == e2;
    DecodeEncode(ToInt32(value), []);
    assert e2 + [] == e2;
  }

  /** The reader strips `21` and `" \n"` and decodes the hex between. */
  lemma FramedCommand(body: string)
    ensures ParseSetVariableCommand("21" + body + " \n") ==
      if ParseHex(body).None? then None else DecodePair(ParseHex(body).value)
  {
    var cmd := "21" + body + " \n";
    assert cmd[..2] == "21" && cmd[|cmd| - 2..] == " \n";
    assert cmd[2..|cmd| - 2] == body;
  }

  /** The two numbers' texts side by side are the hex of their bytes side by side. */
  lemma PairText(index: int, value: int)
    ensures ConvertToLeb128(index) + ConvertToLeb128(value)
      == Hex(EncodeSigned(ToInt32(index)) + EncodeSigned(ToInt32(value)))
  {
    HexAppend(EncodeSigned(ToInt32(index)), EncodeSigned(ToInt32(value)));
  }

  /** A set-variable command reads back as the two 32-bit numbers it was
      built from. */
  lemma SetVariableCommandParses(index: int, value: int)
    ensures ParseSetVariableCommand("21" + ConvertToLeb128(index) + ConvertToLeb128(value) + " \n")
      == Some((ToInt32(index), ToInt32(value)))
  {
    var body := ConvertToLeb128(index) + ConvertToLeb128(value);
    assert "21" + ConvertToLeb128(index) + ConvertToLeb128(value) + " \n" == "21" + body + " \n";
    FramedCommand(body);
    PairParsesAsHex(index, value);
    DecodePairOfEncodings(index, value);
  }

  /** The two numbers' texts side by side read back as their bytes side by side. */
  lemma PairParsesAsHex(index: int, value: int)
    ensures ParseHex(ConvertToLeb128(index) + ConvertToLeb128(value))
      == Some(EncodeSigned(ToInt32(index)) + EncodeSigned(ToInt32(value)))
  {
    PairText(index, value);
    ParseHexOfHex(EncodeSigned(ToInt32(index)) + EncodeSigned(ToInt32(value)));
  }

  /** The VM reads back the index of the local found and the value, both
      truncated to 32 bits. */
  lemma SetVariableRoundTrip(wb: WarduinoBridge, name: string, value: int)
    requires SetVariableCommand(wb, name, value).Ok?
    ensures var locals := GetLocals(wb.bridge, CurrentFunctionIndex(wb.bridge.callstack)).value;
      var k := FindByName(locals, name);
      && 0 <= k < |locals| && locals[k].name == name
      && ParseSetVariableCommand(SetVariableCommand(wb, name, value).value)
         == Some((ToInt32(locals[k].index), ToInt32(value)))
  {
    var locals := GetLocals(wb.bridge, CurrentFunctionIndex(wb.bridge.callstack)).value;
    var k := FindByName(locals, name);
    SetVariableCommandParses(locals[k].index, value);
  }
}

module WarduinoBreakpoints {
  import opened Wrappers
  import opened Numbers
  import opened Leb128
  import opened WarduinoDebugBridge

  /** The largest integer a JavaScript number holds exactly, 2^53 - 1. */
  const MAX_SAFE_INTEGER: int := 0x1F_FFFF_FFFF_FFFF

  function Pow16(k: nat): (r: nat)
    ensures r >= 1
  {
    if k == 0 then 1 else 16 * Pow16(k - 1)
  }

  /** A number below 16^k has at most `k` hex digits. */
  lemma {:induction false} HexDigitsBound(n: nat, k: nat, upper: bool)
    requires 1 <= k && n < Pow16(k)
    ensures |NatToRadix(n, 16, upper)| <= k
    decreases k
  {
    DivModFacts(n, 16);
    if n >= 16 {
      assert k > 1;
      HexDigitsBound(n / 16, k - 1, upper);
      assert |NatToRadix(n, 16, upper)| == |NatToRadix(n / 16, 16, upper)| + 1;
    }
  }

  /** Upper-casing lower-case hex digits gives the upper-case digits. */
  lemma {:induction false} UpperHexDigits(n: nat)
    ensures ToUpper(NatToRadix(n, 16, false)) == NatToRadix(n, 16, true)
    decreases n
  {
    DivModFacts(n, 16);
    UpperDigit(n % 16);
    if n < 16 {
      UpperDigit(n);
    } else {
      UpperHexDigits(n / 16);
      ToUpperAppend(NatToRadix(n / 16, 16, false), [DigitChar(n % 16, false)]);
    }
  }

  /** A leading zero does not change the value of a run of digits. */
  lemma {:induction false} LeadingZero(s: string, radix: nat)
    requires radix >= 2 && AllRadixDigits(s, radix)
    ensures AllRadixDigits("0" + s, radix)
    ensures DigitsValue("0" + s, radix) == DigitsValue(s, radix)
    decreases |s|
  {
    var z := "0" + s;
    if |s| == 0 {
      assert z[..0] == "";
    } else {
      LeadingZero(s[..|s| - 1], radix);
      assert z[..|z| - 1] == "0" + s[..|s| - 1];
      assert z[|z| - 1] == s[|s| - 1];
    }
  }

  /** The address as `setBreakPoint` writes it:
      `(startAddress + address).toString(16).toUpperCase()`. */
  function AddressText(a: int): string {
    ToUpper(IntToHex(a))
  }

  /** `(breakPointAddress.length / 2).toString(16)`: half an odd length is
      a number ending in .5, which `toString(16)` writes with the fraction
      digit `.8`. */
  function HalfLengthText(len: nat): string {
    if len % 2 == 0 then IntToHex(len / 2) else IntToHex(len / 2) + ".8"
  }

  /** `setBreakPoint` as written: `060`, the half length, the address. */
  function BreakpointCommandAsWritten(wb: WarduinoBridge, address: int): string {
    var addr := AddressText(wb.startAddress + address);
    "060" + HalfLengthText(|addr|) + addr + " \n"
  }

  /** The command as written starts with the interrupt `06` and ends with
      `" \n"`; an address of odd length puts a fraction point into it. */
  lemma AsWrittenFraming(wb: WarduinoBridge, address: int)
    ensures var cmd := BreakpointCommandAsWritten(wb, address);
      && |cmd| >= 6 && cmd[..2] == "06" && cmd[|cmd| - 2..] == " \n"
      && (|AddressText(wb.startAddress + address)| % 2 == 1 ==> '.' in cmd)
  {
  }

  /** What the VM reads from a breakpoint command: after the interrupt `06`,
      a size byte `k`, then `2k` hex digits of the address. */
  function ParseBreakpointCommand(cmd: string): Option<int> {
    if |cmd| < 6 || cmd[..2] != "06" || cmd[|cmd| - 2..] != " \n" then None
    else
      var size :- ParseHex(cmd[2..4]);
      var digits := cmd[4..|cmd| - 2];
      var k: int := size[0];
      if |digits| != 2 * k || !AllRadixDigits(digits, 16) then None
      else Some(DigitsValue(digits, 16))
  }

  lemma Pow16Fourteen()
    ensures Pow16(14) == 0x100_0000_0000_0000
  {
    assert Pow16(2) == 0x100;
    assert Pow16(4) == 0x1_0000;
    assert Pow16(6) == 0x100_0000;
    assert Pow16(8) == 0x1_0000_0000;
    assert Pow16(10) == 0x100_0000_0000;
    assert Pow16(12) == 0x1_0000_0000_0000;
  }

  /** The address in upper-case hex, padded with one `0` to whole bytes. */
  function PaddedAddress(a: nat): (p: string)
    requires a <= MAX_SAFE_INTEGER
    ensures |p| % 2 == 0 && 2 <= |p| <= 14
    ensures AllRadixDigits(p, 16)
    ensures p == AddressText(a) || p == "0" + AddressText(a)
  {
    PaddedDigits(a);
    if |AddressText(a)| % 2 == 1 then "0" + AddressText(a) else AddressText(a)
  }

  lemma PaddedDigits(a: nat)
    requires a <= MAX_SAFE_INTEGER
    ensures var d := AddressText(a);
            var p := if |d| % 2 == 1 then "0" + d else d;
            && |p| % 2 == 0 && 2 <= |p| <= 14
            && AllRadixDigits(p, 16) && DigitsValue(p, 16) == a
  {
    var d := AddressText(a);
    AddressDigits(a);
    if |d| % 2 == 1 {
      LeadingZero(d, 16);
      OddBelowEven(|d|, 14);
    }
  }

  /** The padded digits keep the address's value. */
  lemma PaddedAddressValue(a: nat)
    requires a <= MAX_SAFE_INTEGER
    ensures DigitsValue(PaddedAddress(a), 16) == a
  {
    PaddedDigits(a);
  }

  lemma OddBelowEven(n: int, m: int)
    requires n % 2 == 1 && m % 2 == 0 && n <= m
    ensures n + 1 <= m && (n + 1) % 2 == 0
  {
  }

  /** A safe address takes one to fourteen upper-case hex digits, which
      read back as the address. */
  lemma AddressDigits(a: nat)
    requires a <= MAX_SAFE_INTEGER
    ensures 1 <= |AddressText(a)| <= 14
    ensures AllRadixDigits(AddressText(a), 16) && DigitsValue(AddressText(a), 16) == a
  {
    UpperHexDigits(a);
    assert AddressText(a) == NatToRadix(a, 16, true);
    NatToRadixValue(a, 16, true);
    Pow16Fourteen();
    HexDigitsBound(a, 14, true);
  }

  /** The command the VM can read: the address padded to whole bytes, and
      their count as the size byte. An address outside `[0, 2^53)`, which a
      JavaScript number does not hold exactly or a device cannot have, has
      no command. */
  function BreakpointCommand(wb: WarduinoBridge, address: int): (r: Option<string>)
    ensures r.Some? <==> 0 <= wb.startAddress + address <= MAX_SAFE_INTEGER
    ensures r.Some? ==> |r.value| % 2 == 0 && 8 <= |r.value| <= 20
  {
    var a := wb.startAddress + address;
    if a < 0 || a > MAX_SAFE_INTEGER then None
    else
      var padded := PaddedAddress(a);
      Some("06" + HexByte(|padded| / 2) + padded + " \n")
  }

  /** A size byte followed by that many bytes of hex digits reads back as
      the digits' value. */
  lemma ParseWellFormedBreakpoint(size: Byte, digits: string)
    requires |digits| == 2 * size && AllRadixDigits(digits, 16)
    ensures ParseBreakpointCommand("06" + Hex([size]) + digits + " \n") == Some(DigitsValue(digits, 16))
  {
    var cmd := "06" + Hex([size]) + digits + " \n";
    assert cmd[..2] == "06" && cmd[|cmd| - 2..] == " \n";
    assert cmd[2..4] == Hex([size]);
    ParseHexOfHex([size]);
    assert cmd[4..|cmd| - 2] == digits;
  }

  /** The VM reads back the address the corrected command was built for. */
  lemma BreakpointRoundTrip(wb: WarduinoBridge, address: int)
    requires BreakpointCommand(wb, address).Some?
    ensures ParseBreakpointCommand(BreakpointCommand(wb, address).value) == Some(wb.startAddress + address)
  {
    var padded := PaddedAddress(wb.startAddress + address);
    PaddedAddressValue(wb.startAddress + address);
    var size: Byte := |padded| / 2;
    assert HexByte(size) == Hex([size]);
    ParseWellFormedBreakpoint(size, padded);
  }

  /** For an address with an even number of hex digits the command as
      written is the corrected one. */
  lemma AsWrittenAgreesOnEvenLength(wb: WarduinoBridge, address: int)
    requires 0 <= wb.startAddress + address <= MAX_SAFE_INTEGER
    requires |AddressText(wb.startAddress + address)| % 2 == 0
    ensures BreakpointCommand(wb, address) == Some(BreakpointCommandAsWritten(wb, address))
  {
    var a := wb.startAddress + address;
    var addr := AddressText(a);
    AddressLength(a);
    assert PaddedAddress(a) == addr;
    EvenHalfText(|addr|);
  }

  lemma AddressLength(a: nat)
    requires a <= MAX_SAFE_INTEGER
    ensures 1 <= |AddressText(a)| <= 14
  {
    AddressDigits(a);
  }

  /** For an even length up to 14 the size byte and the as-written size
      text agree. */
  lemma EvenHalfText(len: nat)
    requires len % 2 == 0 && 0 < len <= 14
    ensures "06" + HexByte(len / 2) == "060" + HalfLengthText(len)
  {
    var half := len / 2;
    assert half < 10;
    assert IntToHex(half) == [DigitChar(half, false)];
    assert HalfLengthText(len) == [DigitChar(half, true)];
    assert HexByte(half) == ['0', DigitChar(half, true)];
  }

  /** With an odd number of hex digits the command as written carries a
      size field with a fraction, `.8`, which no reader of hex digits
      accepts. */
  lemma AsWrittenOddLengthUnreadable(wb: WarduinoBridge, address: int)
    requires |AddressText(wb.startAddress + address)| % 2 == 1
    ensures ParseBreakpointCommand(BreakpointCommandAsWritten(wb, address)) == None
  {
    var addr := AddressText(wb.startAddress + address);
    var half := HalfLengthText(|addr|);
    assert half == IntToHex(|addr| / 2) + ".8";
    assert half[|half| - 2] == '.';
    DotBreaksDigits(half, addr);
    NonDigitsUnreadable(BreakpointCommandAsWritten(wb, address));
  }

  /** A fraction point in the size text lands among the digits. */
  lemma DotBreaksDigits(half: string, addr: string)
    requires |half| >= 3 && half[|half| - 2] == '.'
    ensures var cmd := "060" + half + addr + " \n";
            |cmd| >= 6 && !AllRadixDigits(cmd[4..|cmd| - 2], 16)
  {
    var cmd := "060" + half + addr + " \n";
    var digits := cmd[4..|cmd| - 2];
    assert digits[|half| - 3] == cmd[|half| + 1] == '.';
    assert !IsRadixDigit(digits[|half| - 3], 16);
  }

  /** A command whose address part is not all hex digits is not read. */
  lemma NonDigitsUnreadable(cmd: string)
    requires |cmd| >= 6 && !AllRadixDigits(cmd[4..|cmd| - 2], 16)
    ensures ParseBreakpointCommand(cmd) == None
  {
  }

  lemma AddressTextExample()
    ensures AddressText(0x1F3) == "1F3"
  {
    assert NatToRadix(1, 16, false) == "1";
    assert NatToRadix(31, 16, false) == "1f";
    assert NatToRadix(499, 16, false) == "1f3";
  }

  /** The smallest case: address 0x1F3 from start 0, three hex digits. */
  lemma AsWrittenCounterexample()
    ensures BreakpointCommandAsWritten(NewWarduinoBridge(None), 0x1F3) == "0601.81F3 \n"
    ensures ParseBreakpointCommand(BreakpointCommandAsWritten(NewWarduinoBridge(None), 0x1F3)) == None
  {
    AddressTextExample();
    assert HalfLengthText(3) == "1.8";
    AsWrittenOddLengthUnreadable(NewWarduinoBridge(None), 0x1F3);
  }

  /** For an odd number of hex digits the corrected command pads the
      address with one `0` and counts the padded bytes. */
  lemma CorrectedOddLength(wb: WarduinoBridge, address: int)
    requires 0 <= wb.startAddress + address <= MAX_SAFE_INTEGER
    requires |AddressText(wb.startAddress + address)| % 2 == 1
    ensures var cmd := BreakpointCommand(wb, address).value;
      cmd[4..|cmd| - 2] == "0" + AddressText(wb.startAddress + address)
  {
    var a := wb.startAddress + address;
    var padded := PaddedAddress(a);
    assert padded == "0" + AddressText(a);
    var head := "06" + HexByte(|padded| / 2);
    var cmd := BreakpointCommand(wb, address).value;
    assert cmd == head + padded + " \n";
    assert |head| == 4;
    assert cmd[4..|cmd| - 2] == padded;
  }
}

=== FILE: Wrappers.dfy ===
/** Failure-carrying return types shared by every module of the model.
    `None` stands for JavaScript's `undefined` result; `Err` for a thrown
    error or a rejected promise. Both `Option` and `Result` support `:-`. */
module Wrappers {

  datatype Option<+T> = None | Some(value: T) {

    predicate IsFailure() {
      None?
    }

    function PropagateFailure<U>(): Option<U>
      requires None?
    {
      None
    }

    function Extract(): T
      requires Some?
    {
      value
    }

    /** The `??` operator: the carried value, or `default` when absent. */
    function GetOr(default: T): T {
      if Some? then value else default
    }
  }

  datatype Result<+T, +E> = Ok(value: T) | Err(error: E) {

    predicate IsFailure() {
      Err?
    }

    function PropagateFailure<U>(): Result<U, E>
      requires Err?
    {
      Err(error)
    }

    function Extract(): T
      requires Ok?
    {
      value
    }
  }
}
